=== FILE: README.md ===
# networkk core logic, modelled in Dafny

networkk is the website and CMS of an executive-search firm. The website is an Astro site:
content pages, insight articles, a contact form, a health endpoint and SEO helpers. The CMS
is a Next.js application: a visual page builder, a link assistant, a live-preview channel,
a document-grounded chat with transcripts, and two maintenance scripts that lint the
content files. Both read content through a shared "content bridge" package, which holds
the zod schemas and a file-based content source.

This project models the sequential logic beneath those pieces. Requests, files, the
clock, environment variables and network probes become parameters. What is left are
total functions and small classes.

- `BlockSchemas`: the content schemas. Each is a validity predicate, a parser that fills
  in the declared defaults (`Some` exactly when the value is valid), and an encoder.
  Parsing is proved idempotent, and the block tree round-trips at every depth.
- `Preview`, `SessionIndex`, `ContactNew.RateLimiter`: the three module-level
  registries, as classes whose methods are proved against the map functions that specify
  them.
- `VisualBuilder`: the builder's state transitions (drop, reorder, update, snippet load,
  preview gate), the hero-form rule, the MDX serialiser and the pre-preview check.
- `SeoMeta`, `JsonLd`, `ContentAdapter`: titles from templates, the meta-tag list, the
  schema.org objects, slug matching and the fallback SEO record.
- `FileAdapter`: the insight filter, the stable newest-first sort, pagination and the
  `.json` filter.
- `SeoLint`, `DailyDigest` (with the shared `PageFiles`): the two scripts, as loops
  proved against list functions.
- `Health`, `Contact`, `ContactNew`, `Chat`, `Transcripts`, `LinkAssistant`: the
  endpoint decisions and what they build.
- `Values`, `Strings`, `Wrappers`: JavaScript values, the string built-ins the core uses,
  and `Option`.

Whether a string is a URL (zod's `.url()`) is the function parameter `isUrl` throughout.

## Model

| member | source | states |
|---|---|---|
| BlockSchemas.ParseSeo | packages/content-bridge/src/blockSchemas.ts:4-11 | parses iff title has 10..60 chars, description 120..160, canonical is a URL, image (if any) a URL, keywords (if any) strings; `noindex` is true only when given as true (default false); title, description, canonical, image and keywords are the given values, image and keywords present iff given |
| BlockSchemas.ParseSeoIdempotent | packages/content-bridge/src/blockSchemas.ts:4-11 | re-parsing encoded parsed SEO accepts it and yields the same record |
| BlockSchemas.ParseLayout | packages/content-bridge/src/blockSchemas.ts:14-18 | parses iff colSpan (if given) is in 1..12, rowSpan (if given) >= 1, order (if given) a number; colSpan defaults to 12, rowSpan to 1; a given colSpan, rowSpan or order is kept as given; order is present iff given |
| BlockSchemas.ParseLayoutIdempotent | packages/content-bridge/src/blockSchemas.ts:14-18 | re-parsing an encoded parsed layout yields the same layout |
| BlockSchemas.ParseHero | packages/content-bridge/src/blockSchemas.ts:28-43 | parses iff title 10..90, at most 2 CTAs each with a label of >= 3 chars and a known variant, media (if any) with URL image and alt >= 5; backgroundType defaults to 'solid', textAlign to 'center'; title, subtitle, media fields and each CTA's label, href and variant are the given values, one CTA per given one in order |
| BlockSchemas.HeroCtasRoundTrip | packages/content-bridge/src/blockSchemas.ts:36-40 | encoded parsed CTAs are valid and parse back to the same list |
| BlockSchemas.HeroRoundTrip | packages/content-bridge/src/blockSchemas.ts:28-43 | an encoded parsed hero is valid and parses back to the same hero |
| BlockSchemas.ParseHeroIdempotent | packages/content-bridge/src/blockSchemas.ts:28-43 | re-parsing an encoded parsed hero yields the same result |
| BlockSchemas.ParseTilesGrid | packages/content-bridge/src/blockSchemas.ts:46-56 | parses iff heading 5..50 and 3..12 items, each title <= 30 and description <= 120; columns defaults to '3'; heading, description, columns and each tile's title, description, icon and href are the given values, one tile per given item in order |
| BlockSchemas.TilesGridRoundTrip | packages/content-bridge/src/blockSchemas.ts:46-56 | an encoded parsed grid is valid and parses back to the same grid |
| BlockSchemas.ParseTilesGridIdempotent | packages/content-bridge/src/blockSchemas.ts:46-56 | re-parsing an encoded parsed grid yields the same result |
| BlockSchemas.TwoTilesRejected | packages/content-bridge/src/blockSchemas.ts:54 | a grid with two tiles is rejected whatever they hold |
| BlockSchemas.ParseTestimonials | packages/content-bridge/src/blockSchemas.ts:59-71 | parses iff heading 5..50 and 1..6 items, each quote 50..300 chars with a named author; layout defaults to 'grid'; heading, layout and each quote and author field are the given values, in order |
| BlockSchemas.ParseTestimonialsIdempotent | packages/content-bridge/src/blockSchemas.ts:59-71 | re-parsing encoded parsed testimonials yields the same result |
| BlockSchemas.ParseMetricsBand | packages/content-bridge/src/blockSchemas.ts:74-81 | parses iff 2..6 items, each value <= 10, label <= 30, description (if any) <= 100 chars; the heading and each item's value, label and description are the given values, in order |
| BlockSchemas.ParseMetricsBandIdempotent | packages/content-bridge/src/blockSchemas.ts:74-81 | re-parsing an encoded parsed band yields the same result |
| BlockSchemas.ParseFaq | packages/content-bridge/src/blockSchemas.ts:84-91 | parses iff heading 5..50 and at least 3 items, question 10..200, answer 20..500; jsonLd is false only when given as false (default true); the heading and each question and answer are the given values, in order |
| BlockSchemas.ParseFaqIdempotent | packages/content-bridge/src/blockSchemas.ts:84-91 | re-parsing an encoded parsed FAQ yields the same result |
| BlockSchemas.ParseCta | packages/content-bridge/src/blockSchemas.ts:94-106 | parses iff heading 10..60 with a primary link; the secondary link is present iff given; backgroundType defaults to 'solid'; heading, description, both links' label and href and a given backgroundType are the given values |
| BlockSchemas.ParseCtaIdempotent | packages/content-bridge/src/blockSchemas.ts:94-106 | re-parsing an encoded parsed call to action yields the same result |
| BlockSchemas.ParseBlockInstance | packages/content-bridge/src/blockSchemas.ts:109-124 | parses iff the envelope is valid at every depth; every block in the tree has one of the 10 type names; props are passed through unchecked; id and type are the given ones, the layout is the parsed given layout (present iff given), and the children, present iff given, are the given children each parsed |
| BlockSchemas.BlockTypesRegistered | packages/content-bridge/src/blockSchemas.ts:110-123 | every block of a parsed tree, children included, has a registered type |
| BlockSchemas.BlockInstanceRoundTrip | packages/content-bridge/src/blockSchemas.ts:109-124 | an encoded parsed block tree is valid and parses back to the same tree |
| BlockSchemas.ParseBlockInstanceIdempotent | packages/content-bridge/src/blockSchemas.ts:109-124 | re-parsing an encoded parsed block yields the same result |
| BlockSchemas.StrsRoundTrip | packages/content-bridge/src/blockSchemas.ts:10 | a list of strings encodes to a string array that reads back unchanged |
| BlockSchemas.ParsePage | packages/content-bridge/src/blockSchemas.ts:127-136 | parses iff slug matches `[a-z0-9-]+`, title 10..90, SEO valid, every block valid, dates are dates; status defaults to 'draft', a given status is kept; slug, title and dates are the given values; the seo is the parsed SEO; block i is input block i parsed |
| BlockSchemas.ParseInsight | packages/content-bridge/src/blockSchemas.ts:139-159 | parses iff slug matches, title 10..90, excerpt 50..200, content >= 100, and author, date, category, tags, reading time and SEO are valid; the SEO object is required; slug, title, excerpt, content, category, date, reading time, tags, author and featured image fields are the given values, and the seo is the parsed SEO |
| Preview.SubscribeAdds | apps/cms/lib/preview.ts:5-9 | after subscribe the handle is in the slug's set, whether or not the slug was known; other slugs untouched |
| Preview.SubscribeIdempotent | apps/cms/lib/preview.ts:6-7 | subscribing twice equals subscribing once |
| Preview.NoEmptySetsPreserved | apps/cms/lib/preview.ts:5-17 | subscribe and unsubscribe keep every subscriber set non-empty |
| Preview.UnsubscribeRemoves | apps/cms/lib/preview.ts:11-17 | after unsubscribe the handle is not subscribed to the slug; the slug is dropped only when the handle was its last subscriber; other slugs untouched |
| Preview.UnsubscribeUnknown | apps/cms/lib/preview.ts:12-14 | unsubscribing an unknown slug or handle changes nothing |
| Preview.SubscribeThenUnsubscribe | apps/cms/lib/preview.ts:5-17 | subscribing a new handle and unsubscribing it restores the registry |
| Preview.Subscribed | apps/cms/lib/preview.ts:5-9 | the slug becomes registered and holds the handle; no subscriber of any slug is lost |
| Preview.Unsubscribed | apps/cms/lib/preview.ts:11-17 | no slug is added and no subscriber gained; the handle is no longer subscribed to the slug |
| Preview.Connection.constructor | apps/cms/lib/preview.ts:23 | a new connection has had nothing written to it |
| Preview.Connection.Write | apps/cms/lib/preview.ts:23 | a write appends exactly one frame |
| Preview.Registry.constructor | apps/cms/lib/preview.ts:3 | the registry starts empty |
| Preview.Registry.Subscribe | apps/cms/lib/preview.ts:5-9 | the new registry is the subscribed map; no empty sets |
| Preview.Registry.Unsubscribe | apps/cms/lib/preview.ts:11-17 | the new registry is the unsubscribed map; no empty sets |
| Preview.Registry.Publish | apps/cms/lib/preview.ts:19-25 | each subscriber of the slug receives exactly one `data: update` frame; the registry is unchanged; nothing is written when the slug is absent |
| SessionIndex.AppendedSequential | apps/cms/lib/sessionIndex.ts:23-26 | appending keeps ids 1..n, adds one document with id n+1 at the end and keeps the earlier ones |
| SessionIndex.FirstAdd | apps/cms/lib/sessionIndex.ts:27-31 | the first document of a session is `[{id: 1, text, url}]` |
| SessionIndex.AddPreserves | apps/cms/lib/sessionIndex.ts:15-33 | adding keeps every session's ids sequential, restarts that session's expiry at now + 1 hour, and changes no other session |
| SessionIndex.ExpireRemovesOnlyThatSession | apps/cms/lib/sessionIndex.ts:15-19 | an expired session reads as no documents; other sessions are unchanged |
| SessionIndex.AddAllInOrder | apps/cms/lib/sessionIndex.ts:21-33 | successive additions are stored in insertion order with ids 1..n |
| SessionIndex.AfterAdd | apps/cms/lib/sessionIndex.ts:21-33 | the session exists and expires at now + 1 hour; its documents are the earlier ones followed by one new document with the given text and url |
| SessionIndex.AfterExpire | apps/cms/lib/sessionIndex.ts:15-19 | no session is added and the remaining ones are unchanged; the session is gone iff it was absent or its deadline has passed |
| SessionIndex.Documents | apps/cms/lib/sessionIndex.ts:35-37 | an unknown session has no documents; under the index invariant the ids are 1..n |
| SessionIndex.Index.constructor | apps/cms/lib/sessionIndex.ts:12 | the index starts empty |
| SessionIndex.Index.AddDocument | apps/cms/lib/sessionIndex.ts:21-33 | the new index is the index after adding; the invariant holds |
| SessionIndex.Index.GetDocuments | apps/cms/lib/sessionIndex.ts:35-37 | an unknown session gives []; otherwise its documents, with ids 1..n |
| SessionIndex.Index.Expire | apps/cms/lib/sessionIndex.ts:15-19 | the new index is the index after the timer fires; the invariant holds |
| ContactNew.ValidateEmailMatchesPattern | apps/website/src/pages/api/contact-new.ts:32-35 | the e-mail check accepts exactly `[^\s@]+@[^\s@]+\.[^\s@]+` read literally |
| ContactNew.ScanImpliesPattern | apps/website/src/pages/api/contact-new.ts:33 | every accepted e-mail matches the pattern |
| ContactNew.PatternImpliesScan | apps/website/src/pages/api/contact-new.ts:33 | every split of the form plain@plain.plain is accepted |
| ContactNew.ValidateEmail | apps/website/src/pages/api/contact-new.ts:32-35 | an accepted e-mail has at least 5 characters, no whitespace and at most one '@' |
| ContactNew.Cleaned | apps/website/src/pages/api/contact-new.ts:40 | only digits and '+' remain, every digit and '+' of the input occurs in it, and it is no longer than the input |
| ContactNew.CleanedConcat | apps/website/src/pages/api/contact-new.ts:40 | cleaning a concatenation is the concatenation of the cleaned parts, so the kept characters stay in input order |
| ContactNew.CleanedOne | apps/website/src/pages/api/contact-new.ts:40 | a single character is kept iff it is a digit or '+' |
| ContactNew.CleanedKeepsClean | apps/website/src/pages/api/contact-new.ts:40 | a string of digits and '+' is unchanged |
| ContactNew.IndianShapeIsIntl | apps/website/src/pages/api/contact-new.ts:42 | every number of the `(\+91\|91)?[6-9]\d{9}` form also has the `\+?[1-9]\d{7,14}` form |
| ContactNew.ValidatePhone | apps/website/src/pages/api/contact-new.ts:37-44 | a blank phone passes; a passing non-blank phone cleans to 8..16 characters, all digits after the first |
| ContactNew.ValidatePhoneExactly | apps/website/src/pages/api/contact-new.ts:37-44 | a phone passes iff it is blank or its cleaned form is an optional '+' followed by 8..15 digits not starting with 0 |
| ContactNew.Allowed | apps/website/src/pages/api/contact-new.ts:174-192 | a client with no record is always let through; a request is let through iff the check changes the store |
| ContactNew.AfterCheck | apps/website/src/pages/api/contact-new.ts:179-191 | the store gains the client's record and no other; its window ends no earlier than now; an open window keeps its end |
| ContactNew.AfterCheckPreserves | apps/website/src/pages/api/contact-new.ts:174-192 | a check keeps every count in 1..5, touches only the caller's record, and leaves the store unchanged when it refuses |
| ContactNew.OpenWindowBound | apps/website/src/pages/api/contact-new.ts:186-191 | within an open window at most 5 - count further requests are let through |
| ContactNew.AtMostFivePerWindow | apps/website/src/pages/api/contact-new.ts:176-191 | a window opened at `start` lets at most 5 requests through before it ends |
| ContactNew.RateLimiter.constructor | apps/website/src/pages/api/contact-new.ts:172 | the store starts empty |
| ContactNew.RateLimiter.CheckRateLimit | apps/website/src/pages/api/contact-new.ts:174-192 | the answer is whether the request is allowed; the store becomes the store after the check (new window with count 1, full window unchanged, else count + 1) |
| ContactNew.ReadForm | apps/website/src/pages/api/contact-new.ts:216-224 | each of the seven text fields is the trimmed submitted value, or '' when the key was not sent (so it is trimmed); consent is the raw value, or '' when missing |
| ContactNew.PhoneRejected | apps/website/src/pages/api/contact-new.ts:238-240 | a phone is rejected only when it is non-blank and fails the phone check |
| ContactNew.Rules | apps/website/src/pages/api/contact-new.ts:228-260 | eight rules in the endpoint's order; the phone rule is the rejected-phone rule; the consent rule is broken iff consent is neither 'true' nor 'on' |
| ContactNew.Broken | apps/website/src/pages/api/contact-new.ts:228-262 | at most one message per rule; a rule's message is reported iff the rule is broken |
| ContactNew.BrokenEmptyIff | apps/website/src/pages/api/contact-new.ts:228-262 | there is no message iff no rule is broken |
| ContactNew.CollectBroken | apps/website/src/pages/api/contact-new.ts:228-260 | the loop collects the messages of the broken rules in rule order |
| ContactNew.ValidateContact | apps/website/src/pages/api/contact-new.ts:228-260 | the validation block yields one message per broken rule, in rule order |
| ContactNew.AcceptedIff | apps/website/src/pages/api/contact-new.ts:230-260 | no message iff name, company, job title >= 2 chars, valid e-mail, phone valid or blank, a service, message >= 5 chars and consent 'true' or 'on' |
| ContactNew.ClientIp | apps/website/src/pages/api/contact-new.ts:198-200 | the first non-empty of x-forwarded-for and x-real-ip, else 'unknown'; never empty |
| ContactNew.Decide | apps/website/src/pages/api/contact-new.ts:202-271 | 429 iff refused by the limiter; 400 iff allowed with messages, joined by '. '; 200 iff allowed without messages |
| ContactNew.Respond | apps/website/src/pages/api/contact-new.ts:202-306 | the answer is the decision for the limiter's verdict and the form's broken rules |
| ContactNew.Answer | apps/website/src/pages/api/contact-new.ts:228-306 | an allowed request is answered by its form's broken rules |
| ContactNew.Post | apps/website/src/pages/api/contact-new.ts:195-306 | the rate limit is checked first and the store updated; the answer is the decision for that verdict and the form's rules |
| VisualBuilder.HeroAccepts | apps/cms/components/builder/VisualBuilder.tsx:31-41 | with the right shape, hero data is accepted iff decorative is true or the heading is non-empty |
| VisualBuilder.HeroDefaultAccepted | apps/cms/components/builder/VisualBuilder.tsx:38-41 | the default hero is accepted; an empty heading is rejected unless decorative |
| VisualBuilder.Find | apps/cms/components/builder/VisualBuilder.tsx:233 | finds a block iff one has the id; the found block is one of the list with that id |
| VisualBuilder.FindUnique | apps/cms/components/builder/VisualBuilder.tsx:233 | with unique ids, a block's id finds that block |
| VisualBuilder.FollowLayout | apps/cms/components/builder/VisualBuilder.tsx:233 | at most one block per layout entry, each one of the previous blocks |
| VisualBuilder.FollowLayoutOrder | apps/cms/components/builder/VisualBuilder.tsx:231-234 | reordering keeps only existing blocks, listed by the layout's ids; ids with no block are dropped |
| VisualBuilder.FollowLayoutIdentity | apps/cms/components/builder/VisualBuilder.tsx:233 | a layout listing the blocks' ids in order leaves the blocks unchanged |
| VisualBuilder.Updated | apps/cms/components/builder/VisualBuilder.tsx:240 | same length, ids and types; a block's data is replaced iff its id matches |
| VisualBuilder.UpdatedChangesOne | apps/cms/components/builder/VisualBuilder.tsx:238-241 | with unique ids exactly the selected block's data changes |
| VisualBuilder.SnippetLayout | apps/cms/components/builder/VisualBuilder.tsx:253 | one full-width entry per block, in block order, at y = 2·index |
| VisualBuilder.SnippetLayoutKeepsOrder | apps/cms/components/builder/VisualBuilder.tsx:252-253 | a snippet's own layout keeps its blocks in place |
| VisualBuilder.BulletsLines | apps/cms/components/builder/VisualBuilder.tsx:275-279 | the list's lines are the text's lines each prefixed with '- ', and stripping the prefixes gives back the text |
| VisualBuilder.BlockToMdx | apps/cms/components/builder/VisualBuilder.tsx:270-287 | an unknown type gives ''; an image renders as `![…](…)`, a call to action as `[…](…)`; a hero starts with '## ', its heading and a line break; plain text verbatim; a list has one line per line of the text |
| VisualBuilder.BlocksToMdx | apps/cms/components/builder/VisualBuilder.tsx:268-289 | no blocks give ''; a single block gives its own rendering |
| VisualBuilder.BlocksToMdxAppend | apps/cms/components/builder/VisualBuilder.tsx:268-289 | each block adds its rendering after a blank line; an unknown type adds '' |
| VisualBuilder.MdxExamples | apps/cms/components/builder/VisualBuilder.tsx:272-284 | image renders as `![alt](url)`, cta as `[text](url)`, plain text verbatim, a hero as `## heading` + newline + content, with nothing after the newline when the content is absent |
| VisualBuilder.BlockIssues | apps/cms/components/builder/VisualBuilder.tsx:305-310 | at most one message per block; none iff an image has alt text and a hero is decorative or has a heading |
| VisualBuilder.SeoIssues | apps/cms/components/builder/VisualBuilder.tsx:302-313 | at most one message per block, each starting 'Image block #' or 'Hero block #' |
| VisualBuilder.SeoIssuesEmptyIff | apps/cms/components/builder/VisualBuilder.tsx:302-313 | no message iff every image has alt text and every hero is decorative or has a heading |
| VisualBuilder.ValidateSeo | apps/cms/components/builder/VisualBuilder.tsx:302-313 | for blocks whose image and hero data are objects, the loop yields the messages of each block at its 1-based position, in block order |
| VisualBuilder.Builder.constructor | apps/cms/components/builder/VisualBuilder.tsx:209-211 | the builder starts with no blocks, no layout, nothing selected |
| VisualBuilder.Builder.HandleDragEnd | apps/cms/components/builder/VisualBuilder.tsx:216-229 | a registered type dropped on the canvas appends one block (the generated id, which no block carries yet, and the default data) and one layout entry {x: 0, y: bottom, w: 12, h: 2}; unique ids stay unique; any other drop changes nothing |
| VisualBuilder.Builder.HandleLayoutChange | apps/cms/components/builder/VisualBuilder.tsx:231-234 | the layout is replaced and the blocks follow it |
| VisualBuilder.Builder.UpdateSelected | apps/cms/components/builder/VisualBuilder.tsx:236-241 | with nothing selected nothing changes; otherwise the blocks become the update of the selected id |
| VisualBuilder.Builder.SelectedBlock | apps/cms/components/builder/VisualBuilder.tsx:236 | nothing selected gives null; otherwise a block with the selected id, found iff some block has that id |
| VisualBuilder.Builder.LoadSnippet | apps/cms/components/builder/VisualBuilder.tsx:248-255 | no snippet changes nothing; a snippet replaces the blocks and gets its stacked layout |
| VisualBuilder.Builder.Preview | apps/cms/components/builder/VisualBuilder.tsx:315-323 | for blocks whose image and hero data are objects, the preview opens iff every block passes the check; otherwise the alert lists the issues |
| SeoMeta.GenerateTitle | apps/website/src/lib/seo.ts:7-10 | an absent or empty template gives the title; a template without '%s' is returned unchanged |
| SeoMeta.GenerateTitleFirstOnly | apps/website/src/lib/seo.ts:9 | only the first '%s' is replaced; later ones stay |
| SeoMeta.GenerateTitleLeading | apps/website/src/lib/seo.ts:9 | a template starting with '%s' puts the title first |
| SeoMeta.BaseTags | apps/website/src/lib/seo.ts:15-30 | exactly nine tags with the keys description, robots, og:title, og:description, og:type, og:url, twitter:card, twitter:title, twitter:description in that order; the og:* tags are properties, the rest names; og:type is 'website', og:url the canonical, twitter:card 'summary_large_image' |
| SeoMeta.RobotsTag | apps/website/src/lib/seo.ts:18 | robots is 'noindex,follow' iff noindex, else 'index,follow' |
| SeoMeta.SharedTitleAndDescription | apps/website/src/lib/seo.ts:13-30 | og:title and twitter:title are the templated title; the three descriptions are the page description |
| SeoMeta.GenerateMetaTags | apps/website/src/lib/seo.ts:12-46 | the nine base tags first; og:image then twitter:image iff an image is set; a keywords tag joined by ', ' last iff keywords are non-empty; length 9 + 2·[image] + [keywords] |
| SeoMeta.BreadcrumbSchema | apps/website/src/lib/seo.ts:98-107 | type BreadcrumbList with the list items at positions 1..n |
| SeoMeta.ArticleSchema | apps/website/src/lib/seo.ts:109-142 | dateModified defaults to datePublished when absent or empty; image present iff given; url and mainEntityOfPage @id are the article URL |
| JsonLd.Organization | apps/website/src/lib/seo/jsonld.ts:7-15 | schema.org context, type Organization, name, url and logo copied, and no other key |
| JsonLd.Website | apps/website/src/lib/seo/jsonld.ts:23-38 | potentialAction present iff searchUrl is non-empty, with target searchUrl + '{search_term_string}' |
| JsonLd.ListItems | apps/website/src/lib/seo/jsonld.ts:49-54 | same length as the input; element k is a ListItem at position k + 1 with the k-th name and url |
| JsonLd.BreadcrumbList | apps/website/src/lib/seo/jsonld.ts:45-56 | schema.org context, type BreadcrumbList, itemListElement the list items |
| JsonLd.BreadcrumbListRoundTrip | apps/website/src/lib/seo/jsonld.ts:45-56 | the trail reads back from the list unchanged, positions 1..n |
| FileAdapter.JsonFiles | packages/content-bridge/src/adapters/file.ts:28 | exactly the listed names ending in '.json' |
| FileAdapter.GetOne | packages/content-bridge/src/adapters/file.ts:7-19 | null iff the file cannot be read or parsed; otherwise the document |
| FileAdapter.GetPages | packages/content-bridge/src/adapters/file.ts:21-42 | [] on any failure; otherwise the `.json` files' documents in listing order |
| FileAdapter.InCategory | packages/content-bridge/src/adapters/file.ts:75-80 | kept iff the category matches ignoring ASCII case |
| FileAdapter.CategoryMatches | packages/content-bridge/src/adapters/file.ts:78 | a match has a category of the requested length; an identical category always matches |
| FileAdapter.InsertPermutes | packages/content-bridge/src/adapters/file.ts:83 | insertion adds exactly the inserted insight |
| FileAdapter.InsertNewestFirst | packages/content-bridge/src/adapters/file.ts:83 | inserting into a newest-first list keeps it newest first |
| FileAdapter.InsertKeepsTies | packages/content-bridge/src/adapters/file.ts:83 | insertion places an insight before the ones published at the same instant |
| FileAdapter.SortNewestFirst | packages/content-bridge/src/adapters/file.ts:83 | the same insights, as many times each (a permutation) |
| FileAdapter.SortNewestFirstCorrect | packages/content-bridge/src/adapters/file.ts:83 | the sort is newest first, a permutation, and stable |
| FileAdapter.SliceIndex | packages/content-bridge/src/adapters/file.ts:88 | the clamped slice index lies in 0..n and is i itself when in range |
| FileAdapter.Slice | packages/content-bridge/src/adapters/file.ts:88 | the slice holds elements of the list, at most end - start of them |
| FileAdapter.Offset | packages/content-bridge/src/adapters/file.ts:86 | the given offset, or 0 when absent |
| FileAdapter.Limit | packages/content-bridge/src/adapters/file.ts:87 | a given non-zero limit; the list length when absent or 0 |
| FileAdapter.GetInsights | packages/content-bridge/src/adapters/file.ts:58-99 | failure gives an empty page; total is the filtered count; items is the slice [offset, offset + limit) of the sorted filtered list; hasMore iff offset + limit < total |
| FileAdapter.Selected | packages/content-bridge/src/adapters/file.ts:75-80 | with a non-empty category exactly the matching insights are kept; without one, all; never more than given |
| FileAdapter.GetInsightsPage | packages/content-bridge/src/adapters/file.ts:75-94 | returned insights are loaded ones of the category, newest first, at most `limit` of them |
| FileAdapter.GetInsightsAll | packages/content-bridge/src/adapters/file.ts:86-94 | with no options every insight is returned newest first, total is the count and hasMore is false |
| FileAdapter.ConsecutivePages | packages/content-bridge/src/adapters/file.ts:86-88 | two consecutive pages concatenate to the page that spans both |
| ContentAdapter.PagePathSlug | apps/website/src/lib/content/adapter.ts:36-38 | a page file's path stands for its own slug, nested folders included |
| ContentAdapter.PagePathMatchesOnlyItsSlug | apps/website/src/lib/content/adapter.ts:36-38 | a page file matches a slug iff it is that slug's file |
| ContentAdapter.PathSlugs | apps/website/src/lib/content/adapter.ts:36-38 | one slug per module path, in module order |
| ContentAdapter.SlugOfPath | apps/website/src/lib/content/adapter.ts:37 | a path holding neither the pages prefix nor '.json' is its own slug |
| ContentAdapter.FirstIndex | apps/website/src/lib/content/adapter.ts:36 | the first position of the element, or -1 iff absent |
| ContentAdapter.TrimTrailingSlash | apps/website/src/lib/content/adapter.ts:56 | removes one trailing '/', and changes nothing without one |
| ContentAdapter.FallbackSeo | apps/website/src/lib/content/adapter.ts:53-60 | title `title - site` when the title is truthy, else the site name; description the excerpt or the site description; canonical the trimmed site URL + '/path/'; noindex false; keywords from the document's SEO or [] |
| ContentAdapter.MergedSeo | apps/website/src/lib/content/adapter.ts:61 | an object with every fallback key; the document's own SEO fields override the fallback; a falsy or non-object SEO gives the fallback |
| ContentAdapter.Resolve | apps/website/src/lib/content/adapter.ts:45-63 | an object whose seo is an object; every other field is the document's |
| ContentAdapter.ContentOf | apps/website/src/lib/content/adapter.ts:46 | a non-object module is itself; otherwise the module or its `default`; a truthy module gives a truthy result |
| ContentAdapter.SiteCanonical | apps/website/src/lib/content/adapter.ts:53-81 | fallback canonicals are `https://networkk.com/slug/` and `https://networkk.com/insights/slug/` |
| ContentAdapter.ResolveValid | apps/website/src/lib/content/adapter.ts:63 | valid SEO is replaced by its parsed record; other fields are kept |
| ContentAdapter.ResolveFallback | apps/website/src/lib/content/adapter.ts:53-61 | with invalid SEO, the document's own SEO fields win over the fallback; other fields are kept |
| ContentAdapter.LoadPageBySlug | apps/website/src/lib/content/adapter.ts:33-68 | null iff no path matches; otherwise the first matching module, resolved |
| ContentAdapter.LoadInsightBySlug | apps/website/src/lib/content/adapter.ts:70-97 | null iff the insight module is missing; otherwise resolved under insights/slug |
| ContentAdapter.ValidateBlockData | apps/website/src/lib/content/adapter.ts:100-104 | a passing block is an object whose id, type and props are present and not null; null props fail |
| ContentAdapter.SchemaBlocksPass | apps/website/src/lib/content/adapter.ts:100-104 | a block the block schema accepts passes, given a non-empty id and truthy props |
| ContentAdapter.UnregisteredTypePasses | apps/website/src/lib/content/adapter.ts:100-104 | the check ignores the type name: an unregistered type passes |
| PageFiles.ReadPages | apps/cms/scripts/seo-lint.mjs:6-11 | page k is the k-th `.json` file of the listing, with its parsed document |
| PageFiles.BlocksOf | apps/cms/scripts/seo-lint.mjs:11 | missing blocks read as []; present blocks are returned as given |
| SeoLint.LintPage | apps/cms/scripts/seo-lint.mjs:10-24 | one iteration appends exactly the page's errors: title, description, then Hero alt errors |
| SeoLint.ReportAltErrors | apps/cms/scripts/seo-lint.mjs:20-24 | the loop appends one error per Hero without alt text, numbered from 1, in block order |
| SeoLint.Lint | apps/cms/scripts/seo-lint.mjs:9-35 | the errors of all pages in file order; exit status 1 iff there are errors |
| SeoLint.AltErrorsComplete | apps/cms/scripts/seo-lint.mjs:20-24 | every Hero with media but no alt is reported under its 1-based number |
| SeoLint.AltErrorsSound | apps/cms/scripts/seo-lint.mjs:21 | every alt error names a Hero with media but no alt |
| SeoLint.AltErrorsEmptyIff | apps/cms/scripts/seo-lint.mjs:20-24 | no alt error iff no Hero lacks alt text |
| SeoLint.LintErrors | apps/cms/scripts/seo-lint.mjs:9-35 | some error, and so exit status 1, iff some page has a problem |
| SeoLint.EmptyPage | apps/cms/scripts/seo-lint.mjs:11-18 | a page without SEO and blocks gets exactly the two SEO errors |
| SeoLint.PageErrors | apps/cms/scripts/seo-lint.mjs:11-24 | at most two errors plus one per block; some error iff the page has a problem |
| DailyDigest.DigestPage | apps/cms/scripts/daily-digest.mjs:10-25 | one iteration appends the file to the H2 list iff it has no H2, and its alt entries in block order |
| DailyDigest.Digest | apps/cms/scripts/daily-digest.mjs:10-26 | the two lists are the files without an H2 and the alt entries, in file order |
| DailyDigest.MissingH2Iff | apps/cms/scripts/daily-digest.mjs:13-25 | a file is listed iff it has no Heading block of level 2 with text |
| DailyDigest.NoBlocksNoH2 | apps/cms/scripts/daily-digest.mjs:12-25 | a page with no blocks is listed |
| DailyDigest.RegisteredBlocksNeverH2 | apps/cms/scripts/daily-digest.mjs:16 | pages whose blocks all have registered types are always listed, since 'Heading' is not registered |
| DailyDigest.AltEntriesExactly | apps/cms/scripts/daily-digest.mjs:15-21 | one entry per block of any type with media but no alt, and only those |
| DailyDigest.MissingH2 | apps/cms/scripts/daily-digest.mjs:10-25 | at most one entry per file |
| DailyDigest.MissingAlt | apps/cms/scripts/daily-digest.mjs:10-22 | no entry iff no page has a block with media but no alt text |
| Health.TestEmail | apps/website/src/pages/api/health.ts:27-34 | healthy iff the API key is set, else degraded |
| Health.TestAnalytics | apps/website/src/pages/api/health.ts:36-43 | healthy iff both GA variables are set, else unhealthy |
| Health.TestExternal | apps/website/src/pages/api/health.ts:45-61 | unhealthy iff the probe failed; healthy iff it answered OK |
| Health.SettledStatus | apps/website/src/pages/api/health.ts:96-98 | a rejected check counts as unhealthy |
| Health.CountUnhealthyPositive | apps/website/src/pages/api/health.ts:103 | some service is unhealthy iff the count is positive |
| Health.Overall | apps/website/src/pages/api/health.ts:101-108 | healthy iff no service is unhealthy; degraded only when some service is unhealthy |
| Health.StatusCode | apps/website/src/pages/api/health.ts:115-116 | 503 iff unhealthy, else 200 |
| Health.ServiceStatuses | apps/website/src/pages/api/health.ts:102 | the statuses of the services, in order |
| Health.Uptime | apps/website/src/pages/api/health.ts:162 | time since the module was loaded; never negative |
| Health.UptimeAgrees | apps/website/src/pages/api/health.ts:162 | the corrected uptime is the one POST reports at the same instant, and it never decreases |
| Health.UptimeAsWrittenIsRequestTime | apps/website/src/pages/api/health.ts:65-74 | as written, GET's uptime never exceeds the request's own duration |
| Health.Get | apps/website/src/pages/api/health.ts:64-124 | detailed mode lists the e-mail, analytics and external checks and reports memory; otherwise no services; the status is the aggregate; 503 iff unhealthy; the uptime is as written, the request's own elapsed time, never more than the response time |
| Health.NoUnhealthyIsHealthy | apps/website/src/pages/api/health.ts:102-108 | degraded services alone leave the status healthy |
| Health.DetailedUnhealthyIff | apps/website/src/pages/api/health.ts:102-116 | 503 iff at least two checks are unhealthy or rejected |
| Health.UnconfiguredSiteIsDegraded | apps/website/src/pages/api/health.ts:27-116 | with nothing configured and a good probe the report is degraded with 200 |
| Health.PostStatus | apps/website/src/pages/api/health.ts:150-158 | 200 iff a token is configured and the header is 'Bearer ' + token; else 401 |
| Health.NoTokenRefusesAll | apps/website/src/pages/api/health.ts:153 | without a token every request is refused |
| Health.SystemInfoOf | apps/website/src/pages/api/health.ts:160-178 | the configuration flags agree with the service checks; emailService is 'resend' iff configured |
| Contact.FromEntries | apps/website/src/pages/api/contact.ts:38 | the keys are exactly those of the entries |
| Contact.FromEntriesLastWins | apps/website/src/pages/api/contact.ts:38 | a key holds the value of its last entry |
| Contact.ReadBody | apps/website/src/pages/api/contact.ts:15-50 | a JSON content type fails iff JSON parsing fails; otherwise form reading fails iff it throws |
| Contact.Field | apps/website/src/pages/api/contact.ts:53-59 | a missing or null field reads as ''; a string field as itself |
| Contact.Consent | apps/website/src/pages/api/contact.ts:60 | consent is always a truthy value; the string 'true' is not consent |
| Contact.Post | apps/website/src/pages/api/contact.ts:8-158 | 400 'Invalid JSON format' / 'Invalid form data'; 500 on a null body; 400 'Missing required fields' before 400 'Invalid email format'; 200 with the mail (to, from, subject, body, replyTo) iff all pass |
| Contact.ConsentValues | apps/website/src/pages/api/contact.ts:60 | consent is 'on' or true; the string 'true' does not count |
| Contact.FormConsent | apps/website/src/pages/api/contact.ts:38-60 | a form-encoded submission consents only with 'on' |
| Contact.EmailBody | apps/website/src/pages/api/contact.ts:87-102 | the trimmed body is the message text: trimming removes only the template's opening newline and closing indentation |
| Contact.EmailBodyOptionalFields | apps/website/src/pages/api/contact.ts:92-95 | the body shows 'Not provided' / 'Not specified' for an empty phone / service, else the value |
| Contact.RequiredBeforeEmail | apps/website/src/pages/api/contact.ts:63-83 | a submission missing a field with a bad e-mail breaks both checks, so the required-field answer is the one given |
| Chat.CitationOf | apps/cms/pages/api/chat.ts:14 | a citation iff there are documents; label '[1]'; url '#' iff the first url is absent or empty (or '#') |
| Chat.AnswerOf | apps/cms/pages/api/chat.ts:15-17 | no documents give the fixed message; otherwise the fixed opening, at most 100 characters, then '...' |
| Chat.ReplyOf | apps/cms/pages/api/chat.ts:14-21 | at most one citation, exactly one iff there are documents; no documents gives the fixed message and no citations |
| Chat.ReplyQuotesFirstDocument | apps/cms/pages/api/chat.ts:15-19 | the reply is the fixed opening, a prefix of the first document of length min(100, length), then '... [1]' |
| Chat.Handle | apps/cms/pages/api/chat.ts:5-29 | 405 iff not POST; 400 iff sessionId or message is falsy; otherwise the user and assistant messages are logged; answered iff the message is a string; escalated iff it contains 'escalate' in any case |
| Chat.Escalates | apps/cms/pages/api/chat.ts:26 | a message containing 'escalate' escalates; an escalating message has at least 8 characters |
| Chat.EscalationIgnoresCase | apps/cms/pages/api/chat.ts:26 | escalation does not depend on letter case |
| Chat.UnknownSessionAnswer | apps/cms/pages/api/chat.ts:13-21 | an unknown session is answered with the fixed message and no citation |
| Chat.HandledExchangeCounts | apps/cms/pages/api/chat.ts:22-25 | each handled exchange adds one session and two messages to the analytics |
| Transcripts.MessageCountConcat | apps/cms/lib/transcripts.ts:26 | the message count of a concatenation is the sum of the counts |
| Transcripts.MessageCountZeroIff | apps/cms/lib/transcripts.ts:26 | no messages iff every entry is empty |
| Transcripts.MessageCount | apps/cms/lib/transcripts.ts:26 | no entry holds more messages than the count |
| Transcripts.AnalyticsOf | apps/cms/lib/transcripts.ts:23-28 | sessions is the entry count, messages the summed message count |
| Transcripts.AnalyticsAfterLog | apps/cms/lib/transcripts.ts:16-28 | logging adds one session and that entry's messages |
| Transcripts.UnreadableFileStartsEmpty | apps/cms/lib/transcripts.ts:7-14 | an unreadable file reports zero, and the first log becomes the only entry |
| Transcripts.TranscriptStore.constructor | apps/cms/lib/transcripts.ts:5 | the store holds the given file contents |
| Transcripts.TranscriptStore.ReadAll | apps/cms/lib/transcripts.ts:7-14 | an unreadable file reads as [] |
| Transcripts.TranscriptStore.LogTranscript | apps/cms/lib/transcripts.ts:16-21 | exactly one entry is appended; earlier entries are unchanged |
| Transcripts.TranscriptStore.GetAnalytics | apps/cms/lib/transcripts.ts:23-28 | sessions is the number of entries, messages their summed count |
| LinkAssistant.Missing | apps/cms/components/LinkAssistant.tsx:12 | exactly the links whose keyword is not in the content |
| LinkAssistant.Suggestions | apps/cms/components/LinkAssistant.tsx:12 | at most 3; exactly the fixed links whose keyword is absent, case-sensitively |
| LinkAssistant.Rendered | apps/cms/components/LinkAssistant.tsx:13 | nothing rendered iff there are no suggestions |
| LinkAssistant.MissingConcat | apps/cms/components/LinkAssistant.tsx:12 | filtering keeps list order |
| LinkAssistant.SuggestionsInOrder | apps/cms/components/LinkAssistant.tsx:5-12 | Services, Insights, Case Studies in that order, each iff its keyword is absent, so each at most once |
| LinkAssistant.NothingRenderedIff | apps/cms/components/LinkAssistant.tsx:13 | nothing rendered iff all three keywords occur |
| LinkAssistant.EmptyContentSuggestsAll | apps/cms/components/LinkAssistant.tsx:5-12 | empty content gets all three links |
| Strings.TrimStart | apps/website/src/pages/api/contact.ts:102 | the suffix after the leading whitespace |
| Strings.TrimEnd | apps/website/src/pages/api/contact.ts:102 | the prefix before the trailing whitespace |
| Strings.TrimIdempotent | apps/website/src/pages/api/contact-new.ts:217-223 | trimming twice equals trimming once |
| Strings.TrimEmptyIffBlank | apps/website/src/pages/api/contact-new.ts:38 | trimming gives '' iff the string is all whitespace |
| Strings.TrimAround | apps/website/src/pages/api/contact.ts:87-102 | trimming whitespace wrapped around a core gives the core |
| Strings.IndexFrom | apps/website/src/lib/seo.ts:9 | the first occurrence at or after k, or -1 iff none |
| Strings.IndexOf | apps/website/src/lib/seo.ts:9 | the first occurrence, or -1 iff none |
| Strings.ReplaceFirst | apps/website/src/lib/seo.ts:9 | a string without the pattern is unchanged |
| Strings.ReplaceFirstAt | apps/website/src/lib/seo.ts:9 | only the first occurrence is replaced |
| Strings.ReplacePrefix | apps/website/src/lib/content/adapter.ts:37 | a leading pattern is replaced |
| Strings.ReplaceFirstAfter | apps/website/src/lib/content/adapter.ts:37 | the first occurrence after a pattern-free prefix is the one replaced |
| Strings.JoinAppend | apps/cms/components/builder/VisualBuilder.tsx:289 | joining one more part appends the separator and the part |
| Strings.IndexOfChar | apps/website/src/pages/api/contact-new.ts:33 | the first index of the character, or -1 iff absent |
| Strings.Split | apps/cms/components/builder/VisualBuilder.tsx:277 | at least one piece, none containing the separator, joining back to the input |
| Strings.SplitJoin | apps/cms/components/builder/VisualBuilder.tsx:277-279 | splitting a join of separator-free pieces gives the pieces |
| Strings.Take | apps/cms/pages/api/chat.ts:16 | a prefix of length min(n, length) |
| Strings.AsciiLower | apps/cms/pages/api/chat.ts:26 | same length; each character lowered |
| Strings.NatToString | apps/cms/components/builder/VisualBuilder.tsx:306 | at least one digit, all digits, no leading zero; the digits read back as n; one digit iff n < 10 |

## Left out

- I/O is not modelled: files, module loading, request bodies, e-mail sending, the external probe and the clock. Each becomes a parameter of the member that uses it.
- `JSON.parse`, `JSON.stringify` and `encodeURIComponent` are not modelled. Documents arrive as parsed `Values.Value`, and the JSON-LD builders return values rather than serialised strings.
- Numbers are integers. Fractional or non-finite numbers (`y: Infinity` is the row `Bottom`), floating-point arithmetic and the memory figures of the health report are not modelled.
- `Date` parsing is not modelled. `publishedAt` is an integer instant, and an insight whose date does not parse (a `NaN` comparator result) is not modelled.
- `toLowerCase` and `\s` are ASCII and JavaScript-whitespace only; Unicode case folding is not modelled. For the escalation check this is exact: no non-ASCII character lowers to a letter of 'escalate'.
- `slice` counts UTF-16 code units in JavaScript and characters here.
- The `$` replacement patterns of `String.replace` are not modelled.
- The regular expressions are stated as predicates; the regex engine is not modelled.
- zod's `.url()` check is the parameter `isUrl`.
- zod's error messages and the `flatten()` report logged for invalid SEO are not modelled.
- React rendering, drag sensors, grid geometry, `alert`/`window.open`, `localStorage` and downloads are not modelled. Only the builder's state transforms are kept.
- Setter batching in the builder is not modelled. Each handler is one atomic state change.
- The session index's timers are not modelled; each session instead carries a deadline, and `Expire` is the timer firing.
- The SSE transport of the preview channel is not modelled; closing a stream is a call to `Unsubscribe`.
- `notifyTeam` and `logTranscript` in the chat handler are returned as effects (`escalate`, `logged`) rather than performed. `Chat.HandledExchangeCounts` connects them to the transcript store.
- Sending the e-mail and the auto-reply in contact-new.ts is not modelled. Neither can change a 200 answer.
- The submission id, timestamp and user agent in contact-new.ts are not modelled.
- The 500 ms delay and the log lines in contact.ts are not modelled.
- The generic catch blocks (500 in the contact endpoints, 503 in the health GET) are not modelled, except where a named input reaches them: `Contact.Post` models a `null` JSON body.
- Form values that are files are not modelled. Form entries are strings.
- `Contact.Post`: a JSON body that is an array or a primitive is read field by field as `undefined`, which is what JavaScript does for these fields.
- VisualBuilder.BlockToMdx: a loaded snippet can hold a block whose data is `null`, or a list block whose text is not a string; the source then throws (`b.data.alt`, `.split`). The model requires `Exportable` blocks and promises nothing for the others.
- VisualBuilder.BlocksToMdx: requires every block to be `Exportable`, for the same reason.
- VisualBuilder.BlockIssues: an image or hero block whose data is `null` makes the source throw at `b.data.alt` or `b.data.decorative`. The model requires `Checkable` blocks.
- VisualBuilder.SeoIssues: requires every block to be `Checkable`, for the same reason.
- VisualBuilder.ValidateSeo: requires every block to be `Checkable`; the source throws on an image or hero block whose data is `null`.
- VisualBuilder.Builder.Preview: requires every block to be `Checkable`; the source's preview throws inside the SEO check on such a block.
- VisualBuilder.Builder.LoadSnippet: a stored snippet is a list of `BuilderBlock` records, each with a string id and type and some data. A parsed snippet block with no `data` key, or whose `id` or `type` is not a string, cannot be represented and is not modelled.
- `SeoLint.Lint`, `DailyDigest.Digest`: files that cannot be read or parsed, and `blocks` or `seo` values that make the script throw, are excluded by the requires (`Lintable`, `BlocksReadable`); the scripts stop with an exception on those.
- `PageFiles.ReadPages` requires every listed JSON file to be readable, because the scripts stop on the first one that is not.
- `ContentAdapter.LoadInsightBySlug`: a load failure other than a missing module is rethrown by the source and is not modelled. One such failure is an insight module whose `default` is `null`: reading its `seo` throws a TypeError, which is rethrown. The model resolves that content like any other value.
- `ContentAdapter.LoadPageBySlug`: an exception while resolving is rethrown by the source and is not modelled.
- `ContentAdapter.FallbackSeo`: the `image: undefined` entry is left out. It is absent in the model, as it is after serialisation.
- `ContentAdapter.MergedSeo`: a truthy `seo` that is not an object (a string or an array) spreads its indices in JavaScript. The model spreads nothing.
- `FileAdapter.GetInsights`: the in-place sort is modelled on values, as a stable insertion sort. Array aliasing is not modelled.
- `FileAdapter.CategoryMatches`: an insight whose `category` is not a string would throw in `toLowerCase`, which the catch turns into an empty page. The model treats such an insight as not matching.
- `Transcripts.TranscriptStore`: a transcripts file that parses to something other than an array is not modelled.
- `Health.Get`: the ISO timestamp, `process.memoryUsage()` and the catch path are not modelled. `memoryReported` records only whether memory is included. The three checks catch their own errors, so none rejects; the rejected case is modelled only by `Health.SettledStatus`.
- `Health.SystemInfoOf`: the POST's node version, platform, architecture, `NODE_ENV`, memory, `hrtime`, CPU usage and feature flags are not modelled.
- `Values.Render`: a `Date` renders as its integer instant; JavaScript renders it as a date string.
- The context files that are not part of the core are not part of this model: listing pages, Prisma handlers, auth, ChatWidget, the API content source, media transcoding and the website's preview-token lookup.

## Findings

| source | as written | input that shows it | evidently intended | confidence | as-written member | corrected member |
|---|---|---|---|---|---|---|
| apps/website/src/pages/api/health.ts:65-74 | GET declares its own `startTime` at line 65, which shadows the module's `startTime` declared at line 24, so `uptime` is the time spent in the current request (modelled so by `Health.Get`) | a GET an hour after the server started reports an uptime of about 0 ms, not 3600000 | uptime since the module was loaded, as POST reports it at line 162 | high; not executed | Health.UptimeAsWrittenIsRequestTime | Health.UptimeAgrees |

=== FILE: block_schemas.dfy ===
/** The content schemas of the content bridge: SEO metadata, block layout, the six
    block-prop kinds, the block-instance envelope, Page and Insight.

    Each schema is a validity predicate over the JavaScript value it is given
    (`XValid`), a parser that fills the declared defaults and returns the typed result
    (`ParseX`, `Some` exactly when the value is valid, as zod's `safeParse` succeeds),
    and an encoder back to a value (`XToValue`). Parsing is idempotent: the encoded
    result of a successful parse parses again to the same result. Unknown keys are
    dropped by parsing, as zod's object schemas strip them. Whether a string is a URL
    (zod's `.url()`) is the parameter `isUrl`. */
module BlockSchemas {
  import opened Wrappers
  import opened Values

  // ---------------------------------------------------------------------------
  // Field rules: what one field declaration accepts. `f` is the field as read from
  // the object, `None` when the key is absent.
  // ---------------------------------------------------------------------------

  /** `z.string().min(lo).max(hi)` */
  predicate StrLen(f: Option<Value>, lo: nat, hi: nat) {
    f.Some? && f.value.Str? && lo <= |f.value.s| <= hi
  }

  /** `z.string().min(lo)` */
  predicate StrMin(f: Option<Value>, lo: nat) {
    f.Some? && f.value.Str? && lo <= |f.value.s|
  }

  /** `z.string().max(hi).optional()` */
  predicate OptStrMax(f: Option<Value>, hi: nat) {
    f.None? || StrLen(f, 0, hi)
  }

  /** `z.string().optional()` */
  predicate OptStr(f: Option<Value>) {
    f.None? || f.value.Str?
  }

  /** `z.string().url()` */
  predicate UrlStr(f: Option<Value>, isUrl: string -> bool) {
    f.Some? && f.value.Str? && isUrl(f.value.s)
  }

  /** `z.string().url().optional()` */
  predicate OptUrl(f: Option<Value>, isUrl: string -> bool) {
    f.None? || UrlStr(f, isUrl)
  }

  /** `z.enum(choices).default(...)`: absent, or one of the choices. */
  predicate EnumOr(f: Option<Value>, choices: set<string>) {
    f.None? || (f.value.Str? && f.value.s in choices)
  }

  /** `z.boolean().default(...)` */
  predicate BoolOr(f: Option<Value>) {
    f.None? || f.value.Bool?
  }

  /** `z.number()` */
  predicate IsNum(f: Option<Value>) {
    f.Some? && f.value.Num?
  }

  /** `z.date()` */
  predicate IsDate(f: Option<Value>) {
    f.Some? && f.value.Date?
  }

  /** `z.array(z.string())` */
  predicate StrArray(v: Value) {
    v.Arr? && forall i :: 0 <= i < |v.items| ==> v.items[i].Str?
  }

  /** An array whose length lies in [lo, hi]. */
  predicate ArrLen(f: Option<Value>, lo: nat, hi: nat) {
    f.Some? && f.value.Arr? && lo <= |f.value.items| <= hi
  }

  /** A string field with its default filled in. */
  function StrOr(f: Option<Value>, default: string): string
    requires f.None? || f.value.Str?
  {
    if f.Some? then f.value.s else default
  }

  /** An optional string field. */
  function OptStrOf(f: Option<Value>): Option<string>
    requires OptStr(f)
  {
    if f.Some? then Some(f.value.s) else None
  }

  function StrsOf(v: Value): seq<string>
    requires StrArray(v)
  {
    seq(|v.items|, i requires 0 <= i < |v.items| => v.items[i].s)
  }

  function StrsToValue(ss: seq<string>): Value {
    Arr(seq(|ss|, i requires 0 <= i < |ss| => Str(ss[i])))
  }

  // ---------------------------------------------------------------------------
  // Where a parsed field comes from: parsing keeps the given value and fills in the
  // declared default only when the key is absent.
  // ---------------------------------------------------------------------------

  /** A required string field: the parsed string is the one given. */
  predicate Kept(f: Option<Value>, s: string) {
    f == Some(Str(s))
  }

  /** A defaulted string field: the given string, or the default when the key is absent. */
  predicate KeptOr(f: Option<Value>, s: string, default: string) {
    if f.Some? then f == Some(Str(s)) else s == default
  }

  /** An optional string field: present exactly when given, and then the given string. */
  predicate KeptOpt(f: Option<Value>, o: Option<string>) {
    f == (if o.Some? then Some(Str(o.value)) else None)
  }

  /** A defaulted number field: the given number, or the default when the key is absent. */
  predicate KeptNumOr(f: Option<Value>, n: int, default: int) {
    if f.Some? then f == Some(Num(n)) else n == default
  }

  /** The one-key map that encodes an optional string field. */
  function OptField(key: string, o: Option<string>): map<string, Value> {
    if o.Some? then map[key := Str(o.value)] else map[]
  }

  /** A given list of strings is the encoding of the strings it holds. */
  lemma StrsReadBack(f: Option<Value>)
    requires f.None? || StrArray(f.value)
    ensures f.Some? ==> StrsToValue(StrsOf(f.value)) == f.value
  {
    if f.Some? {
      var w := StrsToValue(StrsOf(f.value));
      assert w.items == f.value.items;
    }
  }

  lemma StrsRoundTrip(ss: seq<string>)
    ensures StrArray(StrsToValue(ss)) && StrsOf(StrsToValue(ss)) == ss
  {
  }

  // ---------------------------------------------------------------------------
  // SEO metadata
  // ---------------------------------------------------------------------------

  datatype Seo = Seo(title: string, description: string, canonical: string, noindex: bool,
                     image: Option<string>, keywords: Option<seq<string>>)

  predicate SeoValid(v: Value, isUrl: string -> bool) {
    && v.Obj?
    && StrLen(Get(v, "title"), 10, 60)
    && StrLen(Get(v, "description"), 120, 160)
    && UrlStr(Get(v, "canonical"), isUrl)
    && BoolOr(Get(v, "noindex"))
    && OptUrl(Get(v, "image"), isUrl)
    && (Get(v, "keywords").None? || StrArray(Get(v, "keywords").value))
  }

  /** SEO metadata parses exactly when the title has 10..60 characters, the description
      120..160, the canonical is a URL, an image (if any) is a URL and keywords (if any)
      are strings; a missing `noindex` becomes false. */
  function ParseSeo(v: Value, isUrl: string -> bool): (r: Option<Seo>)
    ensures r.Some? <==> SeoValid(v, isUrl)
    ensures r.Some? ==> 10 <= |r.value.title| <= 60 && 120 <= |r.value.description| <= 160
    ensures r.Some? ==> isUrl(r.value.canonical)
                        && (r.value.image.Some? ==> isUrl(r.value.image.value))
    ensures r.Some? ==> (r.value.noindex <==> Get(v, "noindex") == Some(Bool(true)))
    ensures r.Some? ==> && Kept(Get(v, "title"), r.value.title)
                        && Kept(Get(v, "description"), r.value.description)
                        && Kept(Get(v, "canonical"), r.value.canonical)
                        && KeptOpt(Get(v, "image"), r.value.image)
                        && Get(v, "keywords") == (if r.value.keywords.Some?
                                                  then Some(StrsToValue(r.value.keywords.value))
                                                  else None)
  {
    if !SeoValid(v, isUrl) then None
    else
      var kw := Get(v, "keywords");
      StrsReadBack(kw);
      Some(Seo(Get(v, "title").value.s, Get(v, "description").value.s,
               Get(v, "canonical").value.s,
               Get(v, "noindex").Some? && Get(v, "noindex").value.b,
               OptStrOf(Get(v, "image")),
               if kw.Some? then Some(StrsOf(kw.value)) else None))
  }

  function SeoToValue(s: Seo): Value {
    Obj(map["title" := Str(s.title), "description" := Str(s.description),
            "canonical" := Str(s.canonical), "noindex" := Bool(s.noindex)]
        + OptField("image", s.image)
        + (if s.keywords.Some? then map["keywords" := StrsToValue(s.keywords.value)] else map[]))
  }

  /** Parsing already parsed SEO metadata accepts it and changes nothing. */
  lemma ParseSeoIdempotent(v: Value, isUrl: string -> bool)
    requires SeoValid(v, isUrl)
    ensures ParseSeo(SeoToValue(ParseSeo(v, isUrl).value), isUrl) == ParseSeo(v, isUrl)
  {
    var s := ParseSeo(v, isUrl).value;
    if s.keywords.Some? { StrsRoundTrip(s.keywords.value); }
    SeoFields(s);
    assert SeoValid(SeoToValue(s), isUrl);
  }

  /** The fields of encoded SEO metadata. */
  lemma SeoFields(s: Seo)
    ensures var w := SeoToValue(s);
            && w.Obj?
            && Get(w, "title") == Some(Str(s.title))
            && Get(w, "description") == Some(Str(s.description))
            && Get(w, "canonical") == Some(Str(s.canonical))
            && Get(w, "noindex") == Some(Bool(s.noindex))
            && Get(w, "image") == (if s.image.Some? then Some(Str(s.image.value)) else None)
            && Get(w, "keywords") == (if s.keywords.Some? then Some(StrsToValue(s.keywords.value)) else None)
  {
  }

  // ---------------------------------------------------------------------------
  // Block layout
  // ---------------------------------------------------------------------------

  datatype Layout = Layout(colSpan: int, rowSpan: int, order: Option<int>)

  predicate LayoutValid(v: Value) {
    && v.Obj?
    && (Get(v, "colSpan").None? || (IsNum(Get(v, "colSpan")) && 1 <= Get(v, "colSpan").value.n <= 12))
    && (Get(v, "rowSpan").None? || (IsNum(Get(v, "rowSpan")) && 1 <= Get(v, "rowSpan").value.n))
    && (Get(v, "order").None? || IsNum(Get(v, "order")))
  }

  /** A layout parses exactly when a given `colSpan` lies in 1..12, a given `rowSpan` is at
      least 1 and a given `order` is a number; `colSpan` defaults to 12, `rowSpan` to 1. */
  function ParseLayout(v: Value): (r: Option<Layout>)
    ensures r.Some? <==> LayoutValid(v)
    ensures r.Some? ==> 1 <= r.value.colSpan <= 12 && 1 <= r.value.rowSpan
    ensures r.Some? && Get(v, "colSpan").None? ==> r.value.colSpan == 12
    ensures r.Some? && Get(v, "rowSpan").None? ==> r.value.rowSpan == 1
    ensures r.Some? ==> (r.value.order.Some? <==> Get(v, "order").Some?)
    ensures r.Some? ==> && KeptNumOr(Get(v, "colSpan"), r.value.colSpan, 12)
                        && KeptNumOr(Get(v, "rowSpan"), r.value.rowSpan, 1)
                        && Get(v, "order") == (if r.value.order.Some? then Some(Num(r.value.order.value)) else None)
  {
    if !LayoutValid(v) then None
    else
      var c := Get(v, "colSpan");
      var rs := Get(v, "rowSpan");
      var o := Get(v, "order");
      Some(Layout(if c.Some? then c.value.n else 12, if rs.Some? then rs.value.n else 1,
                  if o.Some? then Some(o.value.n) else None))
  }

  function LayoutToValue(l: Layout): Value {
    Obj(map["colSpan" := Num(l.colSpan), "rowSpan" := Num(l.rowSpan)]
        + (if l.order.Some? then map["order" := Num(l.order.value)] else map[]))
  }

  /** Parsing an already parsed layout accepts it and changes nothing. */
  lemma ParseLayoutIdempotent(v: Value)
    requires LayoutValid(v)
    ensures ParseLayout(LayoutToValue(ParseLayout(v).value)) == ParseLayout(v)
  {
  }

  // ---------------------------------------------------------------------------
  // Hero
  // ---------------------------------------------------------------------------

  const Ratios: set<string> := {"16:9", "4:3", "1:1"}
  const CtaVariants: set<string> := {"primary", "secondary", "outline"}
  const HeroBackgrounds: set<string> := {"image", "gradient", "solid"}
  const Alignments: set<string> := {"left", "center", "right"}

  datatype HeroMedia = HeroMedia(image: string, alt: string, ratio: string)
  datatype HeroCta = HeroCta(labelText: string, href: string, variant: string)
  datatype Hero = Hero(title: string, subtitle: Option<string>, media: Option<HeroMedia>,
                       ctas: seq<HeroCta>, backgroundType: string, textAlign: string)

  predicate HeroMediaValid(v: Value, isUrl: string -> bool) {
    v.Obj? && UrlStr(Get(v, "image"), isUrl) && StrMin(Get(v, "alt"), 5)
    && EnumOr(Get(v, "ratio"), Ratios)
  }

  predicate HeroCtaValid(v: Value) {
    v.Obj? && StrMin(Get(v, "label"), 3) && IsStr(Get(v, "href"))
    && EnumOr(Get(v, "variant"), CtaVariants)
  }

  predicate HeroValid(v: Value, isUrl: string -> bool) {
    && v.Obj?
    && StrLen(Get(v, "title"), 10, 90)
    && OptStrMax(Get(v, "subtitle"), 160)
    && (Get(v, "media").None? || HeroMediaValid(Get(v, "media").value, isUrl))
    && ArrLen(Get(v, "ctas"), 0, 2)
    && (forall i :: 0 <= i < |Get(v, "ctas").value.items| ==>
          HeroCtaValid(Get(v, "ctas").value.items[i]))
    && EnumOr(Get(v, "backgroundType"), HeroBackgrounds)
    && EnumOr(Get(v, "textAlign"), Alignments)
  }

  function HeroMediaOf(v: Value, isUrl: string -> bool): HeroMedia
    requires HeroMediaValid(v, isUrl)
  {
    HeroMedia(Get(v, "image").value.s, Get(v, "alt").value.s, StrOr(Get(v, "ratio"), "16:9"))
  }

  function HeroCtaOf(v: Value): HeroCta
    requires HeroCtaValid(v)
  {
    HeroCta(Get(v, "label").value.s, Get(v, "href").value.s, StrOr(Get(v, "variant"), "primary"))
  }

  function HeroOf(v: Value, isUrl: string -> bool): Hero
    requires HeroValid(v, isUrl)
  {
    var m := Get(v, "media");
    var items := Get(v, "ctas").value.items;
    Hero(Get(v, "title").value.s, OptStrOf(Get(v, "subtitle")),
         if m.Some? then Some(HeroMediaOf(m.value, isUrl)) else None,
         HeroCtasOf(items),
         StrOr(Get(v, "backgroundType"), "solid"), StrOr(Get(v, "textAlign"), "center"))
  }

  function HeroCtasOf(items: seq<Value>): seq<HeroCta>
    requires forall i :: 0 <= i < |items| ==> HeroCtaValid(items[i])
  {
    seq(|items|, i requires 0 <= i < |items| => HeroCtaOf(items[i]))
  }

  /** A hero parses exactly when its title has 10..90 characters, a subtitle (if any) at
      most 160, media (if any) a URL image with an alt of at least 5 characters, and it
      has at most 2 calls to action, each with a label of at least 3 characters. The
      ratio defaults to 16:9, each variant to primary, the background to solid and the
      alignment to center. */
  function ParseHero(v: Value, isUrl: string -> bool): (r: Option<Hero>)
    ensures r.Some? <==> HeroValid(v, isUrl)
    ensures r.Some? ==> 10 <= |r.value.title| <= 90 && |r.value.ctas| <= 2
    ensures r.Some? ==> forall i :: 0 <= i < |r.value.ctas| ==>
                          3 <= |r.value.ctas[i].labelText| && r.value.ctas[i].variant in CtaVariants
    ensures r.Some? && r.value.media.Some? ==>
              5 <= |r.value.media.value.alt| && r.value.media.value.ratio in Ratios
    ensures r.Some? && Get(v, "media").Some? ==>
              r.value.media.Some?
              && (Get(Get(v, "media").value, "ratio").None? ==> r.value.media.value.ratio == "16:9")
    ensures r.Some? ==> r.value.backgroundType in HeroBackgrounds && r.value.textAlign in Alignments
    ensures r.Some? && Get(v, "backgroundType").None? ==> r.value.backgroundType == "solid"
    ensures r.Some? && Get(v, "textAlign").None? ==> r.value.textAlign == "center"
    ensures r.Some? ==> HeroFrom(r.value, v)
  {
    if HeroValid(v, isUrl) then Some(HeroOf(v, isUrl)) else None
  }

  /** Each field of a parsed call to action is the one given, the variant defaulted. */
  predicate HeroCtaFrom(c: HeroCta, v: Value) {
    Kept(Get(v, "label"), c.labelText) && Kept(Get(v, "href"), c.href)
    && KeptOr(Get(v, "variant"), c.variant, "primary")
  }

  /** Each field of parsed hero media is the one given, the ratio defaulted. */
  predicate HeroMediaFrom(m: HeroMedia, v: Value) {
    Kept(Get(v, "image"), m.image) && Kept(Get(v, "alt"), m.alt) && KeptOr(Get(v, "ratio"), m.ratio, "16:9")
  }

  /** Each field of a parsed hero is the one given, defaults filled in: the title, the
      subtitle, the media, one call to action per given one in the given order, the
      background and the alignment. */
  predicate HeroFrom(h: Hero, v: Value) {
    && Kept(Get(v, "title"), h.title)
    && KeptOpt(Get(v, "subtitle"), h.subtitle)
    && (h.media.Some? <==> Get(v, "media").Some?)
    && (h.media.Some? ==> HeroMediaFrom(h.media.value, Get(v, "media").value))
    && Get(v, "ctas").Some? && Get(v, "ctas").value.Arr?
    && |h.ctas| == |Get(v, "ctas").value.items|
    && (forall i :: 0 <= i < |h.ctas| ==> HeroCtaFrom(h.ctas[i], Get(v, "ctas").value.items[i]))
    && KeptOr(Get(v, "backgroundType"), h.backgroundType, "solid")
    && KeptOr(Get(v, "textAlign"), h.textAlign, "center")
  }

  function HeroMediaToValue(m: HeroMedia): Value {
    Obj(map["image" := Str(m.image), "alt" := Str(m.alt), "ratio" := Str(m.ratio)])
  }

  function HeroCtaToValue(c: HeroCta): Value {
    Obj(map["label" := Str(c.labelText), "href" := Str(c.href), "variant" := Str(c.variant)])
  }

  function HeroCtasToValues(cs: seq<HeroCta>): seq<Value> {
    seq(|cs|, i requires 0 <= i < |cs| => HeroCtaToValue(cs[i]))
  }

  /** Encoding parsed calls to action and parsing them again gives the same list. */
  lemma HeroCtasRoundTrip(items: seq<Value>)
    requires forall i :: 0 <= i < |items| ==> HeroCtaValid(items[i])
    ensures forall i :: 0 <= i < |items| ==> HeroCtaValid(HeroCtasToValues(HeroCtasOf(items))[i])
    ensures HeroCtasOf(HeroCtasToValues(HeroCtasOf(items))) == HeroCtasOf(items)
  {
    var cs := HeroCtasOf(items);
    var ws := HeroCtasToValues(cs);
    forall i | 0 <= i < |ws|
      ensures HeroCtaValid(ws[i]) && HeroCtaOf(ws[i]) == cs[i]
    {
      assert ws[i] == HeroCtaToValue(cs[i]);
    }
  }

  function HeroToValue(h: Hero): Value {
    Obj(map["title" := Str(h.title),
            "ctas" := Arr(HeroCtasToValues(h.ctas)),
            "backgroundType" := Str(h.backgroundType), "textAlign" := Str(h.textAlign)]
        + OptField("subtitle", h.subtitle)
        + (if h.media.Some? then map["media" := HeroMediaToValue(h.media.value)] else map[]))
  }

  /** Encoding a parsed hero and parsing it again gives the same hero. */
  lemma HeroRoundTrip(v: Value, isUrl: string -> bool)
    requires HeroValid(v, isUrl)
    ensures HeroValid(HeroToValue(HeroOf(v, isUrl)), isUrl)
    ensures HeroOf(HeroToValue(HeroOf(v, isUrl)), isUrl) == HeroOf(v, isUrl)
  {
    var h := HeroOf(v, isUrl);
    var w := HeroToValue(h);
    HeroCtasRoundTrip(Get(v, "ctas").value.items);
    HeroFields(h);
    assert HeroValid(w, isUrl);
  }

  /** The fields of an encoded hero. */
  lemma HeroFields(h: Hero)
    ensures var w := HeroToValue(h);
            && w.Obj?
            && Get(w, "ctas") == Some(Arr(HeroCtasToValues(h.ctas)))
            && Get(w, "title") == Some(Str(h.title))
            && Get(w, "backgroundType") == Some(Str(h.backgroundType))
            && Get(w, "textAlign") == Some(Str(h.textAlign))
            && Get(w, "subtitle") == (if h.subtitle.Some? then Some(Str(h.subtitle.value)) else None)
            && Get(w, "media") == (if h.media.Some? then Some(HeroMediaToValue(h.media.value)) else None)
  {
  }

  /** Parsing an already parsed hero accepts it and changes nothing. */
  lemma ParseHeroIdempotent(v: Value, isUrl: string -> bool)
    requires HeroValid(v, isUrl)
    ensures ParseHero(HeroToValue(ParseHero(v, isUrl).value), isUrl) == ParseHero(v, isUrl)
  {
    HeroRoundTrip(v, isUrl);
  }

  // ---------------------------------------------------------------------------
  // Tiles grid
  // ---------------------------------------------------------------------------

  const GridColumns: set<string> := {"2", "3", "4"}

  datatype Tile = Tile(title: string, description: string, icon: Option<string>, href: string)
  datatype TilesGrid = TilesGrid(heading: string, description: Option<string>, items: seq<Tile>,
                                 columns: string)

  predicate TileValid(v: Value) {
    v.Obj? && StrLen(Get(v, "title"), 0, 30) && StrLen(Get(v, "description"), 0, 120)
    && OptStr(Get(v, "icon")) && IsStr(Get(v, "href"))
  }

  predicate TilesGridValid(v: Value) {
    && v.Obj?
    && StrLen(Get(v, "heading"), 5, 50)
    && OptStrMax(Get(v, "description"), 200)
    && ArrLen(Get(v, "items"), 3, 12)
    && (forall i :: 0 <= i < |Get(v, "items").value.items| ==>
          TileValid(Get(v, "items").value.items[i]))
    && EnumOr(Get(v, "columns"), GridColumns)
  }

  /** Each field of a parsed tile is the one given. */
  predicate TileFrom(t: Tile, v: Value) {
    Kept(Get(v, "title"), t.title) && Kept(Get(v, "description"), t.description)
    && KeptOpt(Get(v, "icon"), t.icon) && Kept(Get(v, "href"), t.href)
  }

  function TileOf(v: Value): Tile
    requires TileValid(v)
  {
    Tile(Get(v, "title").value.s, Get(v, "description").value.s, OptStrOf(Get(v, "icon")),
         Get(v, "href").value.s)
  }

  function TilesGridOf(v: Value): TilesGrid
    requires TilesGridValid(v)
  {
    var items := Get(v, "items").value.items;
    TilesGrid(Get(v, "heading").value.s, OptStrOf(Get(v, "description")),
              seq(|items|, i requires 0 <= i < |items| => TileOf(items[i])),
              StrOr(Get(v, "columns"), "3"))
  }

  /** A tiles grid parses exactly when its heading has 5..50 characters and it has 3..12
      items, each titled in at most 30 characters and described in at most 120; the
      column count defaults to '3'. */
  function ParseTilesGrid(v: Value): (r: Option<TilesGrid>)
    ensures r.Some? <==> TilesGridValid(v)
    ensures r.Some? ==> 3 <= |r.value.items| <= 12 && 5 <= |r.value.heading| <= 50
    ensures r.Some? ==> forall i :: 0 <= i < |r.value.items| ==>
                          |r.value.items[i].title| <= 30 && |r.value.items[i].description| <= 120
    ensures r.Some? ==> r.value.columns in GridColumns
    ensures r.Some? && Get(v, "columns").None? ==> r.value.columns == "3"
    ensures r.Some? ==> && Kept(Get(v, "heading"), r.value.heading)
                        && KeptOpt(Get(v, "description"), r.value.description)
                        && KeptOr(Get(v, "columns"), r.value.columns, "3")
                        && |r.value.items| == |Get(v, "items").value.items|
                        && forall i :: 0 <= i < |r.value.items| ==>
                             TileFrom(r.value.items[i], Get(v, "items").value.items[i])
  {
    if TilesGridValid(v) then Some(TilesGridOf(v)) else None
  }

  function TileToValue(t: Tile): Value {
    Obj(map["title" := Str(t.title), "description" := Str(t.description), "href" := Str(t.href)]
        + OptField("icon", t.icon))
  }

  function TilesGridToValue(g: TilesGrid): Value {
    Obj(map["heading" := Str(g.heading),
            "items" := Arr(seq(|g.items|, i requires 0 <= i < |g.items| => TileToValue(g.items[i]))),
            "columns" := Str(g.columns)]
        + OptField("description", g.description))
  }

  /** The fields of an encoded tiles grid and of each encoded tile. */
  lemma TilesGridFields(g: TilesGrid)
    ensures var w := TilesGridToValue(g);
            && w.Obj?
            && Get(w, "heading") == Some(Str(g.heading))
            && Get(w, "columns") == Some(Str(g.columns))
            && Get(w, "description") == (if g.description.Some? then Some(Str(g.description.value)) else None)
            && Get(w, "items").Some? && Get(w, "items").value.Arr?
            && |Get(w, "items").value.items| == |g.items|
            && forall i :: 0 <= i < |g.items| ==> Get(w, "items").value.items[i] == TileToValue(g.items[i])
    ensures forall t: Tile {:trigger TileToValue(t)} ::
              && TileToValue(t).Obj?
              && Get(TileToValue(t), "title") == Some(Str(t.title))
              && Get(TileToValue(t), "description") == Some(Str(t.description))
              && Get(TileToValue(t), "href") == Some(Str(t.href))
              && Get(TileToValue(t), "icon") == (if t.icon.Some? then Some(Str(t.icon.value)) else None)
  {
  }

  /** Encoding a parsed tiles grid and parsing it again gives the same grid. */
  lemma TilesGridRoundTrip(v: Value)
    requires TilesGridValid(v)
    ensures TilesGridValid(TilesGridToValue(TilesGridOf(v)))
    ensures TilesGridOf(TilesGridToValue(TilesGridOf(v))) == TilesGridOf(v)
  {
    var g := TilesGridOf(v);
    var w := TilesGridToValue(g);
    TilesGridFields(g);
    var items := Get(v, "items").value.items;
    var wItems := Get(w, "items").value.items;
    assert |wItems| == |items| == |g.items|;
    forall i | 0 <= i < |wItems|
      ensures TileValid(wItems[i]) && TileOf(wItems[i]) == g.items[i]
    {
      assert wItems[i] == TileToValue(g.items[i]);
      assert g.items[i] == TileOf(items[i]);
    }
    assert TilesGridValid(w);
    assert TilesGridOf(w).items == g.items;
  }

  /** Parsing an already parsed tiles grid accepts it and changes nothing. */
  lemma ParseTilesGridIdempotent(v: Value)
    requires TilesGridValid(v)
    ensures ParseTilesGrid(TilesGridToValue(ParseTilesGrid(v).value)) == ParseTilesGrid(v)
  {
    TilesGridRoundTrip(v);
  }

  /** A grid with only two tiles is rejected: the item count is below the minimum of 3. */
  lemma TwoTilesRejected(heading: string, t1: Value, t2: Value)
    requires 5 <= |heading| <= 50 && TileValid(t1) && TileValid(t2)
    ensures ParseTilesGrid(Obj(map["heading" := Str(heading), "items" := Arr([t1, t2])])).None?
  {
    var v := Obj(map["heading" := Str(heading), "items" := Arr([t1, t2])]);
    assert |Get(v, "items").value.items| == 2;
  }

  // ---------------------------------------------------------------------------
  // Testimonials
  // ---------------------------------------------------------------------------

  const TestimonialLayouts: set<string> := {"grid", "carousel"}

  datatype Person = Person(name: string, title: string, company: string, image: Option<string>)
  datatype Testimonial = Testimonial(quote: string, author: Person)
  datatype Testimonials = Testimonials(heading: string, items: seq<Testimonial>, layout: string)

  predicate PersonValid(v: Value, isUrl: string -> bool) {
    v.Obj? && IsStr(Get(v, "name")) && IsStr(Get(v, "title")) && IsStr(Get(v, "company"))
    && OptUrl(Get(v, "image"), isUrl)
  }

  predicate TestimonialValid(v: Value, isUrl: string -> bool) {
    v.Obj? && StrLen(Get(v, "quote"), 50, 300)
    && Get(v, "author").Some? && PersonValid(Get(v, "author").value, isUrl)
  }

  predicate TestimonialsValid(v: Value, isUrl: string -> bool) {
    && v.Obj?
    && StrLen(Get(v, "heading"), 5, 50)
    && ArrLen(Get(v, "items"), 1, 6)
    && (forall i :: 0 <= i < |Get(v, "items").value.items| ==>
          TestimonialValid(Get(v, "items").value.items[i], isUrl))
    && EnumOr(Get(v, "layout"), TestimonialLayouts)
  }

  /** The quote and each field of the author are the ones given. */
  predicate TestimonialFrom(t: Testimonial, v: Value) {
    && Kept(Get(v, "quote"), t.quote)
    && Get(v, "author").Some?
    && var a := Get(v, "author").value;
       && Kept(Get(a, "name"), t.author.name) && Kept(Get(a, "title"), t.author.title)
       && Kept(Get(a, "company"), t.author.company) && KeptOpt(Get(a, "image"), t.author.image)
  }

  function TestimonialOf(v: Value, isUrl: string -> bool): Testimonial
    requires TestimonialValid(v, isUrl)
  {
    var a := Get(v, "author").value;
    Testimonial(Get(v, "quote").value.s,
                Person(Get(a, "name").value.s, Get(a, "title").value.s, Get(a, "company").value.s,
                       OptStrOf(Get(a, "image"))))
  }

  /** Testimonials parse exactly when the heading has 5..50 characters and there are 1..6
      items, each with a quote of 50..300 characters and an author; the layout defaults
      to grid. */
  function ParseTestimonials(v: Value, isUrl: string -> bool): (r: Option<Testimonials>)
    ensures r.Some? <==> TestimonialsValid(v, isUrl)
    ensures r.Some? ==> 1 <= |r.value.items| <= 6
    ensures r.Some? ==> forall i :: 0 <= i < |r.value.items| ==> 50 <= |r.value.items[i].quote| <= 300
    ensures r.Some? ==> r.value.layout in TestimonialLayouts
    ensures r.Some? && Get(v, "layout").None? ==> r.value.layout == "grid"
    ensures r.Some? ==> && Kept(Get(v, "heading"), r.value.heading)
                        && KeptOr(Get(v, "layout"), r.value.layout, "grid")
                        && |r.value.items| == |Get(v, "items").value.items|
                        && forall i :: 0 <= i < |r.value.items| ==>
                             TestimonialFrom(r.value.items[i], Get(v, "items").value.items[i])
  {
    if !TestimonialsValid(v, isUrl) then None
    else
      var items := Get(v, "items").value.items;
      Some(Testimonials(Get(v, "heading").value.s,
                        seq(|items|, i requires 0 <= i < |items| => TestimonialOf(items[i], isUrl)),
                        StrOr(Get(v, "layout"), "grid")))
  }

  function TestimonialToValue(t: Testimonial): Value {
    Obj(map["quote" := Str(t.quote),
            "author" := Obj(map["name" := Str(t.author.name), "title" := Str(t.author.title),
                                "company" := Str(t.author.company)]
                            + OptField("image", t.author.image))])
  }

  function TestimonialsToValue(t: Testimonials): Value {
    Obj(map["heading" := Str(t.heading),
            "items" := Arr(seq(|t.items|, i requires 0 <= i < |t.items| => TestimonialToValue(t.items[i]))),
            "layout" := Str(t.layout)])
  }

  /** The fields of encoded testimonials, of each encoded testimonial and of its author. */
  lemma TestimonialsFields(t: Testimonials)
    ensures var w := TestimonialsToValue(t);
            && w.Obj?
            && Get(w, "heading") == Some(Str(t.heading))
            && Get(w, "layout") == Some(Str(t.layout))
            && Get(w, "items").Some? && Get(w, "items").value.Arr?
            && |Get(w, "items").value.items| == |t.items|
            && forall i :: 0 <= i < |t.items| ==> Get(w, "items").value.items[i] == TestimonialToValue(t.items[i])
    ensures forall x: Testimonial {:trigger TestimonialToValue(x)} ::
              && TestimonialToValue(x).Obj?
              && Get(TestimonialToValue(x), "quote") == Some(Str(x.quote))
              && Get(TestimonialToValue(x), "author").Some?
              && var a := Get(TestimonialToValue(x), "author").value;
                 && a.Obj?
                 && Get(a, "name") == Some(Str(x.author.name))
                 && Get(a, "title") == Some(Str(x.author.title))
                 && Get(a, "company") == Some(Str(x.author.company))
                 && Get(a, "image") == (if x.author.image.Some? then Some(Str(x.author.image.value)) else None)
  {
  }

  /** Parsing already parsed testimonials accepts them and changes nothing. */
  lemma ParseTestimonialsIdempotent(v: Value, isUrl: string -> bool)
    requires TestimonialsValid(v, isUrl)
    ensures ParseTestimonials(TestimonialsToValue(ParseTestimonials(v, isUrl).value), isUrl)
            == ParseTestimonials(v, isUrl)
  {
    var t := ParseTestimonials(v, isUrl).value;
    var w := TestimonialsToValue(t);
    TestimonialsFields(t);
    var items := Get(w, "items").value.items;
    forall i | 0 <= i < |items|
      ensures TestimonialValid(items[i], isUrl) && TestimonialOf(items[i], isUrl) == t.items[i]
    {
      var a := Get(items[i], "author").value;
      assert PersonValid(a, isUrl);
    }
    assert TestimonialsValid(w, isUrl);
    assert seq(|items|, i requires 0 <= i < |items| => TestimonialOf(items[i], isUrl)) == t.items;
  }

  // ---------------------------------------------------------------------------
  // Metrics band
  // ---------------------------------------------------------------------------

  datatype Metric = Metric(value: string, labelText: string, description: Option<string>)
  datatype MetricsBand = MetricsBand(heading: Option<string>, items: seq<Metric>)

  predicate MetricValid(v: Value) {
    v.Obj? && StrLen(Get(v, "value"), 0, 10) && StrLen(Get(v, "label"), 0, 30)
    && OptStrMax(Get(v, "description"), 100)
  }

  predicate MetricsBandValid(v: Value) {
    && v.Obj?
    && OptStrMax(Get(v, "heading"), 50)
    && ArrLen(Get(v, "items"), 2, 6)
    && (forall i :: 0 <= i < |Get(v, "items").value.items| ==>
          MetricValid(Get(v, "items").value.items[i]))
  }

  /** Each field of a parsed metric is the one given. */
  predicate MetricFrom(m: Metric, v: Value) {
    Kept(Get(v, "value"), m.value) && Kept(Get(v, "label"), m.labelText)
    && KeptOpt(Get(v, "description"), m.description)
  }

  function MetricOf(v: Value): Metric
    requires MetricValid(v)
  {
    Metric(Get(v, "value").value.s, Get(v, "label").value.s, OptStrOf(Get(v, "description")))
  }

  /** A metrics band parses exactly when it has 2..6 items, each value at most 10
      characters and each label at most 30. */
  function ParseMetricsBand(v: Value): (r: Option<MetricsBand>)
    ensures r.Some? <==> MetricsBandValid(v)
    ensures r.Some? ==> 2 <= |r.value.items| <= 6
    ensures r.Some? ==> forall i :: 0 <= i < |r.value.items| ==>
                          |r.value.items[i].value| <= 10 && |r.value.items[i].labelText| <= 30
    ensures r.Some? ==> && KeptOpt(Get(v, "heading"), r.value.heading)
                        && |r.value.items| == |Get(v, "items").value.items|
                        && forall i :: 0 <= i < |r.value.items| ==>
                             MetricFrom(r.value.items[i], Get(v, "items").value.items[i])
  {
    if !MetricsBandValid(v) then None
    else
      var items := Get(v, "items").value.items;
      Some(MetricsBand(OptStrOf(Get(v, "heading")),
                       seq(|items|, i requires 0 <= i < |items| => MetricOf(items[i]))))
  }

  function MetricToValue(m: Metric): Value {
    Obj(map["value" := Str(m.value), "label" := Str(m.labelText)] + OptField("description", m.description))
  }

  function MetricsBandToValue(b: MetricsBand): Value {
    Obj(map["items" := Arr(seq(|b.items|, i requires 0 <= i < |b.items| => MetricToValue(b.items[i])))]
        + OptField("heading", b.heading))
  }

  /** The fields of an encoded metrics band and of each encoded metric. */
  lemma MetricsBandFields(b: MetricsBand)
    ensures var w := MetricsBandToValue(b);
            && w.Obj?
            && Get(w, "heading") == (if b.heading.Some? then Some(Str(b.heading.value)) else None)
            && Get(w, "items").Some? && Get(w, "items").value.Arr?
            && |Get(w, "items").value.items| == |b.items|
            && forall i :: 0 <= i < |b.items| ==> Get(w, "items").value.items[i] == MetricToValue(b.items[i])
    ensures forall m: Metric {:trigger MetricToValue(m)} ::
              && MetricToValue(m).Obj?
              && Get(MetricToValue(m), "value") == Some(Str(m.value))
              && Get(MetricToValue(m), "label") == Some(Str(m.labelText))
              && Get(MetricToValue(m), "description") ==
                   (if m.description.Some? then Some(Str(m.description.value)) else None)
  {
  }

  /** Parsing an already parsed metrics band accepts it and changes nothing. */
  lemma ParseMetricsBandIdempotent(v: Value)
    requires MetricsBandValid(v)
    ensures ParseMetricsBand(MetricsBandToValue(ParseMetricsBand(v).value)) == ParseMetricsBand(v)
  {
    var b := ParseMetricsBand(v).value;
    var w := MetricsBandToValue(b);
    MetricsBandFields(b);
    var items := Get(w, "items").value.items;
    assert forall i :: 0 <= i < |items| ==> MetricValid(items[i]) && MetricOf(items[i]) == b.items[i];
    assert MetricsBandValid(w);
    assert seq(|items|, i requires 0 <= i < |items| => MetricOf(items[i])) == b.items;
  }

  // ---------------------------------------------------------------------------
  // FAQ
  // ---------------------------------------------------------------------------

  datatype FaqItem = FaqItem(question: string, answer: string)
  datatype Faq = Faq(heading: string, items: seq<FaqItem>, jsonLd: bool)

  predicate FaqItemValid(v: Value) {
    v.Obj? && StrLen(Get(v, "question"), 10, 200) && StrLen(Get(v, "answer"), 20, 500)
  }

  predicate FaqValid(v: Value) {
    && v.Obj?
    && StrLen(Get(v, "heading"), 5, 50)
    && Get(v, "items").Some? && Get(v, "items").value.Arr?
    && 3 <= |Get(v, "items").value.items|
    && (forall i :: 0 <= i < |Get(v, "items").value.items| ==>
          FaqItemValid(Get(v, "items").value.items[i]))
    && BoolOr(Get(v, "jsonLd"))
  }

  /** An FAQ parses exactly when the heading has 5..50 characters and there are at least
      3 items, each question 10..200 characters and each answer 20..500; `jsonLd`
      defaults to true. */
  function ParseFaq(v: Value): (r: Option<Faq>)
    ensures r.Some? <==> FaqValid(v)
    ensures r.Some? ==> 3 <= |r.value.items|
    ensures r.Some? ==> forall i :: 0 <= i < |r.value.items| ==>
                          10 <= |r.value.items[i].question| <= 200
                          && 20 <= |r.value.items[i].answer| <= 500
    ensures r.Some? ==> (r.value.jsonLd <==> Get(v, "jsonLd") != Some(Bool(false)))
    ensures r.Some? ==> && Kept(Get(v, "heading"), r.value.heading)
                        && |r.value.items| == |Get(v, "items").value.items|
                        && forall i :: 0 <= i < |r.value.items| ==>
                             && Kept(Get(Get(v, "items").value.items[i], "question"), r.value.items[i].question)
                             && Kept(Get(Get(v, "items").value.items[i], "answer"), r.value.items[i].answer)
  {
    if !FaqValid(v) then None
    else
      var items := Get(v, "items").value.items;
      var j := Get(v, "jsonLd");
      Some(Faq(Get(v, "heading").value.s,
               seq(|items|, i requires 0 <= i < |items| =>
                     FaqItem(Get(items[i], "question").value.s, Get(items[i], "answer").value.s)),
               if j.Some? then j.value.b else true))
  }

  function FaqToValue(f: Faq): Value {
    Obj(map["heading" := Str(f.heading),
            "items" := Arr(seq(|f.items|, i requires 0 <= i < |f.items| =>
                                 Obj(map["question" := Str(f.items[i].question),
                                         "answer" := Str(f.items[i].answer)]))),
            "jsonLd" := Bool(f.jsonLd)])
  }

  /** Parsing an already parsed FAQ accepts it and changes nothing. */
  lemma ParseFaqIdempotent(v: Value)
    requires FaqValid(v)
    ensures ParseFaq(FaqToValue(ParseFaq(v).value)) == ParseFaq(v)
  {
    var f := ParseFaq(v).value;
    var w := FaqToValue(f);
    var items := Get(w, "items").value.items;
    assert FaqValid(w);
    assert seq(|items|, i requires 0 <= i < |items| =>
                 FaqItem(Get(items[i], "question").value.s, Get(items[i], "answer").value.s)) == f.items;
  }

  // ---------------------------------------------------------------------------
  // Call to action
  // ---------------------------------------------------------------------------

  const CtaBackgrounds: set<string> := {"solid", "gradient"}

  datatype Link = Link(labelText: string, href: string)
  datatype Cta = Cta(heading: string, description: Option<string>, primaryCta: Link,
                     secondaryCta: Option<Link>, backgroundType: string)

  predicate LinkValid(v: Value) {
    v.Obj? && IsStr(Get(v, "label")) && IsStr(Get(v, "href"))
  }

  predicate CtaValid(v: Value) {
    && v.Obj?
    && StrLen(Get(v, "heading"), 10, 60)
    && OptStrMax(Get(v, "description"), 200)
    && Get(v, "primaryCta").Some? && LinkValid(Get(v, "primaryCta").value)
    && (Get(v, "secondaryCta").None? || LinkValid(Get(v, "secondaryCta").value))
    && EnumOr(Get(v, "backgroundType"), CtaBackgrounds)
  }

  /** The label and the target of a parsed link are the ones given. */
  predicate LinkFrom(l: Link, v: Value) {
    Kept(Get(v, "label"), l.labelText) && Kept(Get(v, "href"), l.href)
  }

  function LinkOf(v: Value): Link
    requires LinkValid(v)
  {
    Link(Get(v, "label").value.s, Get(v, "href").value.s)
  }

  /** A call to action parses exactly when its heading has 10..60 characters, a
      description (if any) at most 200, and it has a primary link; the background
      defaults to solid. */
  function ParseCta(v: Value): (r: Option<Cta>)
    ensures r.Some? <==> CtaValid(v)
    ensures r.Some? ==> 10 <= |r.value.heading| <= 60 && r.value.backgroundType in CtaBackgrounds
    ensures r.Some? ==> (r.value.secondaryCta.Some? <==> Get(v, "secondaryCta").Some?)
    ensures r.Some? && Get(v, "backgroundType").None? ==> r.value.backgroundType == "solid"
    ensures r.Some? ==> && Kept(Get(v, "heading"), r.value.heading)
                        && KeptOpt(Get(v, "description"), r.value.description)
                        && LinkFrom(r.value.primaryCta, Get(v, "primaryCta").value)
                        && (r.value.secondaryCta.Some? ==>
                              LinkFrom(r.value.secondaryCta.value, Get(v, "secondaryCta").value))
                        && KeptOr(Get(v, "backgroundType"), r.value.backgroundType, "solid")
  {
    if !CtaValid(v) then None
    else
      var s := Get(v, "secondaryCta");
      Some(Cta(Get(v, "heading").value.s, OptStrOf(Get(v, "description")),
               LinkOf(Get(v, "primaryCta").value),
               if s.Some? then Some(LinkOf(s.value)) else None,
               StrOr(Get(v, "backgroundType"), "solid")))
  }

  function LinkToValue(l: Link): Value {
    Obj(map["label" := Str(l.labelText), "href" := Str(l.href)])
  }

  function CtaToValue(c: Cta): Value {
    Obj(map["heading" := Str(c.heading), "primaryCta" := LinkToValue(c.primaryCta),
            "backgroundType" := Str(c.backgroundType)]
        + OptField("description", c.description)
        + (if c.secondaryCta.Some? then map["secondaryCta" := LinkToValue(c.secondaryCta.value)] else map[]))
  }

  /** The fields of an encoded call to action. */
  lemma CtaFields(c: Cta)
    ensures var w := CtaToValue(c);
            && w.Obj?
            && Get(w, "heading") == Some(Str(c.heading))
            && Get(w, "primaryCta") == Some(LinkToValue(c.primaryCta))
            && Get(w, "backgroundType") == Some(Str(c.backgroundType))
            && Get(w, "description") == (if c.description.Some? then Some(Str(c.description.value)) else None)
            && Get(w, "secondaryCta") == (if c.secondaryCta.Some? then Some(LinkToValue(c.secondaryCta.value)) else None)
  {
  }

  /** Parsing an already parsed call to action accepts it and changes nothing. */
  lemma ParseCtaIdempotent(v: Value)
    requires CtaValid(v)
    ensures ParseCta(CtaToValue(ParseCta(v).value)) == ParseCta(v)
  {
    CtaFields(ParseCta(v).value);
  }

  // ---------------------------------------------------------------------------
  // Block instance: the envelope every block of a page carries
  // ---------------------------------------------------------------------------

  /** The closed enumeration of block type names. */
  const BlockTypes: set<string> :=
    {"Hero", "TilesGrid", "Testimonials", "MetricsBand", "FAQ", "CTA",
     "InsightsPreview", "LogosStrip", "Timeline", "CaseStudyList"}

  datatype BlockInstance = BlockInstance(id: string, blockType: string, layout: Option<Layout>,
                                         props: Option<Value>, children: Children)

  /** The optional `children` array of a block instance. */
  datatype Children = NoChildren | Children(blocks: seq<BlockInstance>)

  /** The envelope: a string id, a type from the enumeration, an optional valid layout,
      any props at all, and optionally an array of children that are themselves valid
      block instances. */
  predicate BlockInstanceValid(v: Value)
    decreases v
  {
    && v.Obj?
    && IsStr(Get(v, "id"))
    && IsStr(Get(v, "type")) && Get(v, "type").value.s in BlockTypes
    && (Get(v, "layout").None? || LayoutValid(Get(v, "layout").value))
    && (Get(v, "children").None?
        || (Get(v, "children").value.Arr?
            && forall i :: 0 <= i < |Get(v, "children").value.items| ==>
                 BlockInstanceValid(Get(v, "children").value.items[i])))
  }

  function BlockInstanceOf(v: Value): (b: BlockInstance)
    requires BlockInstanceValid(v)
    decreases v
  {
    var l := Get(v, "layout");
    var c := Get(v, "children");
    BlockInstance(Get(v, "id").value.s, Get(v, "type").value.s,
                  if l.Some? then ParseLayout(l.value) else None,
                  Get(v, "props"),
                  if c.Some? then
                    Children(seq(|c.value.items|, i requires 0 <= i < |c.value.items| =>
                                   BlockInstanceOf(c.value.items[i])))
                  else NoChildren)
  }

  /** Every block in a parsed tree, at any depth, has a type from the enumeration. */
  predicate TypesRegistered(b: BlockInstance)
    decreases b
  {
    b.blockType in BlockTypes
    && match b.children
       case NoChildren => true
       case Children(kids) => forall i :: 0 <= i < |kids| ==> TypesRegistered(kids[i])
  }

  /** A block instance parses exactly when it is a valid envelope; then every block of
      the tree, at any depth, has one of the ten registered types, and the props are
      kept as given (whatever they are). */
  function ParseBlockInstance(v: Value): (r: Option<BlockInstance>)
    ensures r.Some? <==> BlockInstanceValid(v)
    ensures r.Some? ==> TypesRegistered(r.value) && r.value.props == Get(v, "props")
    ensures r.Some? ==> && Kept(Get(v, "id"), r.value.id)
                        && Kept(Get(v, "type"), r.value.blockType)
                        && (r.value.layout.Some? <==> Get(v, "layout").Some?)
                        && (r.value.layout.Some? ==> r.value.layout == ParseLayout(Get(v, "layout").value))
                        && (r.value.children.Children? <==> Get(v, "children").Some?)
    ensures r.Some? && r.value.children.Children? ==>
              var items := Get(v, "children").value.items;
              && |r.value.children.blocks| == |items|
              && forall i :: 0 <= i < |items| ==> Some(r.value.children.blocks[i]) == ParseBlockInstance(items[i])
    decreases v
  {
    if !BlockInstanceValid(v) then None
    else
      BlockTypesRegistered(v);
      Some(BlockInstanceOf(v))
  }

  lemma {:induction false} BlockTypesRegistered(v: Value)
    requires BlockInstanceValid(v)
    ensures TypesRegistered(BlockInstanceOf(v))
    decreases v
  {
    var c := Get(v, "children");
    if c.Some? {
      forall i | 0 <= i < |c.value.items|
        ensures TypesRegistered(BlockInstanceOf(c.value.items[i]))
      {
        BlockTypesRegistered(c.value.items[i]);
      }
    }
  }

  function BlockInstanceToValue(b: BlockInstance): Value
    decreases b
  {
    Obj(map["id" := Str(b.id), "type" := Str(b.blockType)]
        + (if b.layout.Some? then map["layout" := LayoutToValue(b.layout.value)] else map[])
        + (if b.props.Some? then map["props" := b.props.value] else map[])
        + match b.children
          case NoChildren => map[]
          case Children(kids) =>
            map["children" := Arr(seq(|kids|, i requires 0 <= i < |kids| =>
                                        BlockInstanceToValue(kids[i])))])
  }

  /** The fields of an encoded block instance. */
  lemma BlockInstanceFields(b: BlockInstance)
    ensures var w := BlockInstanceToValue(b);
            && w.Obj?
            && Get(w, "id") == Some(Str(b.id))
            && Get(w, "type") == Some(Str(b.blockType))
            && Get(w, "layout") == (if b.layout.Some? then Some(LayoutToValue(b.layout.value)) else None)
            && Get(w, "props") == b.props
            && (b.children.NoChildren? ==> Get(w, "children").None?)
            && (b.children.Children? ==>
                  && Get(w, "children").Some? && Get(w, "children").value.Arr?
                  && |Get(w, "children").value.items| == |b.children.blocks|
                  && forall i :: 0 <= i < |b.children.blocks| ==>
                       Get(w, "children").value.items[i] == BlockInstanceToValue(b.children.blocks[i]))
  {
  }

  /** Encoding a parsed block tree and parsing it again gives the same tree, at every
      depth. */
  lemma {:induction false} BlockInstanceRoundTrip(v: Value)
    requires BlockInstanceValid(v)
    ensures BlockInstanceValid(BlockInstanceToValue(BlockInstanceOf(v)))
    ensures BlockInstanceOf(BlockInstanceToValue(BlockInstanceOf(v))) == BlockInstanceOf(v)
    decreases v
  {
    var b := BlockInstanceOf(v);
    var w := BlockInstanceToValue(b);
    BlockInstanceFields(b);
    if b.layout.Some? {
      ParseLayoutIdempotent(Get(v, "layout").value);
    }
    var c := Get(v, "children");
    if c.Some? {
      var kids := b.children.blocks;
      var items := Get(w, "children").value.items;
      assert |items| == |kids| == |c.value.items|;
      forall i | 0 <= i < |items|
        ensures BlockInstanceValid(items[i]) && BlockInstanceOf(items[i]) == kids[i]
      {
        BlockInstanceRoundTrip(c.value.items[i]);
      }
      assert BlockInstanceValid(w);
      assert seq(|items|, i requires 0 <= i < |items| => BlockInstanceOf(items[i])) == kids;
    } else {
      assert BlockInstanceValid(w);
    }
  }

  /** Parsing an already parsed block instance accepts it and changes nothing. */
  lemma ParseBlockInstanceIdempotent(v: Value)
    requires BlockInstanceValid(v)
    ensures ParseBlockInstance(BlockInstanceToValue(ParseBlockInstance(v).value)) == ParseBlockInstance(v)
  {
    BlockInstanceRoundTrip(v);
  }

  // ---------------------------------------------------------------------------
  // Page and Insight
  // ---------------------------------------------------------------------------

  const PageStatuses: set<string> := {"draft", "review", "published", "archived"}

  /** The slug pattern `^[a-z0-9-]+$`. */
  predicate IsSlug(s: string) {
    |s| > 0 && forall i :: 0 <= i < |s| ==> ('a' <= s[i] <= 'z' || '0' <= s[i] <= '9' || s[i] == '-')
  }

  datatype Page = Page(slug: string, title: string, status: string, seo: Seo,
                       blocks: seq<BlockInstance>, publishedAt: Option<int>,
                       createdAt: int, updatedAt: int)

  predicate PageValid(v: Value, isUrl: string -> bool) {
    && v.Obj?
    && IsStr(Get(v, "slug")) && IsSlug(Get(v, "slug").value.s)
    && StrLen(Get(v, "title"), 10, 90)
    && EnumOr(Get(v, "status"), PageStatuses)
    && Get(v, "seo").Some? && SeoValid(Get(v, "seo").value, isUrl)
    && Get(v, "blocks").Some? && Get(v, "blocks").value.Arr?
    && (forall i :: 0 <= i < |Get(v, "blocks").value.items| ==>
          BlockInstanceValid(Get(v, "blocks").value.items[i]))
    && (Get(v, "publishedAt").None? || IsDate(Get(v, "publishedAt")))
    && IsDate(Get(v, "createdAt")) && IsDate(Get(v, "updatedAt"))
  }

  /** A page parses exactly when its slug matches `[a-z0-9-]+`, its title has 10..90
      characters, it carries valid SEO metadata, its blocks are valid block instances and
      its dates are dates; a missing status becomes 'draft'. */
  function ParsePage(v: Value, isUrl: string -> bool): (r: Option<Page>)
    ensures r.Some? <==> PageValid(v, isUrl)
    ensures r.Some? ==> IsSlug(r.value.slug) && 10 <= |r.value.title| <= 90
    ensures r.Some? ==> r.value.status in PageStatuses
    ensures r.Some? && Get(v, "status").None? ==> r.value.status == "draft"
    ensures r.Some? ==> Some(r.value.seo) == ParseSeo(Get(v, "seo").value, isUrl)
    ensures r.Some? ==> |r.value.blocks| == |Get(v, "blocks").value.items|
    ensures r.Some? ==> forall i :: 0 <= i < |r.value.blocks| ==>
                          Some(r.value.blocks[i]) == ParseBlockInstance(Get(v, "blocks").value.items[i])
    ensures r.Some? ==> && Kept(Get(v, "slug"), r.value.slug)
                        && Kept(Get(v, "title"), r.value.title)
                        && KeptOr(Get(v, "status"), r.value.status, "draft")
                        && Get(v, "publishedAt") == (if r.value.publishedAt.Some?
                                                     then Some(Date(r.value.publishedAt.value)) else None)
                        && Get(v, "createdAt") == Some(Date(r.value.createdAt))
                        && Get(v, "updatedAt") == Some(Date(r.value.updatedAt))
  {
    if !PageValid(v, isUrl) then None
    else
      var items := Get(v, "blocks").value.items;
      var p := Get(v, "publishedAt");
      Some(Page(Get(v, "slug").value.s, Get(v, "title").value.s, StrOr(Get(v, "status"), "draft"),
                ParseSeo(Get(v, "seo").value, isUrl).value,
                seq(|items|, i requires 0 <= i < |items| => BlockInstanceOf(items[i])),
                if p.Some? then Some(p.value.time) else None,
                Get(v, "createdAt").value.time, Get(v, "updatedAt").value.time))
  }

  datatype InsightAuthor = InsightAuthor(name: string, title: Option<string>, image: Option<string>)
  datatype FeaturedImage = FeaturedImage(url: string, alt: string, caption: Option<string>)
  datatype Insight = Insight(slug: string, title: string, excerpt: string, content: string,
                             author: InsightAuthor, publishedAt: int, category: string,
                             tags: seq<string>, readingTime: int, seo: Seo,
                             featuredImage: Option<FeaturedImage>)

  predicate InsightAuthorValid(v: Value, isUrl: string -> bool) {
    v.Obj? && IsStr(Get(v, "name")) && OptStr(Get(v, "title")) && OptUrl(Get(v, "image"), isUrl)
  }

  predicate FeaturedImageValid(v: Value, isUrl: string -> bool) {
    v.Obj? && UrlStr(Get(v, "url"), isUrl) && IsStr(Get(v, "alt")) && OptStr(Get(v, "caption"))
  }

  predicate InsightValid(v: Value, isUrl: string -> bool) {
    && v.Obj?
    && IsStr(Get(v, "slug")) && IsSlug(Get(v, "slug").value.s)
    && StrLen(Get(v, "title"), 10, 90)
    && StrLen(Get(v, "excerpt"), 50, 200)
    && StrMin(Get(v, "content"), 100)
    && Get(v, "author").Some? && InsightAuthorValid(Get(v, "author").value, isUrl)
    && IsDate(Get(v, "publishedAt"))
    && IsStr(Get(v, "category"))
    && Get(v, "tags").Some? && StrArray(Get(v, "tags").value)
    && IsNum(Get(v, "readingTime"))
    && Get(v, "seo").Some? && SeoValid(Get(v, "seo").value, isUrl)
    && (Get(v, "featuredImage").None? || FeaturedImageValid(Get(v, "featuredImage").value, isUrl))
  }

  /** An insight parses exactly when its slug matches `[a-z0-9-]+`, its title has 10..90
      characters, its excerpt 50..200, its content at least 100, and it carries an
      author, a publication date, a category, tags, a reading time and valid SEO
      metadata: the SEO object is required, never filled in. */
  function ParseInsight(v: Value, isUrl: string -> bool): (r: Option<Insight>)
    ensures r.Some? <==> InsightValid(v, isUrl)
    ensures r.Some? ==> IsSlug(r.value.slug) && 10 <= |r.value.title| <= 90
    ensures r.Some? ==> 50 <= |r.value.excerpt| <= 200 && 100 <= |r.value.content|
    ensures r.Some? ==> Get(v, "seo").Some? && Some(r.value.seo) == ParseSeo(Get(v, "seo").value, isUrl)
    ensures r.Some? ==> && Kept(Get(v, "slug"), r.value.slug)
                        && Kept(Get(v, "title"), r.value.title)
                        && Kept(Get(v, "excerpt"), r.value.excerpt)
                        && Kept(Get(v, "content"), r.value.content)
                        && Kept(Get(v, "category"), r.value.category)
                        && Get(v, "publishedAt") == Some(Date(r.value.publishedAt))
                        && Get(v, "readingTime") == Some(Num(r.value.readingTime))
                        && Get(v, "tags") == Some(StrsToValue(r.value.tags))
    ensures r.Some? ==> var a := Get(v, "author").value;
                        && Kept(Get(a, "name"), r.value.author.name)
                        && KeptOpt(Get(a, "title"), r.value.author.title)
                        && KeptOpt(Get(a, "image"), r.value.author.image)
    ensures r.Some? ==> && (r.value.featuredImage.Some? <==> Get(v, "featuredImage").Some?)
                        && (r.value.featuredImage.Some? ==>
                              var f := Get(v, "featuredImage").value;
                              && Kept(Get(f, "url"), r.value.featuredImage.value.url)
                              && Kept(Get(f, "alt"), r.value.featuredImage.value.alt)
                              && KeptOpt(Get(f, "caption"), r.value.featuredImage.value.caption))
  {
    if !InsightValid(v, isUrl) then None
    else
      var a := Get(v, "author").value;
      var f := Get(v, "featuredImage");
      StrsReadBack(Get(v, "tags"));
      Some(Insight(Get(v, "slug").value.s, Get(v, "title").value.s, Get(v, "excerpt").value.s,
                   Get(v, "content").value.s,
                   InsightAuthor(Get(a, "name").value.s, OptStrOf(Get(a, "title")), OptStrOf(Get(a, "image"))),
                   Get(v, "publishedAt").value.time, Get(v, "category").value.s,
                   StrsOf(Get(v, "tags").value), Get(v, "readingTime").value.n,
                   ParseSeo(Get(v, "seo").value, isUrl).value,
                   if f.Some? then
                     Some(FeaturedImage(Get(f.value, "url").value.s, Get(f.value, "alt").value.s,
                                        OptStrOf(Get(f.value, "caption"))))
                   else None))
  }
}

=== FILE: chat.dfy ===
/** The CMS chat endpoint: it answers a message from the documents indexed for the chat
    session, citing the first one, logs the exchange and asks for a human when the
    message mentions escalation. The session index is a parameter; logging and the
    notification are returned as effects rather than performed. */
module Chat {
  import opened Wrappers
  import opened Values
  import opened Strings
  import SessionIndex
  import Transcripts

  const NoDocuments: string := "No documents found for this session."
  const AnswerPrefix: string := "According to your document: "
  const CitationLabel: string := "[1]"

  /** The HTTP method and the body (`None` when there is none). */
  datatype ChatRequest = ChatRequest(httpMethod: string, body: Option<Value>)

  datatype Citation = Citation(labelText: string, url: string)

  datatype ChatReply = ChatReply(message: string, citations: seq<Citation>)

  /** `{ label: '[1]', url: docs[0].url || '#' }` when there is a document. */
  function CitationOf(docs: seq<SessionIndex.Doc>): (r: Option<Citation>)
    ensures r.Some? <==> |docs| > 0
    ensures r.Some? ==> r.value.labelText == CitationLabel
    ensures r.Some? ==> (r.value.url == "#" <==> docs[0].url.None? || docs[0].url.value in {"", "#"})
  {
    if |docs| == 0 then None
    else
      var u := docs[0].url;
      Some(Citation(CitationLabel, if u.Some? && u.value != "" then u.value else "#"))
  }

  /** The answer before the citation label: the first 100 characters of the first
      document, or the no-documents message. */
  function AnswerOf(docs: seq<SessionIndex.Doc>): (r: string)
    ensures |docs| == 0 ==> r == NoDocuments
    ensures |docs| > 0 ==> StartsWith(r, AnswerPrefix) && EndsWith(r, "...")
    ensures |docs| > 0 ==> |r| <= |AnswerPrefix| + 100 + 3
  {
    if |docs| > 0 then AnswerPrefix + Take(docs[0].text, 100) + "..." else NoDocuments
  }

  /** The response body: the answer followed by the citation label when there is one,
      and the list of citations. */
  function ReplyOf(docs: seq<SessionIndex.Doc>): (r: ChatReply)
    ensures |r.citations| <= 1
    ensures |r.citations| == 1 <==> |docs| > 0
    ensures docs == [] ==> r == ChatReply(NoDocuments, [])
  {
    var citation := CitationOf(docs);
    var answer := AnswerOf(docs);
    ChatReply(if citation.Some? then answer + " " + citation.value.labelText else answer,
              if citation.Some? then [citation.value] else [])
  }

  /** With documents, the reply quotes a prefix of the first document of at most 100
      characters (all of it when it is shorter), between the fixed opening and
      `... [1]`; the quoted part can be read back from the reply. */
  lemma ReplyQuotesFirstDocument(docs: seq<SessionIndex.Doc>)
    requires |docs| > 0
    ensures var m := ReplyOf(docs).message;
            var tail := "... " + CitationLabel;
            && StartsWith(m, AnswerPrefix) && EndsWith(m, tail)
            && |m| >= |AnswerPrefix| + |tail|
            && var quoted := m[|AnswerPrefix|..|m| - |tail|];
               && StartsWith(docs[0].text, quoted)
               && |quoted| == (if |docs[0].text| < 100 then |docs[0].text| else 100)
  {
    var m := ReplyOf(docs).message;
    var q := Take(docs[0].text, 100);
    var tail := "... " + CitationLabel;
    assert m == AnswerPrefix + q + tail;
    assert m[|AnswerPrefix|..|m| - |tail|] == q;
    assert m[..|AnswerPrefix|] == AnswerPrefix;
    assert m[|m| - |tail|..] == tail;
  }

  /** The outcome of the handler. `Answered` and `Failed` carry the transcript
      messages logged; `Failed` is the run-time error raised when the message is not a
      string, after the exchange was logged. */
  datatype ChatOutcome =
    | MethodNotAllowed
    | MissingFields
    | Answered(reply: ChatReply, logged: seq<Transcripts.Message>, escalate: bool)
    | Failed(logged: seq<Transcripts.Message>)

  function StatusOf(o: ChatOutcome): int {
    match o
    case MethodNotAllowed => 405
    case MissingFields => 400
    case Answered(_, _, _) => 200
    case Failed(_) => 500
  }

  /** `req.body || {}` */
  function BodyOf(req: ChatRequest): Value {
    if Truthy(req.body) then req.body.value else Obj(map[])
  }

  /** `getDocuments(sessionId)`: a session id that is not a string names no session. */
  function DocsFor(indexes: SessionIndex.Indexes, sessionId: Value): seq<SessionIndex.Doc> {
    if sessionId.Str? then SessionIndex.Documents(indexes, sessionId.s) else []
  }

  /** `message.toLowerCase().includes('escalate')` */
  predicate Escalates(message: string)
    ensures Escalates(message) ==> |message| >= |"escalate"|
    ensures Contains(message, "escalate") ==> Escalates(message)
  {
    LowerKeepsLowercase(message, "escalate");
    Contains(AsciiLower(message), "escalate")
  }

  /** Folding leaves a lower-case needle where it was. */
  lemma LowerKeepsLowercase(s: string, needle: string)
    requires forall i :: 0 <= i < |needle| ==> AsciiLowerChar(needle[i]) == needle[i]
    ensures Contains(s, needle) ==> Contains(AsciiLower(s), needle)
  {
    if Contains(s, needle) {
      var i :| 0 <= i <= |s| && HasAt(s, needle, i);
      var t := AsciiLower(s);
      assert forall j :: 0 <= j < |needle| ==> t[i + j] == AsciiLowerChar(s[i + j]) == AsciiLowerChar(needle[j]);
      assert t[i..i + |needle|] == needle;
      assert HasAt(t, needle, i);
    }
  }

  /** The handler, given the session index as it stands. */
  function Handle(req: ChatRequest, indexes: SessionIndex.Indexes): (r: ChatOutcome)
    ensures req.httpMethod != "POST" <==> r == MethodNotAllowed
    ensures req.httpMethod == "POST" ==>
              (r == MissingFields <==>
                 !Truthy(Get(BodyOf(req), "sessionId")) || !Truthy(Get(BodyOf(req), "message")))
    ensures r.Answered? || r.Failed? ==>
              var sessionId := Get(BodyOf(req), "sessionId").value;
              var message := Get(BodyOf(req), "message").value;
              var reply := ReplyOf(DocsFor(indexes, sessionId));
              && r.logged == [Transcripts.Message("user", message),
                              Transcripts.Message("assistant", Str(reply.message))]
              && (r.Answered? <==> message.Str?)
              && (r.Answered? ==> r.reply == reply && (r.escalate <==> Escalates(message.s)))
  {
    if req.httpMethod != "POST" then MethodNotAllowed
    else
      var body := BodyOf(req);
      var sessionId := Get(body, "sessionId");
      var message := Get(body, "message");
      if !Truthy(sessionId) || !Truthy(message) then MissingFields
      else
        var reply := ReplyOf(DocsFor(indexes, sessionId.value));
        var logged := [Transcripts.Message("user", message.value),
                       Transcripts.Message("assistant", Str(reply.message))];
        if message.value.Str? then Answered(reply, logged, Escalates(message.value.s))
        else Failed(logged)
  }

  /** Escalation is recognised in any letter case: a message is escalated exactly when
      its ASCII-lowered form is. */
  lemma EscalationIgnoresCase(message: string)
    ensures Escalates(message) <==> Escalates(AsciiLower(message))
  {
    var low := AsciiLower(message);
    assert AsciiLower(low) == low;
  }

  /** A session with no indexed documents is answered with the fixed message and no
      citation, whatever was asked. */
  lemma UnknownSessionAnswer(req: ChatRequest, indexes: SessionIndex.Indexes, session: string)
    requires req.httpMethod == "POST"
    requires Get(BodyOf(req), "sessionId") == Some(Str(session)) && session != ""
    requires IsStr(Get(BodyOf(req), "message")) && Get(BodyOf(req), "message").value.s != ""
    requires session !in indexes
    ensures Handle(req, indexes).Answered?
    ensures Handle(req, indexes).reply == ChatReply(NoDocuments, [])
  {
  }

  /** Every handled exchange adds one transcript entry with exactly two messages, so the
      analytics grow by one session and two messages. */
  lemma HandledExchangeCounts(req: ChatRequest, indexes: SessionIndex.Indexes, o: ChatOutcome,
                              entries: seq<Transcripts.Entry>, now: int)
    requires o == Handle(req, indexes) && (o.Answered? || o.Failed?)
    ensures var e := Transcripts.Entry(Get(BodyOf(req), "sessionId").value, o.logged, now);
            && Transcripts.AnalyticsOf(entries + [e]).totalSessions == |entries| + 1
            && Transcripts.AnalyticsOf(entries + [e]).totalMessages == Transcripts.MessageCount(entries) + 2
  {
    Transcripts.AnalyticsAfterLog(entries, Transcripts.Entry(Get(BodyOf(req), "sessionId").value, o.logged, now));
  }
}

=== FILE: contact.dfy ===
/** The website's basic contact endpoint: it reads a JSON or form-encoded submission,
    checks the required fields and consent, checks the e-mail shape, and prepares the
    notification e-mail (which is only logged). Parsing the body is I/O, so the request
    carries the parse outcome. */
module Contact {
  import opened Wrappers
  import opened Values
  import opened Strings
  import ContactNew

  const FromEmail: string := "noreply@networkk.in"
  const ToEmails: seq<string> := ["support@networkk.in", "anupama.singh@networkk.in"]

  /** The request: its content type, the outcome of `JSON.parse` on the body (`None` when
      it throws) and the outcome of reading it as form data (`None` when that throws). */
  datatype Request = Request(contentType: Option<string>, json: Option<Value>,
                             form: Option<seq<(string, string)>>)

  /** `Object.fromEntries(formData.entries())`: a later entry for a key wins. */
  function FromEntries(entries: seq<(string, string)>): (r: map<string, Value>)
    ensures r.Keys == set k | 0 <= k < |entries| :: entries[k].0
  {
    if entries == [] then map[]
    else
      var last := entries[|entries| - 1];
      var init := entries[..|entries| - 1];
      assert forall k :: 0 <= k < |init| ==> init[k] == entries[k];
      FromEntries(init)[last.0 := Str(last.1)]
  }

  /** Each key holds the value of its last entry. */
  lemma {:induction false} FromEntriesLastWins(entries: seq<(string, string)>, k: int)
    requires 0 <= k < |entries|
    requires forall j :: k < j < |entries| ==> entries[j].0 != entries[k].0
    ensures FromEntries(entries)[entries[k].0] == Str(entries[k].1)
  {
    if k < |entries| - 1 {
      var init := entries[..|entries| - 1];
      FromEntriesLastWins(init, k);
    }
  }

  datatype Parsed = Data(data: Value) | BadJson | BadForm

  /** The body as `data`: JSON when the content type mentions `application/json`, form
      data otherwise. */
  function ReadBody(req: Request): (r: Parsed)
    ensures Contains(req.contentType.GetOr(""), "application/json") ==>
              (r == BadJson <==> req.json.None?) && r != BadForm
    ensures !Contains(req.contentType.GetOr(""), "application/json") ==>
              (r == BadForm <==> req.form.None?) && r != BadJson
  {
    if Contains(req.contentType.GetOr(""), "application/json") then
      if req.json.None? then BadJson else Data(req.json.value)
    else if req.form.None? then BadForm
    else Data(Obj(FromEntries(req.form.value)))
  }

  /** `data.key?.toString() || ''` */
  function Field(data: Value, key: string): (r: string)
    ensures Get(data, key).None? || Get(data, key) == Some(Null) ==> r == ""
    ensures Get(data, key).Some? && Get(data, key).value.Str? ==> r == Get(data, key).value.s
  {
    var v := Get(data, key);
    if v.None? || v.value.Null? then "" else Render(v.value)
  }

  /** `data.consent === 'on' || data.consent === true` */
  predicate Consent(data: Value)
    ensures Consent(data) ==> Truthy(Get(data, "consent"))
    ensures Get(data, "consent") == Some(Str("true")) ==> !Consent(data)
  {
    Get(data, "consent") == Some(Str("on")) || Get(data, "consent") == Some(Bool(true))
  }

  datatype Submission = Submission(name: string, email: string, phone: string, company: string,
                                   jobTitle: string, service: string, message: string, consent: bool)

  function FieldsOf(data: Value): Submission {
    Submission(Field(data, "name"), Field(data, "email"), Field(data, "phone"), Field(data, "company"),
               Field(data, "jobTitle"), Field(data, "service"), Field(data, "message"), Consent(data))
  }

  /** Name, e-mail, company, job title and message are non-empty and consent is given;
      phone and service are optional. */
  predicate RequiredPresent(s: Submission) {
    s.name != "" && s.email != "" && s.company != "" && s.jobTitle != "" && s.message != "" && s.consent
  }

  function Subject(s: Submission): string {
    "New Contact Form Submission from " + s.name + " - " + s.company
  }

  function PhoneLine(s: Submission): string {
    "Phone: " + (if s.phone == "" then "Not provided" else s.phone) + "\n"
  }

  function ServiceLine(s: Submission): string {
    "Service of Interest: " + (if s.service == "" then "Not specified" else s.service) + "\n"
  }

  /** The greeting, the name and the e-mail lines. */
  // Each is written in two pieces so that its first and last characters are visible to
  // the verifier.
  const Greeting: string := "New" + " contact form submission received:\n\nName: "
  const Signature: string := "\n\n---\nThis email was sent from the Networkk website contact" + " form."

  function Head(s: Submission): string {
    Greeting + s.name + "\nEmail: " + s.email + "\n"
  }

  /** The company and job title lines. */
  function Mid(s: Submission): string {
    "Company: " + s.company + "\nJob Title: " + s.jobTitle + "\n"
  }

  /** The message and the signature. */
  function Tail(s: Submission): string {
    "\nMessage:\n" + s.message + Signature
  }

  function MessageText(s: Submission): string {
    Head(s) + PhoneLine(s) + Mid(s) + ServiceLine(s) + Tail(s)
  }

  /** The e-mail body: the template literal, which opens with a line break and closes with
      an indented line, trimmed. Trimming removes only that line break and that
      indentation, so the body is the message text itself. */
  function EmailBody(s: Submission): (r: string)
    ensures r == MessageText(s)
  {
    var h, t := Head(s), Tail(s);
    assert Greeting[0] == 'N';
    assert Signature[|Signature| - 1] == '.';
    Ends(Greeting, s.name, "\nEmail: ", s.email, "\n");
    Ends("\nMessage:\n", s.message, "", "", Signature);
    assert "\nMessage:\n" + s.message + "" + "" + Signature == t;
    Ends(h, PhoneLine(s), Mid(s), ServiceLine(s), t);
    TrimAround("\n", MessageText(s), "\n    ");
    Trim("\n" + MessageText(s) + "\n    ")
  }

  datatype Mail = Mail(to: seq<string>, from: string, subject: string, text: string, replyTo: string)

  datatype Response = Response(status: int, success: bool, error: Option<string>, mail: Option<Mail>)

  function Failure(status: int, error: string): Response {
    Response(status, false, Some(error), None)
  }

  /** `POST`: the early-return chain of the handler. */
  method Post(req: Request) returns (r: Response)
    ensures ReadBody(req) == BadJson ==> r == Failure(400, "Invalid JSON format")
    ensures ReadBody(req) == BadForm ==> r == Failure(400, "Invalid form data")
    ensures ReadBody(req) == Data(Null) ==> r == Failure(500, "Internal server error")
    ensures ReadBody(req).Data? && ReadBody(req).data != Null ==>
              var s := FieldsOf(ReadBody(req).data);
              && (!RequiredPresent(s) ==> r == Failure(400, "Missing required fields"))
              && (RequiredPresent(s) && !ContactNew.ValidateEmail(s.email) ==>
                    r == Failure(400, "Invalid email format"))
              && (RequiredPresent(s) && ContactNew.ValidateEmail(s.email) ==>
                    r.status == 200 && r.success
                    && r.mail == Some(Mail(ToEmails, FromEmail, Subject(s), EmailBody(s), s.email)))
    ensures r.status == 200 <==>
              ReadBody(req).Data? && ReadBody(req).data != Null
              && RequiredPresent(FieldsOf(ReadBody(req).data))
              && ContactNew.ValidateEmail(FieldsOf(ReadBody(req).data).email)
  {
    var data := Obj(map[]);
    var body := ReadBody(req);
    if body == BadJson {
      return Failure(400, "Invalid JSON format");
    }
    if body == BadForm {
      return Failure(400, "Invalid form data");
    }
    data := body.data;
    if data == Null {
      // `null.name` throws, and the handler's catch answers 500.
      return Failure(500, "Internal server error");
    }
    var s := FieldsOf(data);
    if s.name == "" || s.email == "" || s.company == "" || s.jobTitle == "" || s.message == "" || !s.consent {
      return Failure(400, "Missing required fields");
    }
    if !ContactNew.ValidateEmail(s.email) {
      return Failure(400, "Invalid email format");
    }
    var mail := Mail(ToEmails, FromEmail, Subject(s), EmailBody(s), s.email);
    r := Response(200, true, None, Some(mail));
  }

  /** Consent is given by the string `on` or the boolean `true` only: the string `true`
      does not count. */
  lemma ConsentValues()
    ensures Consent(Obj(map["consent" := Str("on")]))
    ensures Consent(Obj(map["consent" := Bool(true)]))
    ensures !Consent(Obj(map["consent" := Str("true")]))
    ensures !Consent(Obj(map[]))
  {
  }

  /** A form-encoded submission can only give consent as `on`. */
  lemma FormConsent(entries: seq<(string, string)>)
    ensures Consent(Obj(FromEntries(entries))) <==>
              "consent" in FromEntries(entries) && FromEntries(entries)["consent"] == Str("on")
  {
  }

  /** The first character of `a + b + c + d + e` is that of `a`, and its last that of `e`. */
  lemma Ends(a: string, b: string, c: string, d: string, e: string)
    requires |a| > 0 && |e| > 0
    ensures (a + b + c + d + e)[0] == a[0]
    ensures (a + b + c + d + e)[|a + b + c + d + e| - 1] == e[|e| - 1]
  {
  }

  lemma Regroup(a: string, b: string, c: string, d: string, e: string)
    ensures a + b + c + d + e == a + b + (c + d + e)
    ensures a + b + c + d + e == (a + b + c) + d + e
  {
  }

  /** The body names an empty phone as "Not provided" and an empty service as
      "Not specified", and otherwise quotes them. */
  lemma EmailBodyOptionalFields(s: Submission)
    ensures Contains(EmailBody(s), "Phone: " + (if s.phone == "" then "Not provided" else s.phone) + "\n")
    ensures Contains(EmailBody(s), "Service of Interest: " + (if s.service == "" then "Not specified" else s.service) + "\n")
  {
    var h, p, m, v, t := Head(s), PhoneLine(s), Mid(s), ServiceLine(s), Tail(s);
    Regroup(h, p, m, v, t);
    ContainsMiddle(h, p, m + v + t);
    ContainsMiddle(h + p + m, v, t);
  }

  /** The required-field check comes first: a submission that misses a required field is
      answered "Missing required fields" even when its e-mail is malformed too. */
  lemma RequiredBeforeEmail()
    ensures var s := Submission("", "not-an-email", "", "Acme", "CTO", "", "Hello", true);
            !RequiredPresent(s) && !ContactNew.ValidateEmail(s.email)
  {
    var e := "not-an-email";
    assert '@' !in e;
  }
}

=== FILE: contact_new.dfy ===
/** The website's contact-form endpoint: the e-mail and phone checks, the fixed-window
    per-IP rate limiter, the field-validation block and the response decision. Sending
    the e-mails is left out; its failure never changes the outcome. */
module ContactNew {
  import opened Strings

  // ---------------------------------------------------------------------------
  // E-mail: the pattern `^[^\s@]+@[^\s@]+\.[^\s@]+$`
  // ---------------------------------------------------------------------------

  /** A non-empty run of characters that are neither whitespace nor '@' (`[^\s@]+`). */
  predicate Plain(s: string) {
    |s| > 0 && forall i :: 0 <= i < |s| ==> !IsWhitespace(s[i]) && s[i] != '@'
  }

  /** The pattern read literally: a plain run, '@', a plain run, '.', a plain run. */
  ghost predicate EmailPattern(e: string) {
    exists i, j :: 0 < i && i + 1 < j && j + 1 < |e| && e[i] == '@' && e[j] == '.'
                   && Plain(e[..i]) && Plain(e[i + 1..j]) && Plain(e[j + 1..])
  }

  /** A '.' that is neither the first nor the last character. */
  predicate HasInnerDot(d: string) {
    exists k :: 0 < k < |d| - 1 && d[k] == '.'
  }

  /** The check as a scan: a non-empty local part before the first '@', and after it a
      domain without whitespace or '@' with a '.' that is neither its first nor its last
      character. */
  function ValidateEmail(email: string): (ok: bool)
    ensures ok ==> |email| >= 5
    ensures ok ==> forall i :: 0 <= i < |email| ==> !IsWhitespace(email[i])
    ensures ok ==> forall i, j :: 0 <= i < j < |email| && email[i] == '@' ==> email[j] != '@'
  {
    var at := IndexOfChar(email, '@');
    var ok := at > 0 && Plain(email[..at]) && Plain(email[at + 1..]) && HasInnerDot(email[at + 1..]);
    if ok then
      assert forall i :: 0 <= i < at ==> email[i] == email[..at][i];
      assert forall i :: at < i < |email| ==> email[i] == email[at + 1..][i - at - 1];
      ok
    else ok
  }

  /** An '@' preceded by a plain run is the first '@'. */
  lemma FirstAt(email: string, i: int)
    requires 0 < i < |email| && email[i] == '@' && Plain(email[..i])
    ensures IndexOfChar(email, '@') == i
  {
    assert email[i] in email;
    assert forall p :: 0 <= p < i ==> email[p] == email[..i][p];
  }

  /** Every slice of a plain run that is not empty is a plain run. */
  lemma PlainSlice(s: string, lo: int, hi: int)
    requires Plain(s) && 0 <= lo < hi <= |s|
    ensures Plain(s[lo..hi])
  {
    assert forall m :: 0 <= m < hi - lo ==> s[lo..hi][m] == s[lo + m];
  }

  lemma ScanImpliesPattern(email: string)
    requires ValidateEmail(email)
    ensures EmailPattern(email)
  {
    var i := IndexOfChar(email, '@');
    var d := email[i + 1..];
    var k :| 0 < k < |d| - 1 && d[k] == '.';
    var j := i + 1 + k;
    PlainSlice(d, 0, k);
    PlainSlice(d, k + 1, |d|);
    assert email[i + 1..j] == d[0..k];
    assert email[j + 1..] == d[k + 1..|d|];
    assert email[j] == '.';
    assert 0 < i && i + 1 < j && j + 1 < |email| && email[i] == '@';
  }

  lemma PatternImpliesScan(email: string, i: int, j: int)
    requires 0 < i && i + 1 < j && j + 1 < |email| && email[i] == '@' && email[j] == '.'
    requires Plain(email[..i]) && Plain(email[i + 1..j]) && Plain(email[j + 1..])
    ensures ValidateEmail(email)
  {
    FirstAt(email, i);
    var d := email[i + 1..];
    forall m | 0 <= m < |d|
      ensures !IsWhitespace(d[m]) && d[m] != '@'
    {
      if m < j - i - 1 {
        assert d[m] == email[i + 1..j][m];
      } else if m > j - i - 1 {
        assert d[m] == email[j + 1..][m - (j - i)];
      }
    }
    assert d[j - i - 1] == '.';
  }

  /** The scan accepts exactly the strings the pattern matches. */
  lemma ValidateEmailMatchesPattern(email: string)
    ensures ValidateEmail(email) <==> EmailPattern(email)
  {
    if ValidateEmail(email) {
      ScanImpliesPattern(email);
    }
    if EmailPattern(email) {
      var i, j :| 0 < i && i + 1 < j && j + 1 < |email| && email[i] == '@' && email[j] == '.'
                  && Plain(email[..i]) && Plain(email[i + 1..j]) && Plain(email[j + 1..]);
      PatternImpliesScan(email, i, j);
    }
  }

  // ---------------------------------------------------------------------------
  // Phone: blank, or the cleaned number matches
  // `^(\+91|91)?[6-9]\d{9}$|^\+?[1-9]\d{7,14}$`
  // ---------------------------------------------------------------------------

  /** `phone.replace(/[^\d+]/g, '')`: only the ASCII digits and '+' are kept. */
  function Cleaned(phone: string): (r: string)
    ensures forall i :: 0 <= i < |r| ==> IsDigit(r[i]) || r[i] == '+'
    ensures |r| <= |phone|
    ensures forall c :: c in r <==> c in phone && (IsDigit(c) || c == '+')
  {
    if |phone| == 0 then ""
    else (if IsDigit(phone[0]) || phone[0] == '+' then [phone[0]] else "") + Cleaned(phone[1..])
  }

  /** Cleaning works character by character, keeping the order: a digit or '+' is kept,
      anything else dropped, and cleaning a concatenation cleans each part. */
  lemma {:induction false} CleanedConcat(a: string, b: string)
    ensures Cleaned(a + b) == Cleaned(a) + Cleaned(b)
  {
    if a == [] {
      assert a + b == b;
    } else {
      assert (a + b)[0] == a[0];
      assert (a + b)[1..] == a[1..] + b;
      CleanedConcat(a[1..], b);
    }
  }

  /** One character is kept exactly when it is a digit or '+'. */
  lemma CleanedOne(c: char)
    ensures Cleaned([c]) == if IsDigit(c) || c == '+' then [c] else []
  {
    assert [c][1..] == [];
  }

  /** A string of digits and '+' is left as it is. */
  lemma {:induction false} CleanedKeepsClean(s: string)
    requires forall i :: 0 <= i < |s| ==> IsDigit(s[i]) || s[i] == '+'
    ensures Cleaned(s) == s
  {
    if s != [] {
      CleanedKeepsClean(s[1..]);
    }
  }

  /** `[6-9]\d{9}`: a ten-digit Indian mobile number. */
  predicate IndianMobile(r: string) {
    |r| == 10 && AllDigits(r) && '6' <= r[0] <= '9'
  }

  /** The first alternative, `(\+91|91)?[6-9]\d{9}`. */
  predicate IndianShape(c: string) {
    IndianMobile(c)
    || (StartsWith(c, "91") && IndianMobile(c[2..]))
    || (StartsWith(c, "+91") && IndianMobile(c[3..]))
  }

  /** `[1-9]\d{7,14}`: 8 to 15 digits, not starting with 0. */
  predicate IntlDigits(r: string) {
    8 <= |r| <= 15 && AllDigits(r) && '1' <= r[0] <= '9'
  }

  /** The second alternative, `\+?[1-9]\d{7,14}`. */
  predicate IntlShape(c: string) {
    IntlDigits(c) || (|c| > 0 && c[0] == '+' && IntlDigits(c[1..]))
  }

  /** `validatePhone`: the field is optional, so a blank value passes; otherwise the
      cleaned number must match one of the two alternatives. */
  function ValidatePhone(phone: string): (ok: bool)
    ensures Trim(phone) == "" ==> ok
    ensures ok && |Trim(phone)| > 0 ==> 8 <= |Cleaned(phone)| <= 16
    ensures ok && |Trim(phone)| > 0 ==> forall i :: 0 < i < |Cleaned(phone)| ==> IsDigit(Cleaned(phone)[i])
  {
    var c := Cleaned(phone);
    var ok := Trim(phone) == "" || IndianShape(c) || IntlShape(c);
    if Trim(phone) == "" || !ok then ok
    else if IndianShape(c) then IndianShapeIsIntl(c); IntlShapeDigits(c); ok
    else IntlShapeDigits(c); ok
  }

  /** An international-form number is 8 to 16 characters, all digits after the first. */
  lemma IntlShapeDigits(c: string)
    requires IntlShape(c)
    ensures 8 <= |c| <= 16
    ensures forall i :: 0 < i < |c| ==> IsDigit(c[i])
  {
    if !IntlDigits(c) {
      assert forall i :: 0 < i < |c| ==> c[i] == c[1..][i - 1];
    }
  }

  /** Every number of the Indian form also has the international form, so the first
      alternative accepts nothing the second does not. */
  lemma IndianShapeIsIntl(c: string)
    requires IndianShape(c)
    ensures IntlShape(c)
  {
    if StartsWith(c, "+91") && IndianMobile(c[3..]) {
      assert c[..3] == "+91";
      assert c[1..3] == "91";
      assert c[1..] == c[1..3] + c[3..];
    } else if StartsWith(c, "91") && IndianMobile(c[2..]) {
      assert c[..2] == "91";
      assert c == c[..2] + c[2..];
    }
  }

  /** A phone number passes exactly when it is blank or its cleaned form is an optional
      '+' followed by 8 to 15 digits, the first of them not 0. */
  lemma ValidatePhoneExactly(phone: string)
    ensures ValidatePhone(phone) <==> Trim(phone) == "" || IntlShape(Cleaned(phone))
    ensures Trim(phone) == "" ==> ValidatePhone(phone)
  {
    if IndianShape(Cleaned(phone)) {
      IndianShapeIsIntl(Cleaned(phone));
    }
  }

  // ---------------------------------------------------------------------------
  // Rate limiting: at most 5 requests per IP in a 15-minute window
  // ---------------------------------------------------------------------------

  const WindowMs: int := 15 * 60 * 1000
  const MaxRequests: int := 5

  datatype RateRecord = RateRecord(count: int, resetTime: int)

  type RateStore = map<string, RateRecord>

  /** Whether `checkRateLimit(ip)` at time `now` lets the request through. */
  function Allowed(store: RateStore, ip: string, now: int): (ok: bool)
    ensures ip !in store ==> ok
    ensures ok <==> AfterCheck(store, ip, now) != store
  {
    ip !in store || now > store[ip].resetTime || store[ip].count < MaxRequests
  }

  /** The store after `checkRateLimit(ip)` at time `now`: a missing or expired record
      starts a new window with count 1; a full window is left alone; otherwise the count
      goes up by one. */
  function AfterCheck(store: RateStore, ip: string, now: int): (r: RateStore)
    ensures r.Keys == store.Keys + {ip}
    ensures now <= r[ip].resetTime
    ensures ip in store && now <= store[ip].resetTime ==> r[ip].resetTime == store[ip].resetTime
  {
    if ip !in store || now > store[ip].resetTime then store[ip := RateRecord(1, now + WindowMs)]
    else if store[ip].count >= MaxRequests then store
    else store[ip := RateRecord(store[ip].count + 1, store[ip].resetTime)]
  }

  /** Every record counts between 1 and 5 requests. */
  predicate CountsBounded(store: RateStore) {
    forall ip :: ip in store ==> 1 <= store[ip].count <= MaxRequests
  }

  /** A check keeps the counts bounded and touches only the caller's record. */
  lemma AfterCheckPreserves(store: RateStore, ip: string, now: int)
    requires CountsBounded(store)
    ensures CountsBounded(AfterCheck(store, ip, now))
    ensures forall other :: other != ip ==>
              (other in AfterCheck(store, ip, now) <==> other in store)
              && (other in store ==> AfterCheck(store, ip, now)[other] == store[other])
    ensures !Allowed(store, ip, now) ==> AfterCheck(store, ip, now) == store
  {
  }

  /** The number of requests from `ip` let through when they arrive at `times`. */
  function AllowedCount(store: RateStore, ip: string, times: seq<int>): nat
    decreases |times|
  {
    if |times| == 0 then 0
    else (if Allowed(store, ip, times[0]) then 1 else 0)
         + AllowedCount(AfterCheck(store, ip, times[0]), ip, times[1..])
  }

  /** Within a window that is already open, at most the remaining 5 - count requests
      are let through. */
  lemma {:induction false} OpenWindowBound(store: RateStore, ip: string, times: seq<int>)
    requires ip in store && 1 <= store[ip].count <= MaxRequests
    requires forall k :: 0 <= k < |times| ==> times[k] <= store[ip].resetTime
    ensures AllowedCount(store, ip, times) <= MaxRequests - store[ip].count
    decreases |times|
  {
    if |times| > 0 {
      var next := AfterCheck(store, ip, times[0]);
      assert next[ip].resetTime == store[ip].resetTime;
      OpenWindowBound(next, ip, times[1..]);
    }
  }

  /** A window opened by a request at `start` lets at most 5 requests through: the
      opening one and at most 4 more until the window closes at `start + 900000`. */
  lemma AtMostFivePerWindow(store: RateStore, ip: string, start: int, later: seq<int>)
    requires ip !in store || start > store[ip].resetTime
    requires forall k :: 0 <= k < |later| ==> later[k] <= start + WindowMs
    ensures AllowedCount(store, ip, [start] + later) <= MaxRequests
  {
    assert ([start] + later)[1..] == later;
    OpenWindowBound(AfterCheck(store, ip, start), ip, later);
  }

  /** The endpoint's in-memory store. */
  class RateLimiter {
    var store: RateStore

    ghost predicate Valid()
      reads this
    {
      CountsBounded(store)
    }

    constructor ()
      ensures Valid() && store == map[]
    {
      store := map[];
    }

    /** `checkRateLimit(ip)` with the clock reading `now`. */
    method CheckRateLimit(ip: string, now: int) returns (allowed: bool)
      requires Valid()
      modifies this
      ensures Valid()
      ensures allowed == Allowed(old(store), ip, now)
      ensures store == AfterCheck(old(store), ip, now)
    {
      AfterCheckPreserves(store, ip, now);
      if ip !in store || now > store[ip].resetTime {
        store := store[ip := RateRecord(1, now + WindowMs)];
        return true;
      }
      var record := store[ip];
      if record.count >= MaxRequests {
        return false;
      }
      store := store[ip := record.(count := record.count + 1)];
      return true;
    }
  }

  // ---------------------------------------------------------------------------
  // Field validation
  // ---------------------------------------------------------------------------

  datatype ContactFormData = ContactFormData(name: string, email: string, phone: string,
                                             company: string, jobTitle: string, service: string,
                                             message: string, consent: string)

  /** `formData.get(key)?.toString()?.trim() || ''` for a text field. */
  function TrimmedField(form: map<string, string>, key: string): string {
    if key in form then Trim(form[key]) else ""
  }

  /** A text field holds the trimmed submitted value, or '' when the key was not sent. */
  predicate ReadAs(form: map<string, string>, key: string, value: string) {
    if key in form then value == Trim(form[key]) else value == ""
  }

  /** The submitted fields; consent alone is not trimmed. */
  function ReadForm(form: map<string, string>): (r: ContactFormData)
    ensures Trim(r.name) == r.name && Trim(r.email) == r.email && Trim(r.phone) == r.phone
            && Trim(r.company) == r.company && Trim(r.jobTitle) == r.jobTitle
            && Trim(r.service) == r.service && Trim(r.message) == r.message
    ensures && ReadAs(form, "name", r.name) && ReadAs(form, "email", r.email)
            && ReadAs(form, "phone", r.phone) && ReadAs(form, "company", r.company)
            && ReadAs(form, "jobTitle", r.jobTitle) && ReadAs(form, "service", r.service)
            && ReadAs(form, "message", r.message)
    ensures r.consent == if "consent" in form then form["consent"] else ""
  {
    var name, email, phone := FieldOf(form, "name"), FieldOf(form, "email"), FieldOf(form, "phone");
    var company, jobTitle := FieldOf(form, "company"), FieldOf(form, "jobTitle");
    var service, message := FieldOf(form, "service"), FieldOf(form, "message");
    ContactFormData(name, email, phone, company, jobTitle, service, message,
                    if "consent" in form then form["consent"] else "")
  }

  /** `TrimmedField` with the facts about it that the form reader states. */
  function FieldOf(form: map<string, string>, key: string): (v: string)
    ensures ReadAs(form, key, v) && Trim(v) == v
  {
    TrimmedFieldTrimmed(form, key);
    TrimmedField(form, key)
  }

  lemma TrimmedFieldTrimmed(form: map<string, string>, key: string)
    ensures Trim(TrimmedField(form, key)) == TrimmedField(form, key)
  {
    if key in form {
      TrimIdempotent(form[key]);
    } else {
      assert |TrimStart("")| == 0;
    }
  }

  /** A validation rule: whether the form breaks it, and the message it then adds. */
  datatype Rule = Rule(broken: bool, text: string)

  const NameMessage := "Name must be at least 2 characters long"
  const EmailMessage := "Please provide a valid email address"
  const PhoneMessage := "Please provide a valid phone number (e.g., +91 98765 43210 or 9876543210)"
  const CompanyMessage := "Company name is required (at least 2 characters)"
  const JobTitleMessage := "Job title is required (at least 2 characters)"
  const ServiceMessage := "Please select a service of interest"
  const MessageMessage := "Message must be at least 5 characters long"
  const ConsentMessage := "Please agree to the privacy policy to continue"

  /** A phone number is checked only when one is given: a blank one is never
      rejected, and a rejected one fails `validatePhone`. */
  predicate PhoneRejected(phone: string)
    ensures PhoneRejected(phone) ==> !ValidatePhone(phone) && Trim(phone) != ""
  {
    phone != "" && Trim(phone) != "" && !ValidatePhone(phone)
  }

  /** The eight rules, in the order the endpoint checks them. */
  function Rules(d: ContactFormData): (r: seq<Rule>)
    ensures |r| == 8
    ensures r[2] == Rule(PhoneRejected(d.phone), PhoneMessage)
    ensures r[7].broken <==> d.consent != "true" && d.consent != "on"
  {
    [ Rule(|Trim(d.name)| < 2, NameMessage),
      Rule(!ValidateEmail(d.email), EmailMessage),
      Rule(PhoneRejected(d.phone), PhoneMessage) ]
    + [ Rule(|Trim(d.company)| < 2, CompanyMessage),
        Rule(|Trim(d.jobTitle)| < 2, JobTitleMessage),
        Rule(Trim(d.service) == "", ServiceMessage),
        Rule(|Trim(d.message)| < 5, MessageMessage),
        Rule(d.consent != "true" && d.consent != "on", ConsentMessage) ]
  }

  /** The messages of the broken rules, in rule order. */
  function Broken(rules: seq<Rule>): (r: seq<string>)
    ensures |r| <= |rules|
    ensures forall m :: m in r ==> exists k :: 0 <= k < |rules| && rules[k].broken && rules[k].text == m
    ensures forall k :: 0 <= k < |rules| && rules[k].broken ==> rules[k].text in r
  {
    if |rules| == 0 then []
    else
      assert forall k :: 0 < k < |rules| ==> rules[k] == rules[1..][k - 1];
      (if rules[0].broken then [rules[0].text] else []) + Broken(rules[1..])
  }

  lemma {:induction false} BrokenAppend(rules: seq<Rule>, r: Rule)
    ensures Broken(rules + [r]) == Broken(rules) + (if r.broken then [r.text] else [])
  {
    if |rules| > 0 {
      assert (rules + [r])[1..] == rules[1..] + [r];
      BrokenAppend(rules[1..], r);
    }
  }

  /** No message exactly when no rule is broken: every rule is checked, none
      short-circuits another. */
  lemma {:induction false} BrokenEmptyIff(rules: seq<Rule>)
    ensures Broken(rules) == [] <==> forall k :: 0 <= k < |rules| ==> !rules[k].broken
  {
    if |rules| > 0 {
      BrokenEmptyIff(rules[1..]);
      if !rules[0].broken {
        assert forall k :: 0 < k < |rules| ==> rules[k] == rules[1..][k - 1];
      }
    }
  }

  /** Runs the rules in order, pushing the message of each broken one. */
  method CollectBroken(rules: seq<Rule>) returns (errors: seq<string>)
    ensures errors == Broken(rules)
    ensures errors == [] <==> forall k :: 0 <= k < |rules| ==> !rules[k].broken
  {
    errors := [];
    var k := 0;
    while k < |rules|
      invariant 0 <= k <= |rules|
      invariant errors == Broken(rules[..k])
    {
      BrokenAppend(rules[..k], rules[k]);
      assert rules[..k + 1] == rules[..k] + [rules[k]];
      if rules[k].broken {
        errors := errors + [rules[k].text];
      }
      k := k + 1;
    }
    assert rules[..k] == rules;
    BrokenEmptyIff(rules);
  }

  /** The validation block: one message per broken rule, in rule order. */
  method ValidateContact(d: ContactFormData) returns (errors: seq<string>)
    ensures errors == Broken(Rules(d))
  {
    errors := CollectBroken(Rules(d));
  }

  /** The form is accepted exactly when every field rule holds: name, company and job
      title of at least 2 characters, a valid e-mail, a valid phone when one is given,
      a service, a message of at least 5 characters and consent 'true' or 'on'. */
  lemma AcceptedIff(d: ContactFormData)
    ensures Broken(Rules(d)) == [] <==>
              && |Trim(d.name)| >= 2
              && ValidateEmail(d.email)
              && (d.phone == "" || Trim(d.phone) == "" || ValidatePhone(d.phone))
              && |Trim(d.company)| >= 2 && |Trim(d.jobTitle)| >= 2
              && Trim(d.service) != ""
              && |Trim(d.message)| >= 5
              && (d.consent == "true" || d.consent == "on")
  {
    var r := Rules(d);
    assert r[2].broken <==> !(d.phone == "" || Trim(d.phone) == "" || ValidatePhone(d.phone));
    NoneOfEightBroken(r);
  }

  /** Eight rules produce no message exactly when none of them is broken. */
  lemma NoneOfEightBroken(rules: seq<Rule>)
    requires |rules| == 8
    ensures Broken(rules) == [] <==>
              && !rules[0].broken && !rules[1].broken && !rules[2].broken && !rules[3].broken
              && !rules[4].broken && !rules[5].broken && !rules[6].broken && !rules[7].broken
  {
    BrokenEmptyIff(rules);
    if !rules[0].broken && !rules[1].broken && !rules[2].broken && !rules[3].broken
       && !rules[4].broken && !rules[5].broken && !rules[6].broken && !rules[7].broken {
      forall k | 0 <= k < |rules| ensures !rules[k].broken {
        assert k in {0, 1, 2, 3, 4, 5, 6, 7};
      }
    }
  }

  // ---------------------------------------------------------------------------
  // The endpoint
  // ---------------------------------------------------------------------------

  /** `x-forwarded-for || x-real-ip || 'unknown'`: the first non-empty header. */
  function ClientIp(headers: map<string, string>): (ip: string)
    ensures ip != ""
    ensures "x-forwarded-for" in headers && headers["x-forwarded-for"] != "" ==>
              ip == headers["x-forwarded-for"]
    ensures !("x-forwarded-for" in headers && headers["x-forwarded-for"] != "")
            && "x-real-ip" in headers && headers["x-real-ip"] != "" ==>
              ip == headers["x-real-ip"]
    ensures !("x-forwarded-for" in headers && headers["x-forwarded-for"] != "")
            && !("x-real-ip" in headers && headers["x-real-ip"] != "") ==>
              ip == "unknown"
  {
    if "x-forwarded-for" in headers && headers["x-forwarded-for"] != "" then headers["x-forwarded-for"]
    else if "x-real-ip" in headers && headers["x-real-ip"] != "" then headers["x-real-ip"]
    else "unknown"
  }

  datatype ContactResponse =
    | RateLimited   // 429, RATE_LIMIT_EXCEEDED
    | Invalid(error: string)   // 400, VALIDATION_ERROR
    | Accepted   // 200

  function StatusCode(r: ContactResponse): int {
    match r
    case RateLimited => 429
    case Invalid(_) => 400
    case Accepted => 200
  }

  /** The answer for a request that the rate limiter did or did not let through and
      whose form broke the rules with messages `errors`. */
  function Decide(allowed: bool, errors: seq<string>): (r: ContactResponse)
    ensures StatusCode(r) == 429 <==> !allowed
    ensures StatusCode(r) == 400 <==> allowed && errors != []
    ensures StatusCode(r) == 200 <==> allowed && errors == []
    ensures r.Invalid? ==> r.error == Join(errors, ". ")
  {
    if !allowed then RateLimited
    else if errors != [] then Invalid(Join(errors, ". "))
    else Accepted
  }

  /** What the handler answers once the rate limiter has decided: the form is read and
      validated only for a request it let through. */
  method Respond(allowed: bool, form: map<string, string>) returns (r: ContactResponse)
    ensures r == Decide(allowed, Broken(Rules(ReadForm(form))))
  {
    if !allowed {
      return RateLimited;
    }
    var data := ReadForm(form);
    r := Answer(data);
  }

  /** The answer to a request the rate limiter let through. */
  method Answer(d: ContactFormData) returns (r: ContactResponse)
    ensures r == Decide(true, Broken(Rules(d)))
  {
    var errors := ValidateContact(d);
    if |errors| > 0 {
      return Invalid(Join(errors, ". "));
    }
    return Accepted;
  }

  /** The POST handler with the clock reading `now`. The rate limit is checked before
      the form is read; a rejected form gives 400 with the messages joined by '. ';
      otherwise the answer is 200 (a failure to send the e-mails is swallowed). */
  method Post(limiter: RateLimiter, headers: map<string, string>, form: map<string, string>, now: int)
    returns (r: ContactResponse)
    requires limiter.Valid()
    modifies limiter
    ensures limiter.Valid()
    ensures limiter.store == AfterCheck(old(limiter.store), ClientIp(headers), now)
    ensures r == Decide(Allowed(old(limiter.store), ClientIp(headers), now), Broken(Rules(ReadForm(form))))
  {
    var ip := ClientIp(headers);
    var allowed := limiter.CheckRateLimit(ip, now);
    r := Respond(allowed, form);
  }
}

=== FILE: content_adapter.dfy ===
/** The website's content adapter: it finds a page or insight document by slug, checks its
    SEO metadata against the SEO schema and, when that fails, builds a fallback SEO
    record from the document and the site configuration instead of failing the build.
    Module loading is I/O, so the bundled page modules are given as a list of (path,
    module) pairs and the insight modules as a map from slug to document. */
module ContentAdapter {
  import opened Wrappers
  import opened Values
  import opened Strings
  import opened BlockSchemas

  datatype SiteConfig = SiteConfig(name: string, tagline: string, description: string,
                                   url: string, logo: string)

  /** `getSiteConfig()` (navigation, social, contact and analytics entries left out). */
  const Site: SiteConfig := SiteConfig("Networkk", "Executive Search & Leadership Hiring Experts",
                                       "Transform your business with top-tier executive talent",
                                       "https://networkk.com", "/logo.png")

  const PagesPrefix: string := "../../content/pages/"

  // ---------------------------------------------------------------------------
  // Slug matching
  // ---------------------------------------------------------------------------

  /** The slug a module path stands for: the path without its first
      `../../content/pages/` and then without its first `.json`. */
  function SlugOfPath(path: string): (r: string)
    ensures !Contains(path, PagesPrefix) && !Contains(path, ".json") ==> r == path
  {
    ReplaceFirst(ReplaceFirst(path, PagesPrefix, ""), ".json", "")
  }

  /** The page file of a slug (nested folders included) stands for exactly that slug,
      provided the slug itself holds no `.json`. */
  lemma PagePathSlug(slug: string)
    requires !Contains(slug + ".jso", ".json")
    ensures SlugOfPath(PagesPrefix + slug + ".json") == slug
  {
    var file := slug + ".json";
    ReplacePrefix(PagesPrefix, file, "");
    assert "" + file == file;
    assert PagesPrefix + slug + ".json" == PagesPrefix + file;
    assert ".json"[..4] == ".jso";
    ReplaceFirstAfter(slug, ".json", "", "");
    assert file + "" == file;
    assert slug + "" + "" == slug;
  }

  /** So the page file of one slug never matches a request for another. */
  lemma PagePathMatchesOnlyItsSlug(file: string, slug: string)
    requires !Contains(file + ".jso", ".json")
    ensures SlugOfPath(PagesPrefix + file + ".json") == slug <==> file == slug
  {
    PagePathSlug(file);
  }

  /** The slug each module path stands for, in module order. */
  function PathSlugs(modules: seq<(string, Value)>): (r: seq<string>)
    ensures |r| == |modules|
    ensures forall k :: 0 <= k < |modules| ==> r[k] == SlugOfPath(modules[k].0)
  {
    seq(|modules|, k requires 0 <= k < |modules| => SlugOfPath(modules[k].0))
  }

  /** `xs.findIndex(y => y === x)`: the first position of `x`, or -1. */
  function FirstIndex<T(==)>(xs: seq<T>, x: T): (r: int)
    ensures -1 <= r < |xs|
    ensures r == -1 <==> x !in xs
    ensures r != -1 ==> xs[r] == x && x !in xs[..r]
  {
    if xs == [] then -1
    else if xs[0] == x then 0
    else
      var r := FirstIndex(xs[1..], x);
      assert r != -1 ==> xs[..r + 1] == [xs[0]] + xs[1..][..r];
      if r == -1 then -1 else r + 1
  }

  // ---------------------------------------------------------------------------
  // Fallback SEO
  // ---------------------------------------------------------------------------

  /** `url.replace(/\/$/, '')`: drops one trailing slash. */
  function TrimTrailingSlash(url: string): (r: string)
    ensures EndsWith(url, "/") ==> r + "/" == url
    ensures !EndsWith(url, "/") ==> r == url
  {
    if EndsWith(url, "/") then url[..|url| - 1] else url
  }

  /** `(content.seo && content.seo.keywords) ?? []` */
  function FallbackKeywords(content: Value): Value {
    var seo := Get(content, "seo");
    OrElse(if Truthy(seo) then GetOpt(seo, "keywords") else seo, Arr([]))
  }

  /** The fallback SEO record of a document published at `path` ("slug" for a page,
      "insights/slug" for an insight); `image: undefined` is an absent key. */
  function FallbackSeo(content: Value, site: SiteConfig, path: string): (r: map<string, Value>)
    ensures r.Keys == {"title", "description", "canonical", "noindex", "keywords"}
    ensures Truthy(Get(content, "title")) ==>
              r["title"] == Str(Render(Get(content, "title").value) + " - " + site.name)
    ensures !Truthy(Get(content, "title")) ==> r["title"] == Str(site.name)
    ensures Get(content, "excerpt").None? || Get(content, "excerpt").value.Null? ==>
              r["description"] == Str(site.description)
    ensures Get(content, "excerpt").Some? && Get(content, "excerpt").value.Str? ==>
              r["description"] == Get(content, "excerpt").value
    ensures r["canonical"] == Str(TrimTrailingSlash(site.url) + "/" + path + "/")
    ensures r["noindex"] == Bool(false)
    ensures var seo := Get(content, "seo");
            && (Truthy(seo) && Get(seo.value, "keywords").Some? && !Get(seo.value, "keywords").value.Null? ==>
                  r["keywords"] == Get(seo.value, "keywords").value)
            && (Truthy(seo) && (Get(seo.value, "keywords").None? || Get(seo.value, "keywords").value.Null?) ==>
                  r["keywords"] == Arr([]))
            && (seo.None? || seo.value.Null? ==> r["keywords"] == Arr([]))
            && (seo.Some? && !seo.value.Null? && !Truthy(seo) ==> r["keywords"] == seo.value)
  {
    map["title" := Str(if Truthy(Get(content, "title"))
                       then Render(Get(content, "title").value) + " - " + site.name
                       else site.name),
        "description" := Str(Render(OrElse(Get(content, "excerpt"), Str(site.description)))),
        "canonical" := Str(TrimTrailingSlash(site.url) + "/" + path + "/"),
        "noindex" := Bool(false),
        "keywords" := FallbackKeywords(content)]
  }

  /** `{ ...fallbackSeo, ...(content.seo || {}) }`: the document's own SEO fields win. */
  function MergedSeo(content: Value, site: SiteConfig, path: string): (r: Value)
    ensures r.Obj?
    ensures forall key :: key in FallbackSeo(content, site, path) ==> key in r.fields
    ensures var seo := Get(content, "seo");
            Truthy(seo) && seo.value.Obj? ==>
              forall key :: key in seo.value.fields ==> key in r.fields && r.fields[key] == seo.value.fields[key]
    ensures var seo := Get(content, "seo");
            !(Truthy(seo) && seo.value.Obj?) ==> r == Obj(FallbackSeo(content, site, path))
  {
    var seo := Get(content, "seo");
    Obj(FallbackSeo(content, site, path)
        + (if Truthy(seo) && seo.value.Obj? then seo.value.fields else map[]))
  }

  /** `{ ...content, seo }` */
  function WithSeo(content: Value, seo: Value): Value {
    Obj((if content.Obj? then content.fields else map[])["seo" := seo])
  }

  /** The document with its SEO resolved: the parsed record when the SEO schema accepts
      `content.seo`, the merged fallback otherwise. */
  function Resolve(content: Value, site: SiteConfig, path: string, isUrl: string -> bool): (r: Value)
    ensures r.Obj? && Get(r, "seo").Some? && Get(r, "seo").value.Obj?
    ensures forall key :: key != "seo" ==> Get(r, key) == Get(content, key)
  {
    var seo := Get(content, "seo");
    if seo.Some? && ParseSeo(seo.value, isUrl).Some? then WithSeo(content, SeoToValue(ParseSeo(seo.value, isUrl).value))
    else WithSeo(content, MergedSeo(content, site, path))
  }

  /** With valid SEO the document carries the parsed record, which parses again to the
      same record; every other field of the document is kept. */
  lemma ResolveValid(content: Value, site: SiteConfig, path: string, isUrl: string -> bool)
    requires content.Obj? && Get(content, "seo").Some? && SeoValid(Get(content, "seo").value, isUrl)
    ensures Get(Resolve(content, site, path, isUrl), "seo").Some?
    ensures ParseSeo(Get(Resolve(content, site, path, isUrl), "seo").value, isUrl)
            == ParseSeo(Get(content, "seo").value, isUrl)
    ensures forall key :: key != "seo" ==> Get(Resolve(content, site, path, isUrl), key) == Get(content, key)
  {
    ParseSeoIdempotent(Get(content, "seo").value, isUrl);
  }

  /** With invalid or missing SEO, every field the document's own SEO object has is kept
      as it is, every other fallback field is filled in, and nothing else is added;
      every other field of the document is kept. */
  lemma ResolveFallback(content: Value, site: SiteConfig, path: string, isUrl: string -> bool)
    requires content.Obj?
    requires Get(content, "seo").None? || !SeoValid(Get(content, "seo").value, isUrl)
    ensures var seo := Get(Resolve(content, site, path, isUrl), "seo");
            && seo.Some? && seo.value.Obj?
            && (forall key :: key in FallbackSeo(content, site, path) ==> key in seo.value.fields)
            && (forall key :: key in seo.value.fields ==>
                  if Get(content, "seo").Some? && Get(content, "seo").value.Obj?
                     && key in Get(content, "seo").value.fields
                  then seo.value.fields[key] == Get(content, "seo").value.fields[key]
                  else key in FallbackSeo(content, site, path)
                       && seo.value.fields[key] == FallbackSeo(content, site, path)[key])
    ensures forall key :: key != "seo" ==> Get(Resolve(content, site, path, isUrl), key) == Get(content, key)
  {
    var s := Get(content, "seo");
    if s.Some? && s.value.Obj? {
      assert IsTruthy(s.value);
    }
  }

  /** The site's canonical base has no trailing slash, so a page's fallback canonical is
      `https://networkk.com/<slug>/` and an insight's `https://networkk.com/insights/<slug>/`. */
  lemma SiteCanonical(content: Value, slug: string)
    ensures FallbackSeo(content, Site, slug)["canonical"] == Str("https://networkk.com/" + slug + "/")
    ensures FallbackSeo(content, Site, "insights/" + slug)["canonical"]
            == Str("https://networkk.com/insights/" + slug + "/")
  {
    assert !EndsWith(Site.url, "/") by {
      assert Site.url[|Site.url| - 1..] == "m";
    }
    var base := TrimTrailingSlash(Site.url);
    assert base + "/" == "https://networkk.com/";
    assert base + "/" + slug + "/" == "https://networkk.com/" + slug + "/";
    assert base + "/" + ("insights/" + slug) + "/" == "https://networkk.com/insights/" + slug + "/" by {
      assert "https://networkk.com/" + "insights/" == "https://networkk.com/insights/";
    }
  }

  // ---------------------------------------------------------------------------
  // Loaders
  // ---------------------------------------------------------------------------

  /** `module.default || module` */
  function ContentOf(m: Value): (r: Value)
    ensures !m.Obj? ==> r == m
    ensures IsTruthy(m) ==> IsTruthy(r)
    ensures r == m || Get(m, "default") == Some(r)
  {
    if Truthy(Get(m, "default")) then Get(m, "default").value else m
  }

  /** `loadPageBySlug(slug)`: null when no module path matches; otherwise the first
      matching module's content with its SEO resolved under the page's own path. */
  function LoadPageBySlug(modules: seq<(string, Value)>, slug: string, isUrl: string -> bool): (r: Option<Value>)
    ensures r.None? <==> slug !in PathSlugs(modules)
    ensures r.Some? ==> exists k :: 0 <= k < |modules| && PathSlugs(modules)[k] == slug
                          && slug !in PathSlugs(modules)[..k]
                          && r.value == Resolve(ContentOf(modules[k].1), Site, slug, isUrl)
  {
    var k := FirstIndex(PathSlugs(modules), slug);
    if k == -1 then None else Some(Resolve(ContentOf(modules[k].1), Site, slug, isUrl))
  }

  /** `loadInsightBySlug(slug)`: null when there is no such insight module; otherwise its
      content with its SEO resolved under `insights/<slug>`. */
  function LoadInsightBySlug(insights: map<string, Value>, slug: string, isUrl: string -> bool): (r: Option<Value>)
    ensures r.None? <==> slug !in insights
    ensures r.Some? ==> r.value == Resolve(insights[slug], Site, "insights/" + slug, isUrl)
  {
    if slug in insights then Some(Resolve(insights[slug], Site, "insights/" + slug, isUrl)) else None
  }

  // ---------------------------------------------------------------------------
  // Block check
  // ---------------------------------------------------------------------------

  /** `validateBlockData(block)`: id, type and props are all truthy. */
  function ValidateBlockData(block: Value): (ok: bool)
    ensures ok ==> block.Obj? && "id" in block.fields && "type" in block.fields && "props" in block.fields
    ensures ok ==> !block.fields["id"].Null? && !block.fields["type"].Null? && !block.fields["props"].Null?
    ensures Get(block, "props") == Some(Null) ==> !ok
  {
    Truthy(Get(block, "id")) && Truthy(Get(block, "type")) && Truthy(Get(block, "props"))
  }

  /** Every block the block-instance schema accepts passes, once its id is non-empty and
      its props are truthy. */
  lemma SchemaBlocksPass(v: Value)
    requires BlockInstanceValid(v)
    requires Get(v, "id").value.s != "" && Truthy(Get(v, "props"))
    ensures ValidateBlockData(v)
  {
    assert "" !in BlockTypes;
  }

  /** The check does not look at the type: a block of an unregistered type passes it
      although the block-instance schema rejects it. */
  lemma UnregisteredTypePasses()
    ensures var v := Obj(map["id" := Str("b1"), "type" := Str("Carousel"), "props" := Obj(map[])]);
            ValidateBlockData(v) && !BlockInstanceValid(v)
  {
    var v := Obj(map["id" := Str("b1"), "type" := Str("Carousel"), "props" := Obj(map[])]);
    assert Get(v, "type").value.s !in BlockTypes;
  }
}

=== FILE: daily_digest.dfy ===
/** The CMS daily SEO digest script: the page files with no level-2 heading, and one entry
    for every block whose media has no alt text. Posting the digest to the notification
    endpoint is I/O and is not part of this model. */
module DailyDigest {
  import opened Wrappers
  import opened Values
  import opened Strings
  import opened PageFiles
  import BlockSchemas

  /** `block.props || {}` */
  function PropsOf(block: Value): Value {
    if Truthy(Get(block, "props")) then Get(block, "props").value else Obj(map[])
  }

  /** `block.type === 'Heading' && props.level === 2 && props.text` */
  predicate IsH2(block: Value) {
    && Get(block, "type") == Some(Str("Heading"))
    && Get(PropsOf(block), "level") == Some(Num(2))
    && Truthy(Get(PropsOf(block), "text"))
  }

  /** `props.media && !props.media.alt`, for a block of any type. */
  predicate MediaMissingAlt(block: Value) {
    Truthy(Get(PropsOf(block), "media")) && !Truthy(GetOpt(Get(PropsOf(block), "media"), "alt"))
  }

  /** `${file}: ${block.type} missing alt text` */
  function AltEntry(file: string, block: Value): string {
    file + ": " + Display(Get(block, "type")) + " missing alt text"
  }

  predicate HasH2(blocks: seq<Value>) {
    exists i :: 0 <= i < |blocks| && IsH2(blocks[i])
  }

  /** The alt-text entries of the first `n` blocks of a page. */
  function AltEntries(file: string, blocks: seq<Value>, n: nat): seq<string>
    requires n <= |blocks|
  {
    if n == 0 then []
    else AltEntries(file, blocks, n - 1)
         + (if MediaMissingAlt(blocks[n - 1]) then [AltEntry(file, blocks[n - 1])] else [])
  }

  predicate AllReadable(files: seq<PageFile>) {
    forall k :: 0 <= k < |files| ==> BlocksReadable(files[k].data)
  }

  /** `pagesMissingH2`: the files without a level-2 heading, in file order. */
  function MissingH2(files: seq<PageFile>): (r: seq<string>)
    requires AllReadable(files)
    ensures |r| <= |files|
  {
    if files == [] then []
    else
      var last := files[|files| - 1];
      assert forall k :: 0 <= k < |files| - 1 ==> files[..|files| - 1][k] == files[k];
      MissingH2(files[..|files| - 1]) + (if HasH2(BlocksOf(last.data)) then [] else [last.name])
  }

  /** `imagesMissingAlt`: the alt-text entries of every file, in file and block order. */
  function MissingAlt(files: seq<PageFile>): (r: seq<string>)
    requires AllReadable(files)
    ensures r == [] <==> forall k :: 0 <= k < |files| ==>
                           AltEntries(files[k].name, BlocksOf(files[k].data), |BlocksOf(files[k].data)|) == []
  {
    if files == [] then []
    else
      var last := files[|files| - 1];
      assert forall k :: 0 <= k < |files| - 1 ==> files[..|files| - 1][k] == files[k];
      MissingAlt(files[..|files| - 1]) + AltEntries(last.name, BlocksOf(last.data), |BlocksOf(last.data)|)
  }

  /** One iteration of the script's loop: walks the page's blocks with the `hasH2` flag,
      pushing alt-text entries, then pushes the file when no level-2 heading was seen. */
  method DigestPage(missingH2: seq<string>, missingAlt: seq<string>, page: PageFile)
    returns (h2Out: seq<string>, altOut: seq<string>)
    requires BlocksReadable(page.data)
    ensures h2Out == missingH2 + (if HasH2(BlocksOf(page.data)) then [] else [page.name])
    ensures altOut == missingAlt + AltEntries(page.name, BlocksOf(page.data), |BlocksOf(page.data)|)
  {
    var blocks := BlocksOf(page.data);
    var hasH2 := false;
    altOut := missingAlt;
    var i := 0;
    while i < |blocks|
      invariant 0 <= i <= |blocks|
      invariant hasH2 <==> exists j :: 0 <= j < i && IsH2(blocks[j])
      invariant altOut == missingAlt + AltEntries(page.name, blocks, i)
    {
      var props := PropsOf(blocks[i]);
      if Get(blocks[i], "type") == Some(Str("Heading")) && Get(props, "level") == Some(Num(2))
         && Truthy(Get(props, "text")) {
        hasH2 := true;
      }
      if Truthy(Get(props, "media")) && !Truthy(GetOpt(Get(props, "media"), "alt")) {
        altOut := altOut + [AltEntry(page.name, blocks[i])];
      }
      i := i + 1;
    }
    h2Out := missingH2;
    if !hasH2 {
      h2Out := h2Out + [page.name];
    }
  }

  /** The script's summary: `pagesMissingH2` and `imagesMissingAlt`. */
  method Digest(files: seq<PageFile>) returns (pagesMissingH2: seq<string>, imagesMissingAlt: seq<string>)
    requires AllReadable(files)
    ensures pagesMissingH2 == MissingH2(files)
    ensures imagesMissingAlt == MissingAlt(files)
  {
    pagesMissingH2 := [];
    imagesMissingAlt := [];
    var k := 0;
    while k < |files|
      invariant 0 <= k <= |files|
      invariant AllReadable(files[..k])
      invariant pagesMissingH2 == MissingH2(files[..k])
      invariant imagesMissingAlt == MissingAlt(files[..k])
    {
      pagesMissingH2, imagesMissingAlt := DigestPage(pagesMissingH2, imagesMissingAlt, files[k]);
      assert files[..k + 1][..k] == files[..k];
      k := k + 1;
    }
    assert files[..k] == files;
  }

  /** A file is listed as missing an H2 exactly when one of the given files with that name
      has no block that is a level-2 heading with text. */
  lemma {:induction false} MissingH2Iff(files: seq<PageFile>, name: string)
    requires AllReadable(files)
    ensures name in MissingH2(files) <==>
              exists k :: 0 <= k < |files| && files[k].name == name && !HasH2(BlocksOf(files[k].data))
  {
    if files != [] {
      var init := files[..|files| - 1];
      var last := files[|files| - 1];
      assert AllReadable(init) by {
        assert forall k :: 0 <= k < |init| ==> init[k] == files[k];
      }
      MissingH2Iff(init, name);
      var tail := if HasH2(BlocksOf(last.data)) then [] else [last.name];
      assert MissingH2(files) == MissingH2(init) + tail;
      if name in MissingH2(init) {
        var k :| 0 <= k < |init| && init[k].name == name && !HasH2(BlocksOf(init[k].data));
        assert files[k] == init[k];
      } else if name in tail {
        assert files[|files| - 1] == last;
      } else {
        forall k | 0 <= k < |files| && files[k].name == name
          ensures HasH2(BlocksOf(files[k].data))
        {
          if k < |init| {
            assert init[k] == files[k];
          } else {
            assert files[k] == last;
          }
        }
      }
    }
  }

  /** A page with no blocks is always reported as missing an H2. */
  lemma NoBlocksNoH2(page: PageFile)
    requires BlocksReadable(page.data) && BlocksOf(page.data) == []
    ensures page.name in MissingH2([page])
  {
    assert [page][..0] == [];
  }

  /** `Heading` is not one of the registered block types, so a page whose blocks all have
      registered types is always reported as missing an H2. */
  lemma RegisteredBlocksNeverH2(blocks: seq<Value>)
    requires forall i :: 0 <= i < |blocks| ==>
               IsStr(Get(blocks[i], "type")) && Get(blocks[i], "type").value.s in BlockSchemas.BlockTypes
    ensures !HasH2(blocks)
  {
    assert "Heading" !in BlockSchemas.BlockTypes;
  }

  /** Every block with media but no alt text, of any type, gets exactly one entry, and
      only such blocks do. */
  lemma {:induction false} AltEntriesExactly(file: string, blocks: seq<Value>, n: nat)
    requires n <= |blocks|
    ensures |AltEntries(file, blocks, n)| <= n
    ensures forall j :: 0 <= j < n && MediaMissingAlt(blocks[j]) ==> AltEntry(file, blocks[j]) in AltEntries(file, blocks, n)
    ensures forall m :: m in AltEntries(file, blocks, n) ==>
              exists j :: 0 <= j < n && MediaMissingAlt(blocks[j]) && m == AltEntry(file, blocks[j])
  {
    if n > 0 {
      AltEntriesExactly(file, blocks, n - 1);
    }
  }
}

=== FILE: file_adapter.dfy ===
/** The file-based content source of the content bridge: pages and insights stored as
    JSON files under a content directory. Reading the directory and the files is I/O,
    so a listing is given as `Option<seq<string>>` (`None` when it cannot be read) and
    the parsed files as a map from file name to document (a missing entry is a file that
    cannot be read or parsed). */
module FileAdapter {
  import opened Wrappers
  import opened Values
  import opened Strings

  // ---------------------------------------------------------------------------
  // Pages
  // ---------------------------------------------------------------------------

  /** `files.filter(f => f.endsWith('.json'))` */
  function JsonFiles(files: seq<string>): (r: seq<string>)
    ensures |r| <= |files|
    ensures forall f :: f in r <==> f in files && EndsWith(f, ".json")
  {
    if files == [] then []
    else (if EndsWith(files[0], ".json") then [files[0]] else []) + JsonFiles(files[1..])
  }

  /** `getPage(slug)` / `getInsight(slug)`: the document stored for the slug, or null
      when it cannot be read or parsed. */
  function GetOne(docs: map<string, Value>, slug: string): (r: Option<Value>)
    ensures r.None? <==> slug !in docs
    ensures r.Some? ==> r.value == docs[slug]
  {
    if slug in docs then Some(docs[slug]) else None
  }

  /** Every listed JSON file could be read and parsed. */
  predicate AllReadable(names: seq<string>, docs: map<string, Value>) {
    forall k :: 0 <= k < |names| ==> names[k] in docs
  }

  /** `getPages()`: every `.json` file of the listing, in listing order; any failure
      (the listing or one of the files) gives the empty list. */
  function GetPages(listing: Option<seq<string>>, docs: map<string, Value>): (r: seq<Value>)
    ensures listing.None? ==> r == []
    ensures listing.Some? && !AllReadable(JsonFiles(listing.value), docs) ==> r == []
    ensures listing.Some? && AllReadable(JsonFiles(listing.value), docs) ==>
              |r| == |JsonFiles(listing.value)|
              && forall k :: 0 <= k < |r| ==> r[k] == docs[JsonFiles(listing.value)[k]]
  {
    if listing.None? then []
    else
      var names := JsonFiles(listing.value);
      if !AllReadable(names, docs) then []
      else seq(|names|, k requires 0 <= k < |names| => docs[names[k]])
  }

  // ---------------------------------------------------------------------------
  // Insights: filter, sort, paginate
  // ---------------------------------------------------------------------------

  /** A parsed insight file: its `category` (when it is a string), its `publishedAt`
      instant in milliseconds, and the document itself. */
  datatype LoadedInsight = LoadedInsight(category: Option<string>, publishedAt: int, doc: Value)

  datatype InsightQuery = InsightQuery(limit: Option<int>, offset: Option<int>, category: Option<string>)

  datatype InsightsPage = InsightsPage(items: seq<LoadedInsight>, total: int, hasMore: bool)

  /** `insight.category?.toLowerCase() === category.toLowerCase()` */
  predicate CategoryMatches(x: LoadedInsight, category: string)
    ensures CategoryMatches(x, category) ==> x.category.Some? && |x.category.value| == |category|
    ensures x.category == Some(category) ==> CategoryMatches(x, category)
  {
    x.category.Some? && AsciiLower(x.category.value) == AsciiLower(category)
  }

  /** The insights of one category, in their original order. */
  function InCategory(xs: seq<LoadedInsight>, category: string): (r: seq<LoadedInsight>)
    ensures |r| <= |xs|
    ensures forall x :: x in r <==> x in xs && CategoryMatches(x, category)
  {
    if xs == [] then []
    else (if CategoryMatches(xs[0], category) then [xs[0]] else []) + InCategory(xs[1..], category)
  }

  /** The category filter applies only when the requested category is truthy. */
  function Selected(xs: seq<LoadedInsight>, category: Option<string>): (r: seq<LoadedInsight>)
    ensures |r| <= |xs|
    ensures forall x :: x in r ==> x in xs
    ensures category.Some? && category.value != "" ==>
              forall x :: x in r <==> x in xs && CategoryMatches(x, category.value)
    ensures category.None? || category.value == "" ==> r == xs
  {
    if category.Some? && category.value != "" then InCategory(xs, category.value) else xs
  }

  /** Newest first: no insight precedes a more recent one. */
  predicate NewestFirst(xs: seq<LoadedInsight>) {
    forall i, j :: 0 <= i < j < |xs| ==> xs[i].publishedAt >= xs[j].publishedAt
  }

  /** The insights published at instant `t`, in their order in `xs`. */
  function PublishedAt(xs: seq<LoadedInsight>, t: int): seq<LoadedInsight> {
    if xs == [] then []
    else (if xs[0].publishedAt == t then [xs[0]] else []) + PublishedAt(xs[1..], t)
  }

  /** Puts `x` before the first element that is not more recent than it. */
  function Insert(x: LoadedInsight, t: seq<LoadedInsight>): (r: seq<LoadedInsight>)
    ensures |r| == |t| + 1
  {
    if t == [] || t[0].publishedAt <= x.publishedAt then [x] + t
    else [t[0]] + Insert(x, t[1..])
  }

  /** `filtered.sort((a, b) => b.publishedAt - a.publishedAt)`: the stable sort by
      descending publication time that the comparator and `Array.prototype.sort` give. */
  function SortNewestFirst(xs: seq<LoadedInsight>): (r: seq<LoadedInsight>)
    ensures |r| == |xs|
    ensures multiset(r) == multiset(xs)
  {
    if xs == [] then []
    else
      var rest := SortNewestFirst(xs[1..]);
      InsertPermutes(xs[0], rest);
      assert xs == [xs[0]] + xs[1..];
      Insert(xs[0], rest)
  }

  lemma {:induction false} InsertPermutes(x: LoadedInsight, t: seq<LoadedInsight>)
    ensures multiset(Insert(x, t)) == multiset(t) + multiset{x}
  {
    if t != [] && t[0].publishedAt > x.publishedAt {
      InsertPermutes(x, t[1..]);
      assert t == [t[0]] + t[1..];
    }
  }

  lemma {:induction false} InsertNewestFirst(x: LoadedInsight, t: seq<LoadedInsight>)
    requires NewestFirst(t)
    ensures NewestFirst(Insert(x, t))
  {
    if t != [] && t[0].publishedAt > x.publishedAt {
      InsertNewestFirst(x, t[1..]);
      InsertPermutes(x, t[1..]);
      var r := Insert(x, t[1..]);
      forall k | 0 <= k < |r|
        ensures t[0].publishedAt >= r[k].publishedAt
      {
        assert r[k] in multiset(r);
        assert r[k] == x || r[k] in t[1..];
      }
    }
  }

  lemma PublishedAtCons(y: LoadedInsight, ys: seq<LoadedInsight>, d: int)
    ensures PublishedAt([y] + ys, d) == (if y.publishedAt == d then [y] else []) + PublishedAt(ys, d)
  {
    assert ([y] + ys)[0] == y;
    assert ([y] + ys)[1..] == ys;
  }

  lemma {:induction false} InsertKeepsTies(x: LoadedInsight, t: seq<LoadedInsight>, d: int)
    ensures PublishedAt(Insert(x, t), d) == (if x.publishedAt == d then [x] else []) + PublishedAt(t, d)
  {
    if t == [] || t[0].publishedAt <= x.publishedAt {
      PublishedAtCons(x, t, d);
    } else {
      var r := Insert(x, t[1..]);
      InsertKeepsTies(x, t[1..], d);
      PublishedAtCons(t[0], r, d);
      PublishedAtCons(t[0], t[1..], d);
      assert t == [t[0]] + t[1..];
      var head := if t[0].publishedAt == d then [t[0]] else [];
      var mine := if x.publishedAt == d then [x] else [];
      assert head == [] || mine == [];
      assert head + (mine + PublishedAt(t[1..], d)) == mine + (head + PublishedAt(t[1..], d));
    }
  }

  /** The sort orders newest first, is a permutation, and is stable: insights published
      at the same instant keep their relative order. */
  lemma {:induction false} SortNewestFirstCorrect(xs: seq<LoadedInsight>)
    ensures NewestFirst(SortNewestFirst(xs))
    ensures multiset(SortNewestFirst(xs)) == multiset(xs)
    ensures forall d :: PublishedAt(SortNewestFirst(xs), d) == PublishedAt(xs, d)
  {
    if xs != [] {
      SortNewestFirstCorrect(xs[1..]);
      var t := SortNewestFirst(xs[1..]);
      InsertNewestFirst(xs[0], t);
      InsertPermutes(xs[0], t);
      assert xs == [xs[0]] + xs[1..];
      forall d
        ensures PublishedAt(SortNewestFirst(xs), d) == PublishedAt(xs, d)
      {
        InsertKeepsTies(xs[0], t, d);
      }
    }
  }

  /** A `slice` index: negative counts from the end, and the result is clamped to 0..n. */
  function SliceIndex(i: int, n: nat): (r: nat)
    ensures r <= n
    ensures 0 <= i <= n ==> r == i
  {
    if i < 0 then (if n + i < 0 then 0 else n + i) else if i > n then n else i
  }

  /** `xs.slice(start, end)` */
  function Slice<T>(xs: seq<T>, start: int, end: int): (r: seq<T>)
    ensures |r| <= |xs|
    ensures 0 <= start && start <= end ==> |r| <= end - start
    ensures forall x :: x in r ==> x in xs
  {
    var a := SliceIndex(start, |xs|);
    var b := SliceIndex(end, |xs|);
    if a < b then xs[a..b] else []
  }

  /** `options.offset || 0` */
  function Offset(q: InsightQuery): (r: int)
    ensures r == if q.offset.Some? then q.offset.value else 0
  {
    if q.offset.None? || q.offset.value == 0 then 0 else q.offset.value
  }

  /** `options.limit || filtered.length` */
  function Limit(q: InsightQuery, n: int): (r: int)
    ensures q.limit.Some? && q.limit.value != 0 ==> r == q.limit.value
    ensures q.limit == Some(0) ==> r == n
    ensures q.limit.None? ==> r == n
  {
    if q.limit.None? || q.limit.value == 0 then n else q.limit.value
  }

  /** `getInsights(options)`: the insights of the requested category (all of them when no
      category is given), newest first, cut to the page `[offset, offset + limit)`; the
      total counts the whole filtered list. A failure to list or read gives an empty
      page. */
  function GetInsights(loaded: Option<seq<LoadedInsight>>, q: InsightQuery): (r: InsightsPage)
    ensures loaded.None? ==> r == InsightsPage([], 0, false)
    ensures loaded.Some? ==> r.total == |Selected(loaded.value, q.category)|
    ensures loaded.Some? ==>
              (r.hasMore <==> Offset(q) + Limit(q, r.total) < r.total)
    ensures loaded.Some? ==>
              r.items == Slice(SortNewestFirst(Selected(loaded.value, q.category)),
                               Offset(q), Offset(q) + Limit(q, r.total))
  {
    if loaded.None? then InsightsPage([], 0, false)
    else
      var filtered := Selected(loaded.value, q.category);
      var sorted := SortNewestFirst(filtered);
      var offset := Offset(q);
      var limit := Limit(q, |filtered|);
      InsightsPage(Slice(sorted, offset, offset + limit), |filtered|, offset + limit < |filtered|)
  }

  /** Every returned insight is a loaded one of the requested category (matched without
      regard to ASCII case), the page is newest first, and it holds at most `limit`
      insights when a positive limit and a non-negative offset are given. */
  lemma GetInsightsPage(loaded: seq<LoadedInsight>, q: InsightQuery)
    ensures forall x :: x in GetInsights(Some(loaded), q).items ==> x in loaded
    ensures q.category.Some? && q.category.value != "" ==>
              forall x :: x in GetInsights(Some(loaded), q).items ==> CategoryMatches(x, q.category.value)
    ensures NewestFirst(GetInsights(Some(loaded), q).items)
    ensures q.limit.Some? && q.limit.value > 0 && Offset(q) >= 0 ==>
              |GetInsights(Some(loaded), q).items| <= q.limit.value
  {
    var filtered := Selected(loaded, q.category);
    var sorted := SortNewestFirst(filtered);
    var page := GetInsights(Some(loaded), q);
    SortNewestFirstCorrect(filtered);
    forall x | x in sorted
      ensures x in filtered
    {
      assert x in multiset(sorted);
    }
    SliceNewestFirst(sorted, Offset(q), Offset(q) + Limit(q, |filtered|));
  }

  /** A slice of a newest-first list is newest first. */
  lemma SliceNewestFirst(xs: seq<LoadedInsight>, start: int, end: int)
    requires NewestFirst(xs)
    ensures NewestFirst(Slice(xs, start, end))
  {
    var a := SliceIndex(start, |xs|);
    var b := SliceIndex(end, |xs|);
    if a < b {
      assert forall i :: 0 <= i < b - a ==> xs[a..b][i] == xs[a + i];
    }
  }

  /** With no options every insight is returned, newest first, and nothing is left over. */
  lemma GetInsightsAll(loaded: seq<LoadedInsight>)
    ensures GetInsights(Some(loaded), InsightQuery(None, None, None))
            == InsightsPage(SortNewestFirst(loaded), |loaded|, false)
  {
    var q := InsightQuery(None, None, None);
    var sorted := SortNewestFirst(loaded);
    assert Offset(q) == 0 && Limit(q, |loaded|) == |loaded|;
    assert Slice(sorted, 0, |loaded|) == sorted by {
      if |loaded| > 0 {
        assert sorted[0..|loaded|] == sorted;
      }
    }
  }

  /** Reading page after page: with a non-negative offset and limit, the page is the
      plain window of the sorted list, and two adjacent pages together are the page of
      the combined size. */
  lemma ConsecutivePages(sorted: seq<LoadedInsight>, offset: int, k: int, m: int)
    requires 0 <= offset && 0 <= k && 0 <= m
    ensures Slice(sorted, offset, offset + k) + Slice(sorted, offset + k, offset + k + m)
            == Slice(sorted, offset, offset + k + m)
    ensures offset <= |sorted| ==>
              Slice(sorted, offset, offset + k)
              == sorted[offset..if offset + k <= |sorted| then offset + k else |sorted|]
  {
  }
}

=== FILE: health.dfy ===
/** The website's health endpoint. GET reports an overall status built from three service
    checks (e-mail, analytics, an external probe) when asked for detail; POST returns
    system information to a caller holding the configured bearer token. The environment,
    the clock and the outcome of the external probe are parameters. */
module Health {
  import opened Wrappers

  datatype Status = Healthy | Degraded | Unhealthy

  /** The outcome of one check under `Promise.allSettled`. */
  datatype Settled = Fulfilled(value: Status) | Rejected

  /** The environment variables the endpoint reads. */
  datatype Env = Env(resendApiKey: Option<string>, gaMeasurementId: Option<string>,
                     gaApiSecret: Option<string>, systemAuthToken: Option<string>,
                     packageVersion: Option<string>)

  /** A variable is set when it is defined and non-empty (`!!process.env.X`). */
  predicate IsSet(v: Option<string>) {
    v.Some? && v.value != ""
  }

  /** `testEmailService()`: e-mail is healthy with an API key and degraded without one. */
  function TestEmail(env: Env): (r: Status)
    ensures r != Unhealthy
    ensures r == Healthy <==> IsSet(env.resendApiKey)
  {
    if IsSet(env.resendApiKey) then Healthy else Degraded
  }

  /** `testAnalyticsService()`: analytics is healthy only when both GA variables are set. */
  function TestAnalytics(env: Env): (r: Status)
    ensures r != Degraded
    ensures r == Healthy <==> IsSet(env.gaMeasurementId) && IsSet(env.gaApiSecret)
  {
    if IsSet(env.gaMeasurementId) && IsSet(env.gaApiSecret) then Healthy else Unhealthy
  }

  /** `testExternalServices()`: `probe` is `None` when the request failed or timed out,
      and otherwise whether the response was OK. */
  function TestExternal(probe: Option<bool>): (r: Status)
    ensures r == Unhealthy <==> probe.None?
    ensures r == Healthy <==> probe == Some(true)
  {
    if probe.None? then Unhealthy else if probe.value then Healthy else Degraded
  }

  /** A rejected check counts as unhealthy. */
  function SettledStatus(s: Settled): (r: Status)
    ensures s.Rejected? ==> r == Unhealthy
    ensures s.Fulfilled? ==> r == s.value
  {
    if s.Fulfilled? then s.value else Unhealthy
  }

  function CountUnhealthy(xs: seq<Status>): nat {
    if xs == [] then 0 else (if xs[0] == Unhealthy then 1 else 0) + CountUnhealthy(xs[1..])
  }

  /** The overall status by the number of unhealthy services: none is healthy (degraded
      services do not count), one is degraded, two or more is unhealthy. */
  function Overall(xs: seq<Status>): (r: Status)
    ensures r == Healthy <==> Unhealthy !in xs
    ensures r == Degraded ==> Unhealthy in xs
  {
    CountUnhealthyPositive(xs);
    var n := CountUnhealthy(xs);
    if n == 0 then Healthy else if n == 1 then Degraded else Unhealthy
  }

  lemma {:induction false} CountUnhealthyPositive(xs: seq<Status>)
    ensures CountUnhealthy(xs) > 0 <==> Unhealthy in xs
  {
    if xs != [] {
      CountUnhealthyPositive(xs[1..]);
      assert xs == [xs[0]] + xs[1..];
    }
  }

  lemma CountThree(a: Status, b: Status, c: Status)
    ensures CountUnhealthy([a, b, c]) == (if a == Unhealthy then 1 else 0) + (if b == Unhealthy then 1 else 0)
                                         + (if c == Unhealthy then 1 else 0)
  {
    assert [a, b, c][1..] == [b, c];
    assert [b, c][1..] == [c];
    assert [c][1..] == [];
    assert CountUnhealthy([c]) == (if c == Unhealthy then 1 else 0);
    assert CountUnhealthy([b, c]) == (if b == Unhealthy then 1 else 0) + CountUnhealthy([c]);
  }

  /** The HTTP status: 503 for an unhealthy report, 200 otherwise. */
  function StatusCode(s: Status): (r: int)
    ensures r == 503 <==> s == Unhealthy
    ensures r != 503 ==> r == 200
  {
    match s
    case Healthy => 200
    case Degraded => 200
    case Unhealthy => 503
  }

  /** The report GET returns; the timestamp and memory figures are left out. */
  datatype HealthCheck = HealthCheck(status: Status, uptime: int, version: string,
                                     services: seq<(string, Status)>, responseTime: int,
                                     memoryReported: bool)

  function ServiceStatuses(services: seq<(string, Status)>): (r: seq<Status>)
    ensures |r| == |services|
    ensures forall k :: 0 <= k < |r| ==> r[k] == services[k].1
  {
    seq(|services|, k requires 0 <= k < |services| => services[k].1)
  }

  /** Milliseconds since the module was loaded (see the findings in README). */
  function Uptime(moduleStart: int, now: int): (r: int)
    ensures now >= moduleStart ==> r >= 0
    ensures r + moduleStart == now
  {
    now - moduleStart
  }

  /** The uptime as the handler computes it: its own start time shadows the module's, so
      the figure is the time spent in this request. */
  function UptimeAsWritten(requestStart: int, now: int): int {
    now - requestStart
  }

  /** As written, the reported uptime never exceeds the request's own response time,
      however long the process has been up: an hour after start it reads 0. */
  lemma UptimeAsWrittenIsRequestTime(moduleStart: int, requestStart: int, builtAt: int, finishedAt: int)
    requires moduleStart <= requestStart <= builtAt <= finishedAt
    ensures UptimeAsWritten(requestStart, builtAt) <= finishedAt - requestStart
    ensures UptimeAsWritten(3600000, 3600000) == 0 && Uptime(0, 3600000) == 3600000
  {
  }

  /** Corrected, GET and POST report the same uptime at the same instant, and a later
      report never shows less. */
  lemma UptimeAgrees(moduleStart: int, now: int, later: int)
    requires now <= later
    ensures Uptime(moduleStart, now) == SystemInfoOf(Env(None, None, None, None, None), moduleStart, now).uptime
    ensures Uptime(moduleStart, now) <= Uptime(moduleStart, later)
  {
  }

  /** `GET`, as written: builds the report step by step. `detailedParam` is the
      `detailed` query parameter and `probe` the outcome of the external fetch; the three
      checks catch their own errors, so each settles fulfilled. The clock reads
      `requestStart` on entry, `builtAt` when the record is built and `finishedAt` at the
      end. The uptime is the handler's own, measured from `requestStart` (see the
      findings in README), so it never exceeds the response time. */
  method Get(detailedParam: Option<string>, env: Env, probe: Option<bool>,
             requestStart: int, builtAt: int, finishedAt: int)
    returns (check: HealthCheck, statusCode: int)
    ensures var detailed := detailedParam == Some("true");
            && (detailed ==> check.services == [("email", TestEmail(env)),
                                                ("analytics", TestAnalytics(env)),
                                                ("external", TestExternal(probe))]
                             && check.memoryReported)
            && (!detailed ==> check.services == [] && !check.memoryReported)
    ensures check.status == Overall(ServiceStatuses(check.services))
    ensures statusCode == StatusCode(check.status)
    ensures check.uptime == UptimeAsWritten(requestStart, builtAt)
    ensures builtAt <= finishedAt ==> check.uptime <= check.responseTime
    ensures check.responseTime == finishedAt - requestStart
    ensures check.version == if IsSet(env.packageVersion) then env.packageVersion.value else "1.0.0"
  {
    var detailed := detailedParam == Some("true");
    check := HealthCheck(Healthy, UptimeAsWritten(requestStart, builtAt),
                         if IsSet(env.packageVersion) then env.packageVersion.value else "1.0.0",
                         [], 0, false);
    if detailed {
      check := check.(memoryReported := true);
    }
    if detailed {
      var email, analytics, external :=
        Fulfilled(TestEmail(env)), Fulfilled(TestAnalytics(env)), Fulfilled(TestExternal(probe));
      check := check.(services := [("email", SettledStatus(email)),
                                   ("analytics", SettledStatus(analytics)),
                                   ("external", SettledStatus(external))]);
      var statuses := ServiceStatuses(check.services);
      CountUnhealthyPositive(statuses);
      if Unhealthy in statuses {
        check := check.(status := Degraded);
      }
      if CountUnhealthy(statuses) > 1 {
        check := check.(status := Unhealthy);
      }
    }
    check := check.(responseTime := finishedAt - requestStart);
    statusCode := if check.status == Healthy then 200 else if check.status == Degraded then 200 else 503;
  }

  /** Degraded services alone never make the report anything but healthy. */
  lemma {:induction false} NoUnhealthyIsHealthy(xs: seq<Status>)
    requires forall k :: 0 <= k < |xs| ==> xs[k] != Unhealthy
    ensures Overall(xs) == Healthy
  {
    CountUnhealthyPositive(xs);
  }

  /** With the three services, the report is unhealthy (and answered with 503) exactly
      when at least two checks are unhealthy or rejected. */
  lemma DetailedUnhealthyIff(e: Settled, a: Settled, x: Settled)
    ensures var xs := [SettledStatus(e), SettledStatus(a), SettledStatus(x)];
            StatusCode(Overall(xs)) == 503 <==>
              (SettledStatus(e) == Unhealthy && SettledStatus(a) == Unhealthy)
              || (SettledStatus(e) == Unhealthy && SettledStatus(x) == Unhealthy)
              || (SettledStatus(a) == Unhealthy && SettledStatus(x) == Unhealthy)
  {
    CountThree(SettledStatus(e), SettledStatus(a), SettledStatus(x));
  }

  /** A site with no e-mail key and no analytics configured, whose probe succeeds,
      reports degraded and still answers 200: e-mail is only degraded, and the single
      unhealthy service (analytics) is not enough for 503. */
  lemma UnconfiguredSiteIsDegraded()
    ensures var env := Env(None, None, None, None, None);
            var xs := [TestEmail(env), TestAnalytics(env), TestExternal(Some(true))];
            Overall(xs) == Degraded && StatusCode(Overall(xs)) == 200
  {
    CountThree(Degraded, Unhealthy, Healthy);
  }

  /** `POST`: 401 unless a token is configured and the header is exactly
      `Bearer <token>`. */
  function PostStatus(authorization: Option<string>, env: Env): (r: int)
    ensures r == 200 <==> IsSet(env.systemAuthToken) && authorization == Some("Bearer " + env.systemAuthToken.value)
    ensures r != 200 ==> r == 401
  {
    if !IsSet(env.systemAuthToken) || authorization != Some("Bearer " + env.systemAuthToken.value) then 401
    else 200
  }

  /** Without a configured token every request is refused, whatever its header. */
  lemma NoTokenRefusesAll(authorization: Option<string>, env: Env)
    requires !IsSet(env.systemAuthToken)
    ensures PostStatus(authorization, env) == 401
  {
  }

  /** The configuration part of the system information POST returns. */
  datatype SystemInfo = SystemInfo(uptime: int, hasEmailService: bool, hasAnalytics: bool,
                                   emailService: string)

  function SystemInfoOf(env: Env, moduleStart: int, now: int): (r: SystemInfo)
    ensures r.hasEmailService <==> TestEmail(env) == Healthy
    ensures r.hasAnalytics <==> TestAnalytics(env) == Healthy
    ensures r.emailService == (if r.hasEmailService then "resend" else "not-configured")
  {
    SystemInfo(Uptime(moduleStart, now), IsSet(env.resendApiKey),
               IsSet(env.gaMeasurementId) && IsSet(env.gaApiSecret),
               if IsSet(env.resendApiKey) then "resend" else "not-configured")
  }
}

=== FILE: jsonld.dfy ===
/** The website's schema.org structured-data builders: Organization, WebSite (with an
    optional site-search action) and BreadcrumbList, as the JavaScript objects they
    return. */
module JsonLd {
  import opened Wrappers
  import opened Values

  const SchemaContext: string := "https://schema.org"

  /** The two keys every structured-data object starts with. */
  function Header(schemaType: string): map<string, Value> {
    map["@context" := Str(SchemaContext), "@type" := Str(schemaType)]
  }

  /** `organization({ name, url, logo })` */
  function Organization(name: string, url: string, logo: string): (r: Value)
    ensures Get(r, "@context") == Some(Str(SchemaContext)) && Get(r, "@type") == Some(Str("Organization"))
    ensures Get(r, "name") == Some(Str(name)) && Get(r, "url") == Some(Str(url))
            && Get(r, "logo") == Some(Str(logo))
    ensures r.Obj? && r.fields.Keys == {"@context", "@type", "name", "url", "logo"}
  {
    Obj(Header("Organization")["name" := Str(name)]["url" := Str(url)]["logo" := Str(logo)])
  }

  /** `website({ name, url, searchUrl })`: a non-empty search URL adds a SearchAction whose
      target is the search URL followed by the `{search_term_string}` placeholder. */
  function Website(name: string, url: string, searchUrl: Option<string>): (r: Value)
    ensures Get(r, "@context") == Some(Str(SchemaContext)) && Get(r, "@type") == Some(Str("WebSite"))
    ensures Get(r, "name") == Some(Str(name)) && Get(r, "url") == Some(Str(url))
    ensures Get(r, "potentialAction").Some? <==> searchUrl.Some? && searchUrl.value != ""
    ensures Get(r, "potentialAction").Some? ==>
              Get(Get(r, "potentialAction").value, "@type") == Some(Str("SearchAction"))
              && Get(Get(r, "potentialAction").value, "target")
                 == Some(Str(searchUrl.value + "{search_term_string}"))
  {
    var data := Header("WebSite")["name" := Str(name)]["url" := Str(url)];
    if searchUrl.Some? && searchUrl.value != "" then
      Obj(data["potentialAction" := Obj(map[
        "@type" := Str("SearchAction"),
        "target" := Str(searchUrl.value + "{search_term_string}"),
        "query-input" := Str("required name=search_term_string")])])
    else Obj(data)
  }

  datatype BreadcrumbItem = BreadcrumbItem(name: string, url: string)

  /** One `ListItem` at 1-based `position`. */
  function ListItem(item: BreadcrumbItem, position: int): Value {
    Obj(map["@type" := Str("ListItem"), "position" := Num(position),
            "name" := Str(item.name), "item" := Str(item.url)])
  }

  /** `items.map((item, index) => ListItem at index + 1)` */
  function ListItems(items: seq<BreadcrumbItem>): (r: seq<Value>)
    ensures |r| == |items|
    ensures forall k :: 0 <= k < |r| ==>
              Get(r[k], "@type") == Some(Str("ListItem"))
              && Get(r[k], "position") == Some(Num(k + 1))
              && Get(r[k], "name") == Some(Str(items[k].name))
              && Get(r[k], "item") == Some(Str(items[k].url))
  {
    seq(|items|, k requires 0 <= k < |items| => ListItem(items[k], k + 1))
  }

  /** `breadcrumbList(items)` */
  function BreadcrumbList(items: seq<BreadcrumbItem>): (r: Value)
    ensures Get(r, "@context") == Some(Str(SchemaContext)) && Get(r, "@type") == Some(Str("BreadcrumbList"))
    ensures Get(r, "itemListElement") == Some(Arr(ListItems(items)))
  {
    Obj(Header("BreadcrumbList")["itemListElement" := Arr(ListItems(items))])
  }

  /** Reads the trail back from a breadcrumb list: the name and URL of each element. */
  function TrailOf(v: Value): seq<BreadcrumbItem> {
    var e := Get(v, "itemListElement");
    if e.None? || !e.value.Arr? then []
    else
      var xs := e.value.items;
      seq(|xs|, k requires 0 <= k < |xs| =>
            BreadcrumbItem(Render(OrElse(Get(xs[k], "name"), Str(""))),
                           Render(OrElse(Get(xs[k], "item"), Str("")))))
  }

  /** The trail can be read back from the list unchanged: nothing is lost, reordered or
      duplicated, and positions run 1..n. */
  lemma BreadcrumbListRoundTrip(items: seq<BreadcrumbItem>)
    ensures TrailOf(BreadcrumbList(items)) == items
    ensures forall k :: 0 <= k < |items| ==>
              Get(Get(BreadcrumbList(items), "itemListElement").value.items[k], "position") == Some(Num(k + 1))
  {
    var xs := ListItems(items);
    assert forall k :: 0 <= k < |xs| ==>
             Render(OrElse(Get(xs[k], "name"), Str(""))) == items[k].name
             && Render(OrElse(Get(xs[k], "item"), Str(""))) == items[k].url;
  }
}

=== FILE: link_assistant.dfy ===
/** The CMS link assistant: it suggests an internal link for each of three fixed keywords
    that the content being edited does not yet mention. */
module LinkAssistant {
  import opened Wrappers
  import opened Strings

  datatype Link = Link(keyword: string, href: string)

  /** `LINKS` */
  const Links: seq<Link> := [Link("Services", "/services"), Link("Insights", "/insights"),
                             Link("Case Studies", "/case-studies")]

  /** `links.filter(l => !content.includes(l.keyword))`, in list order. */
  function Missing(links: seq<Link>, content: string): (r: seq<Link>)
    ensures |r| <= |links|
    ensures forall l :: l in r <==> l in links && !Contains(content, l.keyword)
  {
    if links == [] then []
    else (if Contains(content, links[0].keyword) then [] else [links[0]]) + Missing(links[1..], content)
  }

  /** `suggestions`: the fixed links whose keyword the content does not contain (the test
      is case-sensitive). */
  function Suggestions(content: string): (r: seq<Link>)
    ensures |r| <= 3
    ensures forall l :: l in r <==> l in Links && !Contains(content, l.keyword)
  {
    Missing(Links, content)
  }

  /** The rendered list, or `None` where the component renders nothing. */
  function Rendered(content: string): (r: Option<seq<Link>>)
    ensures r.None? <==> Suggestions(content) == []
    ensures r.Some? ==> r.value == Suggestions(content)
  {
    var s := Suggestions(content);
    if |s| == 0 then None else Some(s)
  }

  /** Filtering keeps the order of the list and takes each kept link once: the result is
      the sublist of the links that pass, in list order. */
  lemma {:induction false} MissingConcat(a: seq<Link>, b: seq<Link>, content: string)
    ensures Missing(a + b, content) == Missing(a, content) + Missing(b, content)
  {
    if a != [] {
      assert (a + b)[0] == a[0];
      assert (a + b)[1..] == a[1..] + b;
      MissingConcat(a[1..], b, content);
    } else {
      assert a + b == b;
    }
  }

  /** The suggestions written out: Services, Insights and Case Studies, in that order,
      each present exactly when its keyword does not occur in the content. */
  lemma SuggestionsInOrder(content: string)
    ensures Suggestions(content) ==
              (if Contains(content, "Services") then [] else [Links[0]])
              + (if Contains(content, "Insights") then [] else [Links[1]])
              + (if Contains(content, "Case Studies") then [] else [Links[2]])
  {
    var a, b, c := Links[0], Links[1], Links[2];
    assert Links == [a] + [b] + [c];
    MissingConcat([a] + [b], [c], content);
    MissingConcat([a], [b], content);
    MissingOne(a, content);
    MissingOne(b, content);
    MissingOne(c, content);
  }

  /** A single link is kept exactly when its keyword is absent. */
  lemma MissingOne(l: Link, content: string)
    ensures Missing([l], content) == if Contains(content, l.keyword) then [] else [l]
  {
    assert [l][1..] == [];
  }

  /** Nothing is rendered exactly when the content mentions all three keywords. */
  lemma NothingRenderedIff(content: string)
    ensures Rendered(content).None? <==>
              Contains(content, "Services") && Contains(content, "Insights") && Contains(content, "Case Studies")
  {
    SuggestionsInOrder(content);
  }

  /** Empty content gets all three suggestions, in list order. */
  lemma EmptyContentSuggestsAll()
    ensures Suggestions("") == Links
  {
    SuggestionsInOrder("");
    assert !Contains("", "Services") by { assert !HasAt("", "Services", 0); }
    assert !Contains("", "Insights") by { assert !HasAt("", "Insights", 0); }
    assert !Contains("", "Case Studies") by { assert !HasAt("", "Case Studies", 0); }
  }
}

=== FILE: page_files.dfy ===
/** What the CMS maintenance scripts share: the `.json` page files of the website's content
    directory, each parsed, and a page's `blocks` list (`[]` when absent). */
module PageFiles {
  import opened Wrappers
  import opened Values
  import FileAdapter

  datatype PageFile = PageFile(name: string, data: Value)

  /** `readdirSync(pagesDir).filter(f => f.endsWith('.json'))`, each file parsed. The
      scripts stop on a file they cannot read, so every listed JSON file must be readable. */
  function ReadPages(listing: seq<string>, docs: map<string, Value>): (r: seq<PageFile>)
    requires FileAdapter.AllReadable(FileAdapter.JsonFiles(listing), docs)
    ensures |r| == |FileAdapter.JsonFiles(listing)|
    ensures forall k :: 0 <= k < |r| ==>
              r[k].name in listing && Strings.EndsWith(r[k].name, ".json") && r[k].data == docs[r[k].name]
    ensures forall k :: 0 <= k < |r| ==> r[k].name == FileAdapter.JsonFiles(listing)[k]
  {
    var names := FileAdapter.JsonFiles(listing);
    seq(|names|, k requires 0 <= k < |names| => PageFile(names[k], docs[names[k]]))
  }

  /** A page the scripts can walk without a run-time error: its `blocks`, when present,
      is a list of non-null blocks (`null.type` would throw). */
  predicate BlocksReadable(data: Value) {
    && data != Null
    && (Get(data, "blocks").None?
        || (Get(data, "blocks").value.Arr?
            && forall i :: 0 <= i < |Get(data, "blocks").value.items| ==>
                 Get(data, "blocks").value.items[i] != Null))
  }

  /** `const { blocks = [] } = data` */
  function BlocksOf(data: Value): (r: seq<Value>)
    requires BlocksReadable(data)
    ensures forall i :: 0 <= i < |r| ==> r[i] != Null
    ensures Get(data, "blocks").None? ==> r == []
    ensures Get(data, "blocks").Some? ==> r == Get(data, "blocks").value.items
  {
    if Get(data, "blocks").None? then [] else Get(data, "blocks").value.items
  }
}

=== FILE: preview.dfy ===
/** The live-preview subscriber registry of the CMS: for each page slug, the set of open
    event-stream responses that want to hear about updates to that page. A publish
    writes one server-sent event (section 9.2 of the WHATWG HTML Standard) to every
    response subscribed to the slug. */
module Preview {

  /** The frame written on every publish: one `update` event, terminated by a blank line. */
  const UpdateFrame: string := "data: update\n\n"

  /** An open event-stream response; `frames` is everything written to it so far. */
  class Connection {
    var frames: seq<string>

    constructor ()
      ensures frames == []
    {
      frames := [];
    }

    method Write(frame: string)
      modifies this
      ensures frames == old(frames) + [frame]
    {
      frames := frames + [frame];
    }
  }

  type Listeners = map<string, set<Connection>>

  /** No slug maps to an empty set of subscribers. */
  predicate NoEmptySets(m: Listeners) {
    forall slug :: slug in m ==> m[slug] != {}
  }

  /** The registry after `subscribe(slug, h)`: the slug's set, created when absent, with
      `h` added. */
  function Subscribed(m: Listeners, slug: string, h: Connection): (r: Listeners)
    ensures r.Keys == m.Keys + {slug} && h in r[slug]
    ensures forall s :: s in m ==> m[s] <= r[s]
  {
    m[slug := (if slug in m then m[slug] else {}) + {h}]
  }

  /** The registry after `unsubscribe(slug, h)`: `h` removed from the slug's set, and the
      slug removed once its set is empty; an unknown slug leaves the registry alone. */
  function Unsubscribed(m: Listeners, slug: string, h: Connection): (r: Listeners)
    ensures r.Keys <= m.Keys
    ensures forall s :: s in r ==> r[s] <= m[s]
    ensures slug in r ==> h !in r[slug]
  {
    if slug !in m then m
    else
      var rest := m[slug] - {h};
      if rest == {} then m - {slug} else m[slug := rest]
  }

  /** After subscribing, the handle is in the slug's set whether or not the slug was known
      before, and every other slug keeps exactly its old set. */
  lemma SubscribeAdds(m: Listeners, slug: string, h: Connection)
    ensures slug in Subscribed(m, slug, h) && h in Subscribed(m, slug, h)[slug]
    ensures slug in m ==> Subscribed(m, slug, h)[slug] == m[slug] + {h}
    ensures forall s :: s != slug ==> (s in Subscribed(m, slug, h) <==> s in m)
    ensures forall s :: s != slug && s in m ==> Subscribed(m, slug, h)[s] == m[s]
  {
  }

  /** Subscribing twice is the same as subscribing once, since the handles form a set. */
  lemma SubscribeIdempotent(m: Listeners, slug: string, h: Connection)
    ensures Subscribed(Subscribed(m, slug, h), slug, h) == Subscribed(m, slug, h)
  {
    var once := Subscribed(m, slug, h);
    assert once[slug] + {h} == once[slug];
  }

  /** Both operations keep every subscriber set non-empty. */
  lemma NoEmptySetsPreserved(m: Listeners, slug: string, h: Connection)
    requires NoEmptySets(m)
    ensures NoEmptySets(Subscribed(m, slug, h))
    ensures NoEmptySets(Unsubscribed(m, slug, h))
  {
  }

  /** After unsubscribing, the handle is no longer subscribed to that slug, and every
      other slug keeps exactly its old set. */
  lemma UnsubscribeRemoves(m: Listeners, slug: string, h: Connection)
    ensures slug in Unsubscribed(m, slug, h) ==> h !in Unsubscribed(m, slug, h)[slug]
    ensures slug in m && slug !in Unsubscribed(m, slug, h) ==> m[slug] <= {h}
    ensures forall s :: s != slug ==> (s in Unsubscribed(m, slug, h) <==> s in m)
    ensures forall s :: s != slug && s in m ==> Unsubscribed(m, slug, h)[s] == m[s]
  {
  }

  /** Unsubscribing a slug that is not registered, or a handle that is not subscribed to
      it, changes nothing (in a registry without empty sets). */
  lemma UnsubscribeUnknown(m: Listeners, slug: string, h: Connection)
    requires NoEmptySets(m)
    requires slug !in m || h !in m[slug]
    ensures Unsubscribed(m, slug, h) == m
  {
    if slug in m {
      assert m[slug] - {h} == m[slug];
    }
  }

  /** Subscribing a new handle and unsubscribing it again restores the registry. */
  lemma SubscribeThenUnsubscribe(m: Listeners, slug: string, h: Connection)
    requires NoEmptySets(m)
    requires slug !in m || h !in m[slug]
    ensures Unsubscribed(Subscribed(m, slug, h), slug, h) == m
  {
    if slug in m {
      assert (m[slug] + {h}) - {h} == m[slug];
      assert m[slug := m[slug]] == m;
    } else {
      assert ({} + {h}) - {h} == {};
      assert m[slug := {h}] - {slug} == m;
    }
  }

  /** The module-level registry. */
  class Registry {
    var listeners: Listeners

    ghost predicate Valid()
      reads this
    {
      NoEmptySets(listeners)
    }

    constructor ()
      ensures Valid() && listeners == map[]
    {
      listeners := map[];
    }

    method Subscribe(slug: string, res: Connection)
      requires Valid()
      modifies this
      ensures Valid()
      ensures listeners == Subscribed(old(listeners), slug, res)
    {
      var s := if slug in listeners then listeners[slug] else {};
      s := s + {res};
      listeners := listeners[slug := s];
    }

    method Unsubscribe(slug: string, res: Connection)
      requires Valid()
      modifies this
      ensures Valid()
      ensures listeners == Unsubscribed(old(listeners), slug, res)
    {
      if slug in listeners {
        var s := listeners[slug] - {res};
        if |s| == 0 {
          listeners := listeners - {slug};
        } else {
          listeners := listeners[slug := s];
        }
      }
    }

    /** Writes exactly one update frame to each handle subscribed to `slug`, and nothing
        to any other handle; the registry itself is left unchanged. */
    method Publish(slug: string)
      modifies if slug in listeners then listeners[slug] else {}
      ensures unchanged(this)
      ensures slug in listeners ==>
                forall c :: c in listeners[slug] ==> c.frames == old(c.frames) + [UpdateFrame]
    {
      if slug !in listeners {
        return;
      }
      var subscribers := listeners[slug];
      var remaining := subscribers;
      while remaining != {}
        invariant remaining <= subscribers
        invariant forall c :: c in subscribers - remaining ==> c.frames == old(c.frames) + [UpdateFrame]
        invariant forall c :: c in remaining ==> c.frames == old(c.frames)
        decreases remaining
      {
        var c :| c in remaining;
        c.Write(UpdateFrame);
        remaining := remaining - {c};
      }
    }
  }
}

=== FILE: seo.dfy ===
/** The website's page-head helpers: titles from templates, the list of meta tags for a
    page's SEO record, and the BreadcrumbList and Article structured-data objects
    (before they are serialised). */
module SeoMeta {
  import opened Wrappers
  import opened Values
  import opened Strings
  import JsonLd

  /** `generateTitle(title, template)`: no template (or an empty one) gives the title;
      otherwise the first `%s` in the template is replaced by the title. */
  function GenerateTitle(title: string, template: Option<string>): (r: string)
    ensures template.None? || template.value == "" ==> r == title
    ensures template.Some? && template.value != "" && !Contains(template.value, "%s") ==> r == template.value
  {
    if template.None? || template.value == "" then title
    else ReplaceFirst(template.value, "%s", title)
  }

  /** Only the first `%s` of the template is replaced: what comes before it is kept, and
      the rest of the template (further `%s` included) follows the title unchanged. */
  lemma GenerateTitleFirstOnly(title: string, before: string, after: string)
    requires !Contains(before + "%", "%s")
    ensures GenerateTitle(title, Some(before + "%s" + after)) == before + title + after
  {
    assert "%s"[..1] == "%";
    ReplaceFirstAfter(before, "%s", after, title);
  }

  /** A template that starts with the placeholder puts the title first. */
  lemma GenerateTitleLeading(title: string, suffix: string)
    ensures GenerateTitle(title, Some("%s" + suffix)) == title + suffix
  {
    ReplacePrefix("%s", suffix, title);
  }

  /** The SEO record a page passes to its head, with an optional title template. */
  datatype SeoProps = SeoProps(title: string, description: string, canonical: string,
                               noindex: bool, image: Option<string>,
                               keywords: Option<seq<string>>, titleTemplate: Option<string>)

  /** A meta tag keyed by `name` or by `property`. */
  datatype KeyKind = Name | Property
  datatype MetaTag = MetaTag(kind: KeyKind, key: string, content: string)

  predicate HasImage(seo: SeoProps) {
    seo.image.Some? && seo.image.value != ""
  }

  predicate HasKeywords(seo: SeoProps) {
    seo.keywords.Some? && |seo.keywords.value| > 0
  }

  /** The nine tags every page gets, in their fixed order. */
  function BaseTags(seo: SeoProps): (r: seq<MetaTag>)
    ensures |r| == 9
    ensures seq(9, k requires 0 <= k < 9 => r[k].key) ==
              ["description", "robots", "og:title", "og:description", "og:type", "og:url",
               "twitter:card", "twitter:title", "twitter:description"]
    ensures forall k :: 0 <= k < 9 ==> (r[k].kind == Property <==> 2 <= k <= 5)
    ensures r[4].content == "website" && r[5].content == seo.canonical
    ensures r[6].content == "summary_large_image"
  {
    var finalTitle := GenerateTitle(seo.title, seo.titleTemplate);
    [ MetaTag(Name, "description", seo.description),
      MetaTag(Name, "robots", if seo.noindex then "noindex,follow" else "index,follow"),
      MetaTag(Property, "og:title", finalTitle),
      MetaTag(Property, "og:description", seo.description),
      MetaTag(Property, "og:type", "website"),
      MetaTag(Property, "og:url", seo.canonical),
      MetaTag(Name, "twitter:card", "summary_large_image"),
      MetaTag(Name, "twitter:title", finalTitle),
      MetaTag(Name, "twitter:description", seo.description) ]
  }

  /** The robots tag follows the page's `noindex` flag; the page is otherwise indexed. */
  lemma RobotsTag(seo: SeoProps)
    ensures BaseTags(seo)[1] == MetaTag(Name, "robots", if seo.noindex then "noindex,follow" else "index,follow")
  {
  }

  /** The Open Graph and Twitter cards carry the same templated title, and the plain,
      Open Graph and Twitter descriptions are the page's description. */
  lemma SharedTitleAndDescription(seo: SeoProps)
    ensures BaseTags(seo)[2].key == "og:title" && BaseTags(seo)[7].key == "twitter:title"
    ensures BaseTags(seo)[2].content == BaseTags(seo)[7].content == GenerateTitle(seo.title, seo.titleTemplate)
    ensures BaseTags(seo)[0].content == BaseTags(seo)[3].content == BaseTags(seo)[8].content == seo.description
  {
  }

  /** `generateMetaTags(seo)`: the nine base tags, then the two image tags when an image
      is set, then a keywords tag when there are keywords. */
  method GenerateMetaTags(seo: SeoProps) returns (tags: seq<MetaTag>)
    ensures |tags| == 9 + (if HasImage(seo) then 2 else 0) + (if HasKeywords(seo) then 1 else 0)
    ensures tags[..9] == BaseTags(seo)
    ensures HasImage(seo) ==> tags[9] == MetaTag(Property, "og:image", seo.image.value)
                              && tags[10] == MetaTag(Name, "twitter:image", seo.image.value)
    ensures HasKeywords(seo) ==>
              tags[|tags| - 1] == MetaTag(Name, "keywords", Join(seo.keywords.value, ", "))
    ensures !HasImage(seo) ==> forall k :: 0 <= k < |tags| ==> tags[k].key != "og:image"
  {
    tags := BaseTags(seo);
    if seo.image.Some? && seo.image.value != "" {
      tags := tags + [MetaTag(Property, "og:image", seo.image.value),
                      MetaTag(Name, "twitter:image", seo.image.value)];
    }
    if seo.keywords.Some? && |seo.keywords.value| > 0 {
      tags := tags + [MetaTag(Name, "keywords", Join(seo.keywords.value, ", "))];
    }
  }

  /** `createBreadcrumbSchema(items)`, before serialisation. */
  function BreadcrumbSchema(items: seq<JsonLd.BreadcrumbItem>): (r: Value)
    ensures Get(r, "@type") == Some(Str("BreadcrumbList"))
    ensures Get(r, "itemListElement") == Some(Arr(JsonLd.ListItems(items)))
  {
    Obj(JsonLd.Header("BreadcrumbList")["itemListElement" := Arr(JsonLd.ListItems(items))])
  }

  datatype Article = Article(headline: string, description: string, author: string,
                             datePublished: string, dateModified: Option<string>,
                             url: string, image: Option<string>)

  /** `createArticleSchema(article)`, before serialisation: the modification date falls
      back to the publication date when missing or empty, and the image key is present
      only when an image is given (serialisation drops undefined values). */
  function ArticleSchema(a: Article): (r: Value)
    ensures Get(r, "@type") == Some(Str("Article"))
    ensures Get(r, "datePublished") == Some(Str(a.datePublished))
    ensures a.dateModified.None? || a.dateModified.value == "" ==>
              Get(r, "dateModified") == Some(Str(a.datePublished))
    ensures a.dateModified.Some? && a.dateModified.value != "" ==>
              Get(r, "dateModified") == Some(Str(a.dateModified.value))
    ensures Get(r, "image").Some? <==> a.image.Some?
    ensures Get(r, "url") == Some(Str(a.url)) && GetOpt(Get(r, "mainEntityOfPage"), "@id") == Some(Str(a.url))
  {
    var modified := if a.dateModified.Some? && a.dateModified.value != "" then a.dateModified.value
                    else a.datePublished;
    var fields := JsonLd.Header("Article")
      ["headline" := Str(a.headline)]
      ["description" := Str(a.description)]
      ["author" := Obj(map["@type" := Str("Person"), "name" := Str(a.author)])]
      ["publisher" := Obj(map["@type" := Str("Organization"), "name" := Str("Networkk"),
                              "logo" := Obj(map["@type" := Str("ImageObject"),
                                                "url" := Str("https://networkk.com/logo.png")])])]
      ["datePublished" := Str(a.datePublished)]
      ["dateModified" := Str(modified)]
      ["url" := Str(a.url)]
      ["mainEntityOfPage" := Obj(map["@type" := Str("WebPage"), "@id" := Str(a.url)])];
    Obj(if a.image.Some? then fields["image" := Str(a.image.value)] else fields)
  }
}

=== FILE: seo_lint.dfy ===
/** The CMS SEO linter script: for every page file it reports a missing SEO title, a
    missing SEO description and each Hero block whose media has no alt text, then exits
    with status 1 when anything was reported. */
module SeoLint {
  import opened Wrappers
  import opened Values
  import opened Strings
  import opened PageFiles

  /** A page the linter can check without a run-time error: walkable blocks, and an SEO
      object that is not null (`null.title` would throw). */
  predicate Lintable(data: Value) {
    BlocksReadable(data) && Get(data, "seo") != Some(Null)
  }

  /** `const { seo = {} } = data` */
  function SeoOf(data: Value): Value {
    if Get(data, "seo").None? then Obj(map[]) else Get(data, "seo").value
  }

  /** `block.type === 'Hero' && block.props?.media && !block.props.media.alt` */
  predicate HeroMissingAlt(block: Value) {
    && Get(block, "type") == Some(Str("Hero"))
    && Truthy(GetOpt(Get(block, "props"), "media"))
    && !Truthy(GetOpt(GetOpt(Get(block, "props"), "media"), "alt"))
  }

  function AltMessage(file: string, position: nat): string {
    file + ": Hero block #" + NatToString(position) + " missing alt text"
  }

  /** The alt-text errors of the first `n` blocks, numbered from 1. */
  function AltErrors(file: string, blocks: seq<Value>, n: nat): (r: seq<string>)
    requires n <= |blocks|
    ensures |r| <= n
  {
    if n == 0 then []
    else AltErrors(file, blocks, n - 1)
         + (if HeroMissingAlt(blocks[n - 1]) then [AltMessage(file, n)] else [])
  }

  /** The SEO errors of one page: its title, then its description. */
  function SeoErrors(file: string, seo: Value): seq<string> {
    (if !Truthy(Get(seo, "title")) then [file + ": missing seo.title"] else [])
    + (if !Truthy(Get(seo, "description")) then [file + ": missing seo.description"] else [])
  }

  /** The errors of one page: SEO first, then its blocks. */
  function PageErrors(p: PageFile): (r: seq<string>)
    requires Lintable(p.data)
    ensures |r| <= 2 + |BlocksOf(p.data)|
    ensures |r| > 0 <==> HasProblem(p.data)
  {
    AltErrorsEmptyIff(p.name, BlocksOf(p.data), |BlocksOf(p.data)|);
    SeoErrors(p.name, SeoOf(p.data)) + AltErrors(p.name, BlocksOf(p.data), |BlocksOf(p.data)|)
  }

  /** The errors of all pages, in file order; there are some exactly when some page has
      a problem, which is when the script exits with status 1. */
  function LintErrors(files: seq<PageFile>): (r: seq<string>)
    requires forall k :: 0 <= k < |files| ==> Lintable(files[k].data)
    ensures |r| > 0 <==> exists k :: 0 <= k < |files| && HasProblem(files[k].data)
  {
    if files == [] then []
    else
      var init := files[..|files| - 1];
      assert forall k :: 0 <= k < |init| ==> init[k] == files[k];
      LintErrors(init) + PageErrors(files[|files| - 1])
  }

  /** One iteration of the script's loop: pushes the page's errors onto `errors`. */
  method LintPage(errors: seq<string>, page: PageFile) returns (out: seq<string>)
    requires Lintable(page.data)
    ensures out == errors + PageErrors(page)
  {
    var file := page.name;
    var seo := SeoOf(page.data);
    out := errors;
    if !Truthy(Get(seo, "title")) {
      out := out + [file + ": missing seo.title"];
    }
    if !Truthy(Get(seo, "description")) {
      out := out + [file + ": missing seo.description"];
    }
    assert out == errors + SeoErrors(file, seo);
    out := ReportAltErrors(out, file, BlocksOf(page.data));
  }

  /** `blocks.forEach(...)`: pushes one error per Hero without alt text, numbered from 1. */
  method ReportAltErrors(errors: seq<string>, file: string, blocks: seq<Value>) returns (out: seq<string>)
    ensures out == errors + AltErrors(file, blocks, |blocks|)
  {
    out := errors;
    var idx := 0;
    while idx < |blocks|
      invariant 0 <= idx <= |blocks|
      invariant out == errors + AltErrors(file, blocks, idx)
    {
      if HeroMissingAlt(blocks[idx]) {
        out := out + [AltMessage(file, idx + 1)];
      }
      idx := idx + 1;
    }
  }

  /** The script: the collected errors and the exit status. */
  method Lint(files: seq<PageFile>) returns (errors: seq<string>, exitCode: int)
    requires forall k :: 0 <= k < |files| ==> Lintable(files[k].data)
    ensures errors == LintErrors(files)
    ensures exitCode == (if |errors| > 0 then 1 else 0)
  {
    errors := [];
    var k := 0;
    while k < |files|
      invariant 0 <= k <= |files|
      invariant errors == LintErrors(files[..k])
    {
      errors := LintPage(errors, files[k]);
      assert files[..k + 1][..k] == files[..k];
      k := k + 1;
    }
    assert files[..k] == files;
    exitCode := if |errors| > 0 then 1 else 0;
  }

  /** A page has a problem the linter reports. */
  predicate HasProblem(data: Value)
    requires Lintable(data)
  {
    || !Truthy(Get(SeoOf(data), "title"))
    || !Truthy(Get(SeoOf(data), "description"))
    || exists i :: 0 <= i < |BlocksOf(data)| && HeroMissingAlt(BlocksOf(data)[i])
  }

  /** Every Hero block with media but no alt text is reported under its 1-based number. */
  lemma {:induction false} AltErrorsComplete(file: string, blocks: seq<Value>, n: nat, j: nat)
    requires j < n <= |blocks| && HeroMissingAlt(blocks[j])
    ensures AltMessage(file, j + 1) in AltErrors(file, blocks, n)
  {
    if j < n - 1 {
      AltErrorsComplete(file, blocks, n - 1, j);
    }
  }

  /** Every alt-text error names a Hero block with media but no alt text; other blocks,
      and Hero blocks without media, are never reported. */
  lemma {:induction false} AltErrorsSound(file: string, blocks: seq<Value>, n: nat)
    requires n <= |blocks|
    ensures forall m :: m in AltErrors(file, blocks, n) ==>
              exists j :: 0 <= j < n && HeroMissingAlt(blocks[j]) && m == AltMessage(file, j + 1)
  {
    if n > 0 {
      AltErrorsSound(file, blocks, n - 1);
    }
  }

  lemma {:induction false} AltErrorsEmptyIff(file: string, blocks: seq<Value>, n: nat)
    requires n <= |blocks|
    ensures AltErrors(file, blocks, n) == [] <==> forall j :: 0 <= j < n ==> !HeroMissingAlt(blocks[j])
  {
    if n > 0 {
      AltErrorsEmptyIff(file, blocks, n - 1);
    }
  }

  /** A page without SEO and without blocks is reported twice: no title, no description. */
  lemma EmptyPage(name: string)
    ensures PageErrors(PageFile(name, Obj(map[])))
            == [name + ": missing seo.title", name + ": missing seo.description"]
  {
  }
}

=== FILE: session_index.dfy ===
/** The per-session document index of the CMS chat: each chat session owns a list of
    documents with sequential ids, and a session is forgotten one hour after its last
    addition. The timer is modelled as a deadline stored with the session plus an
    explicit `Expire` event, and the clock as a `now` parameter. */
module SessionIndex {
  import opened Wrappers

  /** One hour, in milliseconds. */
  const TTL: int := 60 * 60 * 1000

  datatype Doc = Doc(id: int, text: string, url: Option<string>)

  /** A session's documents and the time at which its expiry timer fires. */
  datatype Session = Session(docs: seq<Doc>, deadline: int)

  type Indexes = map<string, Session>

  /** Ids are 1..n in list order. */
  predicate SequentialIds(docs: seq<Doc>) {
    forall i :: 0 <= i < |docs| ==> docs[i].id == i + 1
  }

  /** `docs.push({ id: docs.length + 1, text, url })` */
  function Appended(docs: seq<Doc>, text: string, url: Option<string>): seq<Doc> {
    docs + [Doc(|docs| + 1, text, url)]
  }

  /** The index after `addDocument(sessionId, text, url)` at time `now`: the document is
      appended to an existing session, or starts a new one, and the session's expiry is
      restarted. */
  function AfterAdd(m: Indexes, sessionId: string, text: string, url: Option<string>, now: int): (r: Indexes)
    ensures r.Keys == m.Keys + {sessionId}
    ensures r[sessionId].deadline == now + TTL
    ensures var before := Documents(m, sessionId);
            |r[sessionId].docs| == |before| + 1 && r[sessionId].docs[..|before|] == before
            && r[sessionId].docs[|before|].text == text && r[sessionId].docs[|before|].url == url
  {
    if sessionId in m then m[sessionId := Session(Appended(m[sessionId].docs, text, url), now + TTL)]
    else m[sessionId := Session([Doc(1, text, url)], now + TTL)]
  }

  /** The index after the session's timer has had the chance to fire at `now`. */
  function AfterExpire(m: Indexes, sessionId: string, now: int): (r: Indexes)
    ensures r.Keys <= m.Keys
    ensures forall s :: s in r ==> r[s] == m[s]
    ensures sessionId !in r <==> sessionId !in m || m[sessionId].deadline <= now
  {
    if sessionId in m && m[sessionId].deadline <= now then m - {sessionId} else m
  }

  /** `getDocuments(sessionId)` */
  function Documents(m: Indexes, sessionId: string): (r: seq<Doc>)
    ensures sessionId !in m ==> r == []
    ensures IndexInvariant(m) ==> SequentialIds(r)
  {
    if sessionId in m then m[sessionId].docs else []
  }

  predicate IndexInvariant(m: Indexes) {
    forall s :: s in m ==> SequentialIds(m[s].docs)
  }

  /** Appending keeps the ids sequential, adds exactly one document at the end and leaves
      the earlier documents as they were. */
  lemma AppendedSequential(docs: seq<Doc>, text: string, url: Option<string>)
    requires SequentialIds(docs)
    ensures SequentialIds(Appended(docs, text, url))
    ensures |Appended(docs, text, url)| == |docs| + 1
    ensures Appended(docs, text, url)[..|docs|] == docs
    ensures Appended(docs, text, url)[|docs|] == Doc(|docs| + 1, text, url)
  {
  }

  /** The first document of a session has id 1, the same as appending to an empty list. */
  lemma FirstAdd(m: Indexes, sessionId: string, text: string, url: Option<string>, now: int)
    requires sessionId !in m
    ensures Documents(AfterAdd(m, sessionId, text, url, now), sessionId) == [Doc(1, text, url)]
    ensures Documents(AfterAdd(m, sessionId, text, url, now), sessionId) == Appended([], text, url)
  {
  }

  /** Adding keeps every session's ids sequential, restarts only that session's expiry,
      and leaves every other session exactly as it was. */
  lemma AddPreserves(m: Indexes, sessionId: string, text: string, url: Option<string>, now: int)
    requires IndexInvariant(m)
    ensures IndexInvariant(AfterAdd(m, sessionId, text, url, now))
    ensures AfterAdd(m, sessionId, text, url, now)[sessionId].deadline == now + TTL
    ensures forall s :: s != sessionId ==>
              (s in AfterAdd(m, sessionId, text, url, now) <==> s in m)
              && Documents(AfterAdd(m, sessionId, text, url, now), s) == Documents(m, s)
  {
    if sessionId in m {
      AppendedSequential(m[sessionId].docs, text, url);
    }
  }

  /** Expiry removes only the expiring session; its documents then read as empty. */
  lemma ExpireRemovesOnlyThatSession(m: Indexes, sessionId: string, now: int)
    requires IndexInvariant(m)
    ensures IndexInvariant(AfterExpire(m, sessionId, now))
    ensures sessionId in m && m[sessionId].deadline <= now ==>
              Documents(AfterExpire(m, sessionId, now), sessionId) == []
    ensures forall s :: s != sessionId ==>
              (s in AfterExpire(m, sessionId, now) <==> s in m)
              && Documents(AfterExpire(m, sessionId, now), s) == Documents(m, s)
  {
  }

  /** The documents of a session after adding `entries` one by one to `docs`. */
  function AddAll(docs: seq<Doc>, entries: seq<(string, Option<string>)>): seq<Doc>
    decreases |entries|
  {
    if |entries| == 0 then docs
    else AddAll(Appended(docs, entries[0].0, entries[0].1), entries[1..])
  }

  /** A session built by successive additions holds the documents in insertion order,
      with ids 1..n. */
  lemma {:induction false} AddAllInOrder(docs: seq<Doc>, entries: seq<(string, Option<string>)>)
    requires SequentialIds(docs)
    ensures |AddAll(docs, entries)| == |docs| + |entries|
    ensures AddAll(docs, entries)[..|docs|] == docs
    ensures forall i :: 0 <= i < |entries| ==>
              AddAll(docs, entries)[|docs| + i] == Doc(|docs| + i + 1, entries[i].0, entries[i].1)
    ensures SequentialIds(AddAll(docs, entries))
    decreases |entries|
  {
    if |entries| > 0 {
      var next := Appended(docs, entries[0].0, entries[0].1);
      AppendedSequential(docs, entries[0].0, entries[0].1);
      AddAllInOrder(next, entries[1..]);
      var r := AddAll(docs, entries);
      assert r == AddAll(next, entries[1..]);
      assert r[..|docs|] == next[..|next|][..|docs|];
      forall i | 0 <= i < |entries|
        ensures r[|docs| + i] == Doc(|docs| + i + 1, entries[i].0, entries[i].1)
      {
        if i > 0 {
          assert entries[i] == entries[1..][i - 1];
        }
      }
    }
  }

  /** The module-level index. */
  class Index {
    var indexes: Indexes

    ghost predicate Valid()
      reads this
    {
      IndexInvariant(indexes)
    }

    constructor ()
      ensures Valid() && indexes == map[]
    {
      indexes := map[];
    }

    method AddDocument(sessionId: string, text: string, url: Option<string>, now: int)
      requires Valid()
      modifies this
      ensures Valid()
      ensures indexes == AfterAdd(old(indexes), sessionId, text, url, now)
    {
      AddPreserves(indexes, sessionId, text, url, now);
      if sessionId in indexes {
        var existing := indexes[sessionId];
        var docs := existing.docs + [Doc(|existing.docs| + 1, text, url)];
        indexes := indexes[sessionId := Session(docs, now + TTL)];
      } else {
        indexes := indexes[sessionId := Session([Doc(1, text, url)], now + TTL)];
      }
    }

    /** The session's documents, in insertion order with ids 1..n; none for a session
        that is unknown or has expired. */
    method GetDocuments(sessionId: string) returns (docs: seq<Doc>)
      requires Valid()
      ensures sessionId !in indexes ==> docs == []
      ensures sessionId in indexes ==> docs == indexes[sessionId].docs
      ensures SequentialIds(docs)
    {
      docs := if sessionId in indexes then indexes[sessionId].docs else [];
    }

    /** The session's timer fires at `now`: the session is deleted if its deadline has
        passed; a timer that was restarted by a later addition has not fired yet. */
    method Expire(sessionId: string, now: int)
      requires Valid()
      modifies this
      ensures Valid()
      ensures indexes == AfterExpire(old(indexes), sessionId, now)
    {
      ExpireRemovesOnlyThatSession(indexes, sessionId, now);
      if sessionId in indexes && indexes[sessionId].deadline <= now {
        indexes := indexes - {sessionId};
      }
    }
  }
}

=== FILE: strings.dfy ===
/** The JavaScript string operations the core relies on, over `seq<char>`:
    `trim`, `includes`, `indexOf`, `replace` with a string pattern, `join`,
    `split` on one character, `slice(0, n)`, `startsWith`/`endsWith`,
    ASCII case folding and decimal rendering of integers. */
module Strings {

  /** The characters JavaScript's `trim()` removes and the regular-expression class `\s`
      matches: WhiteSpace (tab, vertical tab, form feed, the byte-order mark and every
      space separator) and LineTerminator (LF, CR, U+2028, U+2029). */
  predicate IsWhitespace(c: char) {
    c in {'\t', '\n', '\U{000B}', '\U{000C}', '\r', ' ', '\U{00A0}', '\U{1680}',
          '\U{2028}', '\U{2029}', '\U{202F}', '\U{205F}', '\U{3000}', '\U{FEFF}'}
    || '\U{2000}' <= c <= '\U{200A}'
  }

  predicate IsDigit(c: char) { '0' <= c <= '9' }

  predicate AllDigits(s: string) { forall i :: 0 <= i < |s| ==> IsDigit(s[i]) }

  /** `s` with its leading whitespace removed: a suffix of `s`, starting at a
      non-whitespace character, with only whitespace dropped. */
  function TrimStart(s: string): (r: string)
    ensures |r| <= |s| && r == s[|s| - |r|..]
    ensures r == [] || !IsWhitespace(r[0])
    ensures forall i :: 0 <= i < |s| - |r| ==> IsWhitespace(s[i])
  {
    if |s| > 0 && IsWhitespace(s[0]) then TrimStart(s[1..]) else s
  }

  /** `s` with its trailing whitespace removed: a prefix of `s`, ending at a
      non-whitespace character, with only whitespace dropped. */
  function TrimEnd(s: string): (r: string)
    ensures |r| <= |s| && r == s[..|r|]
    ensures r == [] || !IsWhitespace(r[|r| - 1])
    ensures forall i :: |r| <= i < |s| ==> IsWhitespace(s[i])
  {
    if |s| > 0 && IsWhitespace(s[|s| - 1]) then TrimEnd(s[..|s| - 1]) else s
  }

  /** JavaScript's `s.trim()`. */
  function Trim(s: string): string {
    TrimEnd(TrimStart(s))
  }

  /** Trimming an already trimmed string changes nothing, so a field the source trims
      once and then trims again while validating has the same length both times. */
  lemma TrimIdempotent(s: string)
    ensures Trim(Trim(s)) == Trim(s)
  {
    var t := Trim(s);
    assert t == [] || (!IsWhitespace(t[0]) && !IsWhitespace(t[|t| - 1])) by {
      var u := TrimStart(s);
      if t != [] { assert t[0] == u[0]; }
    }
    assert TrimStart(t) == t;
  }

  /** Trimming yields the empty string exactly when every character is whitespace
      (so `s.trim() === ''` is the "blank" test of the source). */
  lemma {:induction false} TrimEmptyIffBlank(s: string)
    ensures Trim(s) == [] <==> forall i :: 0 <= i < |s| ==> IsWhitespace(s[i])
  {
    var u := TrimStart(s);
    if Trim(s) == [] {
      assert u == [];
    } else {
      var t := Trim(s);
      var k := |s| - |u|;
      assert s[k] == t[0];
      assert !IsWhitespace(s[k]);
    }
  }

  /** Trimming whitespace wrapped around a string that neither starts nor ends with
      whitespace gives that string back. */
  lemma TrimAround(pre: string, core: string, post: string)
    requires forall i :: 0 <= i < |pre| ==> IsWhitespace(pre[i])
    requires forall i :: 0 <= i < |post| ==> IsWhitespace(post[i])
    requires |core| > 0 && !IsWhitespace(core[0]) && !IsWhitespace(core[|core| - 1])
    ensures Trim(pre + core + post) == core
  {
    var s := pre + core + post;
    var u := TrimStart(s);
    var k := |s| - |u|;
    assert s[|pre|] == core[0];
    assert forall i :: 0 <= i < |pre| ==> s[i] == pre[i];
    assert k == |pre|;
    assert u == core + post;
    var t := TrimEnd(u);
    assert u[|core| - 1] == core[|core| - 1];
    assert forall i :: |core| <= i < |u| ==> u[i] == post[i - |core|];
    assert |t| == |core|;
    assert t == u[..|core|] == core;
  }

  /** `needle` occurs in `s` at index `i`. */
  predicate HasAt(s: string, needle: string, i: int) {
    0 <= i && i + |needle| <= |s| && s[i..i + |needle|] == needle
  }

  /** JavaScript's `s.includes(needle)`. */
  predicate Contains(s: string, needle: string) {
    exists i :: 0 <= i <= |s| && HasAt(s, needle, i)
  }

  /** A string contains each of its middle parts. */
  lemma ContainsMiddle(a: string, b: string, c: string)
    ensures Contains(a + b + c, b)
  {
    assert (a + b + c)[|a|..|a| + |b|] == b;
    assert HasAt(a + b + c, b, |a|);
  }

  /** The first occurrence of `needle` in `s` at or after `k`, or -1. */
  function IndexFrom(s: string, needle: string, k: nat): (r: int)
    requires k <= |s|
    ensures r == -1 || (k <= r && HasAt(s, needle, r))
    ensures r == -1 ==> forall j :: k <= j ==> !HasAt(s, needle, j)
    ensures r != -1 ==> forall j :: k <= j < r ==> !HasAt(s, needle, j)
    decreases |s| - k
  {
    if k + |needle| > |s| then -1
    else if s[k..k + |needle|] == needle then k
    else IndexFrom(s, needle, k + 1)
  }

  /** JavaScript's `s.indexOf(needle)`: the first occurrence, or -1 when there is none. */
  function IndexOf(s: string, needle: string): (r: int)
    ensures r == -1 <==> !Contains(s, needle)
    ensures r != -1 ==> HasAt(s, needle, r) && forall j :: 0 <= j < r ==> !HasAt(s, needle, j)
  {
    IndexFrom(s, needle, 0)
  }

  /** JavaScript's `s.replace(pattern, replacement)` with a string pattern (whose
      replacement holds no `$` sequence): only the first occurrence is replaced. */
  function ReplaceFirst(s: string, pattern: string, replacement: string): (r: string)
    ensures !Contains(s, pattern) ==> r == s
  {
    var i := IndexOf(s, pattern);
    if i == -1 then s else s[..i] + replacement + s[i + |pattern|..]
  }

  /** When `pattern` first occurs at `i`, only that occurrence is replaced. */
  lemma ReplaceFirstAt(s: string, pattern: string, replacement: string, i: nat)
    requires HasAt(s, pattern, i)
    requires forall j :: 0 <= j < i ==> !HasAt(s, pattern, j)
    ensures ReplaceFirst(s, pattern, replacement) == s[..i] + replacement + s[i + |pattern|..]
  {
    assert IndexOf(s, pattern) == i;
  }

  /** A string that starts with `prefix` has its first occurrence of `prefix` at 0,
      so replacing it removes exactly that prefix. */
  lemma ReplacePrefix(prefix: string, rest: string, replacement: string)
    ensures ReplaceFirst(prefix + rest, prefix, replacement) == replacement + rest
  {
    var s := prefix + rest;
    assert s[0..|prefix|] == prefix;
    ReplaceFirstAt(s, prefix, replacement, 0);
    assert s[|prefix|..] == rest;
  }

  /** When `before`, with all but the last character of `pattern` after it, holds no
      occurrence of `pattern`, the first occurrence in `before + pattern + after` is the
      one right after `before`. */
  lemma ReplaceFirstAfter(before: string, pattern: string, after: string, replacement: string)
    requires |pattern| > 0
    requires !Contains(before + pattern[..|pattern| - 1], pattern)
    ensures ReplaceFirst(before + pattern + after, pattern, replacement) == before + replacement + after
  {
    var s := before + pattern + after;
    var head := before + pattern[..|pattern| - 1];
    assert s[|before|..|before| + |pattern|] == pattern;
    forall j | 0 <= j < |before|
      ensures !HasAt(s, pattern, j)
    {
      if HasAt(s, pattern, j) {
        assert head[j..j + |pattern|] == s[j..j + |pattern|];
        assert HasAt(head, pattern, j);
      }
    }
    ReplaceFirstAt(s, pattern, replacement, |before|);
    assert s[..|before|] == before;
    assert s[|before| + |pattern|..] == after;
  }

  /** JavaScript's `s.startsWith(prefix)`. */
  predicate StartsWith(s: string, prefix: string) {
    |prefix| <= |s| && s[..|prefix|] == prefix
  }

  /** JavaScript's `s.endsWith(suffix)`. */
  predicate EndsWith(s: string, suffix: string) {
    |suffix| <= |s| && s[|s| - |suffix|..] == suffix
  }

  /** JavaScript's `parts.join(sep)`. */
  function Join(parts: seq<string>, sep: string): string {
    if |parts| == 0 then ""
    else if |parts| == 1 then parts[0]
    else parts[0] + sep + Join(parts[1..], sep)
  }

  /** Joining one more part adds the separator and that part at the end. */
  lemma {:induction false} JoinAppend(parts: seq<string>, last: string, sep: string)
    requires |parts| > 0
    ensures Join(parts + [last], sep) == Join(parts, sep) + sep + last
  {
    if |parts| == 1 {
      assert parts + [last] == [parts[0], last];
    } else {
      assert (parts + [last])[1..] == parts[1..] + [last];
      JoinAppend(parts[1..], last, sep);
    }
  }

  /** The first index of character `c` in `s`, or -1. */
  function IndexOfChar(s: string, c: char): (r: int)
    ensures -1 <= r < |s|
    ensures r == -1 <==> c !in s
    ensures r != -1 ==> s[r] == c && c !in s[..r]
  {
    if |s| == 0 then -1
    else if s[0] == c then 0
    else var k := IndexOfChar(s[1..], c); if k == -1 then -1 else k + 1
  }

  /** JavaScript's `s.split(c)` for a one-character separator: the pieces between
      the occurrences of `c`; there is always at least one piece, no piece contains
      `c`, and joining the pieces with `c` gives back `s`. */
  function Split(s: string, c: char): (r: seq<string>)
    ensures |r| >= 1
    ensures forall i :: 0 <= i < |r| ==> c !in r[i]
    ensures Join(r, [c]) == s
    decreases |s|
  {
    var i := IndexOfChar(s, c);
    if i == -1 then [s]
    else
      var rest := Split(s[i + 1..], c);
      var r := [s[..i]] + rest;
      assert r[0] == s[..i] && r[1..] == rest;
      assert Join(r, [c]) == s[..i] + [c] + Join(rest, [c]);
      assert s == s[..i] + [c] + s[i + 1..];
      r
  }

  /** The converse round trip: splitting the join of pieces that do not contain the
      separator gives back the pieces. */
  lemma {:induction false} SplitJoin(parts: seq<string>, c: char)
    requires |parts| >= 1
    requires forall i :: 0 <= i < |parts| ==> c !in parts[i]
    ensures Split(Join(parts, [c]), c) == parts
  {
    if |parts| == 1 {
    } else {
      var s := Join(parts, [c]);
      var tail := Join(parts[1..], [c]);
      assert s == parts[0] + [c] + tail;
      assert IndexOfChar(s, c) == |parts[0]| by {
        assert s[|parts[0]|] == c;
        assert s[..|parts[0]|] == parts[0];
      }
      assert s[|parts[0]| + 1..] == tail;
      assert s[..|parts[0]|] == parts[0];
      SplitJoin(parts[1..], c);
    }
  }

  /** JavaScript's `s.slice(0, n)` for `n >= 0`: the first `n` characters, or all of `s`. */
  function Take(s: string, n: nat): (r: string)
    ensures |r| == if n < |s| then n else |s|
    ensures StartsWith(s, r)
  {
    if n < |s| then s[..n] else s
  }

  /** ASCII case folding (`toLowerCase` on ASCII letters; other characters unchanged). */
  function AsciiLowerChar(c: char): char {
    if 'A' <= c <= 'Z' then (c as int + 32) as char else c
  }

  function AsciiLower(s: string): (r: string)
    ensures |r| == |s|
    ensures forall i :: 0 <= i < |s| ==> r[i] == AsciiLowerChar(s[i])
  {
    seq(|s|, i requires 0 <= i < |s| => AsciiLowerChar(s[i]))
  }

  /** Decimal rendering of a natural number, as `String(n)` gives it. */
  function NatToString(n: nat): (r: string)
    ensures |r| >= 1 && AllDigits(r)
    ensures n < 10 <==> |r| == 1
    ensures |r| > 1 ==> r[0] != '0'
    ensures DigitsValue(r) == n
    decreases n
  {
    var d := ['0' + (n % 10) as char];
    if n < 10 then d
    else
      var high := NatToString(n / 10);
      assert (high + d)[..|high|] == high;
      high + d
  }

  /** The number a string of decimal digits denotes, most significant digit first. */
  function DigitsValue(s: string): nat
    requires AllDigits(s)
  {
    if s == [] then 0
    else DigitsValue(s[..|s| - 1]) * 10 + (s[|s| - 1] - '0') as nat
  }

  /** Decimal rendering of an integer, with a leading '-' when negative. */
  function IntToString(n: int): string {
    if n < 0 then "-" + NatToString(-n) else NatToString(n)
  }
}

=== FILE: transcripts.dfy ===
/** The CMS chat transcript log: a JSON file holding one entry per logged exchange. The
    file is modelled as a field of the store that holds the parsed list, or nothing when
    the file is missing or cannot be parsed; the clock is a parameter. */
module Transcripts {
  import opened Wrappers
  import opened Values

  /** `{ role, content }`; the content is whatever the caller passed. */
  datatype Message = Message(role: string, content: Value)

  /** `{ sessionId, messages, timestamp }` */
  datatype Entry = Entry(sessionId: Value, messages: seq<Message>, timestamp: int)

  /** `all.reduce((acc, t) => acc + t.messages.length, 0)`: a left fold over the entries. */
  function MessageCount(entries: seq<Entry>): (r: nat)
    ensures forall k :: 0 <= k < |entries| ==> |entries[k].messages| <= r
  {
    if entries == [] then 0
    else
      assert forall k :: 0 <= k < |entries| - 1 ==> entries[..|entries| - 1][k] == entries[k];
      MessageCount(entries[..|entries| - 1]) + |entries[|entries| - 1].messages|
  }

  /** The count of a concatenation is the sum of the counts, so each entry contributes
      exactly its own messages wherever it sits. */
  lemma {:induction false} MessageCountConcat(a: seq<Entry>, b: seq<Entry>)
    ensures MessageCount(a + b) == MessageCount(a) + MessageCount(b)
    decreases |b|
  {
    if b != [] {
      var init := b[..|b| - 1];
      assert (a + b)[..|a + b| - 1] == a + init;
      assert (a + b)[|a + b| - 1] == b[|b| - 1];
      MessageCountConcat(a, init);
    } else {
      assert a + b == a;
    }
  }

  /** No messages are counted exactly when every entry is empty. */
  lemma {:induction false} MessageCountZeroIff(entries: seq<Entry>)
    ensures MessageCount(entries) == 0 <==> forall k :: 0 <= k < |entries| ==> entries[k].messages == []
  {
    if entries != [] {
      var init := entries[..|entries| - 1];
      MessageCountZeroIff(init);
      assert forall k :: 0 <= k < |init| ==> init[k] == entries[k];
    }
  }

  datatype Analytics = Analytics(totalSessions: nat, totalMessages: nat)

  /** `getAnalytics()` over the entries `readAll()` returned. */
  function AnalyticsOf(entries: seq<Entry>): (r: Analytics)
    ensures r.totalSessions == |entries|
    ensures r.totalMessages == MessageCount(entries)
  {
    Analytics(|entries|, MessageCount(entries))
  }

  /** Logging one more entry adds one session and exactly that entry's messages. */
  lemma AnalyticsAfterLog(entries: seq<Entry>, e: Entry)
    ensures AnalyticsOf(entries + [e]).totalSessions == AnalyticsOf(entries).totalSessions + 1
    ensures AnalyticsOf(entries + [e]).totalMessages == AnalyticsOf(entries).totalMessages + |e.messages|
  {
    MessageCountConcat(entries, [e]);
    assert [e][..0] == [];
  }

  class TranscriptStore {
    /** The parsed file, or `None` when it is missing or is not valid JSON. */
    var file: Option<seq<Entry>>

    constructor (initial: Option<seq<Entry>>)
      ensures file == initial
    {
      file := initial;
    }

    /** `readAll()`: a failed read or parse counts as no entries. */
    function ReadAll(): (r: seq<Entry>)
      reads this
      ensures file.None? ==> r == []
      ensures file.Some? ==> r == file.value
    {
      if file.Some? then file.value else []
    }

    /** `logTranscript(sessionId, messages)` at time `now`: reads the list, pushes one
        entry and writes the whole list back. */
    method LogTranscript(sessionId: Value, messages: seq<Message>, now: int)
      modifies this
      ensures file == Some(old(ReadAll()) + [Entry(sessionId, messages, now)])
      ensures |ReadAll()| == |old(ReadAll())| + 1
      ensures ReadAll()[..|ReadAll()| - 1] == old(ReadAll())
    {
      var all := ReadAll();
      all := all + [Entry(sessionId, messages, now)];
      file := Some(all);
    }

    /** `getAnalytics()`: the number of entries and the number of messages they hold. */
    method GetAnalytics() returns (a: Analytics)
      ensures a.totalSessions == |ReadAll()|
      ensures a.totalMessages == MessageCount(ReadAll())
    {
      var all := ReadAll();
      a := AnalyticsOf(all);
    }
  }

  /** A store whose file cannot be read reports no sessions and no messages, and the
      first logged exchange then becomes the only entry. */
  lemma UnreadableFileStartsEmpty(sessionId: Value, messages: seq<Message>, now: int)
    ensures AnalyticsOf([]) == Analytics(0, 0)
    ensures AnalyticsOf([] + [Entry(sessionId, messages, now)]) == Analytics(1, |messages|)
  {
    AnalyticsAfterLog([], Entry(sessionId, messages, now));
  }
}

=== FILE: values.dfy ===
/** JavaScript values as the core receives them: documents produced by `JSON.parse`
    (content files, request bodies, builder snippets) and, for the page schema, `Date`
    objects. `None` of an `Option<Value>` stands for `undefined`. */
module Values {
  import opened Wrappers
  import Strings

  /** Numbers are integers here; see README "Left out". */
  datatype Value =
    | Null
    | Bool(b: bool)
    | Num(n: int)
    | Str(s: string)
    | Arr(items: seq<Value>)
    | Obj(fields: map<string, Value>)
    | Date(time: int)

  /** JavaScript truthiness of a defined value. */
  predicate IsTruthy(v: Value) {
    match v
    case Null => false
    case Bool(b) => b
    case Num(n) => n != 0
    case Str(s) => s != ""
    case _ => true
  }

  /** Truthiness of a possibly undefined value: `!!v`. */
  predicate Truthy(v: Option<Value>) {
    v.Some? && IsTruthy(v.value)
  }

  /** `v.key`: the field of an object, `undefined` for every other value. */
  function Get(v: Value, key: string): Option<Value> {
    if v.Obj? && key in v.fields then Some(v.fields[key]) else None
  }

  /** `v?.key`: `undefined` when `v` itself is undefined. */
  function GetOpt(v: Option<Value>, key: string): Option<Value> {
    if v.Some? then Get(v.value, key) else None
  }

  /** A string-valued field, if the field holds a string. */
  predicate IsStr(v: Option<Value>) {
    v.Some? && v.value.Str?
  }

  /** `v ?? d`: `d` when `v` is undefined or null. */
  function OrElse(v: Option<Value>, d: Value): Value {
    if v.None? || v.value.Null? then d else v.value
  }

  /** `String(v)` for a defined value, as a template literal `${v}` renders it. */
  function Render(v: Value): string
    decreases v
  {
    match v
    case Null => "null"
    case Bool(b) => if b then "true" else "false"
    case Num(n) => Strings.IntToString(n)
    case Str(s) => s
    case Arr(items) =>
      Strings.Join(seq(|items|, i requires 0 <= i < |items| =>
                         if items[i].Null? then "" else Render(items[i])), ",")
    case Obj(_) => "[object Object]"
    case Date(t) => Strings.IntToString(t)
  }

  /** `${v}` for a possibly undefined value. */
  function Display(v: Option<Value>): string {
    if v.None? then "undefined" else Render(v.value)
  }

  /** How `Array.prototype.join` renders one element: `undefined` and `null` as "". */
  function JoinElement(v: Option<Value>): string {
    if v.None? || v.value.Null? then "" else Render(v.value)
  }
}

=== FILE: visual_builder.dfy ===
/** The state transforms of the CMS visual page builder: the block list, its grid
    layout and the selected block, changed by dropping a block from the library,
    rearranging the grid, editing the selected block and loading a saved snippet; the
    hero form rule; the MDX export; and the accessibility/SEO check that gates the
    preview. Rendering, drag sensors and the editor widgets are left out. */
module VisualBuilder {
  import opened Wrappers
  import opened Values
  import opened Strings

  /** A block on the canvas; its data is whatever the block's form produced. */
  datatype BuilderBlock = BuilderBlock(id: string, blockType: string, data: Value)

  /** A grid row: a dropped block is placed at `y: Infinity` (the bottom of the grid). */
  datatype Row = Bottom | Row(n: int)

  /** One grid-layout entry for the block with id `i`. */
  datatype LayoutItem = LayoutItem(i: string, x: int, y: Row, w: int, h: int)

  /** The block library: each registered type with its default data. */
  const Definitions: map<string, Value> := map[
    "hero" := Obj(map["decorative" := Bool(false), "heading" := Str("Heading"),
                      "subheading" := Str(""), "content" := Str("")]),
    "cta" := Obj(map["text" := Str("Click me"), "url" := Str("https://example.com")]),
    "image" := Obj(map["url" := Str(""), "alt" := Str(""), "caption" := Str(""),
                       "credit" := Str(""), "license" := Str("")]),
    "text" := Obj(map["text" := Str("Paragraph"), "asList" := Bool(false)])
  ]

  // ---------------------------------------------------------------------------
  // The hero form
  // ---------------------------------------------------------------------------

  /** The object shape of the hero form: an optional boolean `decorative` and optional
      string `heading`, `subheading` and `content`. */
  predicate HeroShape(data: Value) {
    data.Obj?
    && (Get(data, "decorative").None? || Get(data, "decorative").value.Bool?)
    && OptionalString(Get(data, "heading")) && OptionalString(Get(data, "subheading"))
    && OptionalString(Get(data, "content"))
  }

  predicate OptionalString(f: Option<Value>) {
    f.None? || f.value.Str?
  }

  /** The hero form accepts its data when the shape is right and the block is decorative
      (the default is not) or has a non-empty heading. */
  function HeroAccepts(data: Value): (ok: bool)
    ensures ok ==> HeroShape(data)
    ensures HeroShape(data) ==>
              (ok <==> Get(data, "decorative") == Some(Bool(true))
                       || (Get(data, "heading").Some? && Get(data, "heading").value.s != ""))
  {
    HeroShape(data) && (Truthy(Get(data, "decorative")) || Truthy(Get(data, "heading")))
  }

  /** The hero's default data is accepted; clearing its heading makes it rejected unless
      it is marked decorative. */
  lemma HeroDefaultAccepted()
    ensures HeroAccepts(Definitions["hero"])
    ensures !HeroAccepts(Obj(Definitions["hero"].fields["heading" := Str("")]))
    ensures HeroAccepts(Obj(Definitions["hero"].fields["heading" := Str("")]["decorative" := Bool(true)]))
  {
    var f := Definitions["hero"].fields;
    assert Get(Obj(f["heading" := Str("")]), "decorative") == Some(Bool(false));
  }

  // ---------------------------------------------------------------------------
  // Lookups and list transforms
  // ---------------------------------------------------------------------------

  function Ids(blocks: seq<BuilderBlock>): seq<string> {
    seq(|blocks|, k requires 0 <= k < |blocks| => blocks[k].id)
  }

  predicate UniqueIds(blocks: seq<BuilderBlock>) {
    forall a, b :: 0 <= a < b < |blocks| ==> blocks[a].id != blocks[b].id
  }

  /** `blocks.find(b => b.id === id)`: the first block with that id. */
  function Find(blocks: seq<BuilderBlock>, id: string): (r: Option<BuilderBlock>)
    ensures r.Some? <==> id in Ids(blocks)
    ensures r.Some? ==> r.value in blocks && r.value.id == id
    ensures r.Some? && |blocks| > 0 && blocks[0].id == id ==> r.value == blocks[0]
  {
    if |blocks| == 0 then None
    else
      assert Ids(blocks) == [blocks[0].id] + Ids(blocks[1..]);
      if blocks[0].id == id then Some(blocks[0]) else Find(blocks[1..], id)
  }

  /** With unique ids, looking up a block's id finds that very block. */
  lemma {:induction false} FindUnique(blocks: seq<BuilderBlock>, j: int)
    requires UniqueIds(blocks) && 0 <= j < |blocks|
    ensures Find(blocks, blocks[j].id) == Some(blocks[j])
  {
    var r := Find(blocks, blocks[j].id);
    assert blocks[j].id in Ids(blocks) by {
      assert Ids(blocks)[j] == blocks[j].id;
    }
    var m :| 0 <= m < |blocks| && blocks[m] == r.value;
    assert blocks[m].id == blocks[j].id;
  }

  function LayoutIds(next: seq<LayoutItem>): seq<string> {
    seq(|next|, k requires 0 <= k < |next| => next[k].i)
  }

  /** The layout ids that name some block, in layout order. */
  function KnownIds(ids: seq<string>, known: seq<string>): seq<string> {
    if |ids| == 0 then []
    else (if ids[0] in known then [ids[0]] else []) + KnownIds(ids[1..], known)
  }

  /** `next.map(l => prev.find(b => b.id === l.i)).filter(Boolean)`: the blocks in the
      order of the new layout, dropping layout entries with no block. */
  function FollowLayout(prev: seq<BuilderBlock>, next: seq<LayoutItem>): (r: seq<BuilderBlock>)
    ensures |r| <= |next|
    ensures forall k :: 0 <= k < |r| ==> r[k] in prev
  {
    if |next| == 0 then []
    else
      var found := Find(prev, next[0].i);
      (if found.Some? then [found.value] else []) + FollowLayout(prev, next[1..])
  }

  /** Reordering keeps only blocks that were there, and lists them by the layout's ids,
      skipping the ids that name no block. */
  lemma {:induction false} FollowLayoutOrder(prev: seq<BuilderBlock>, next: seq<LayoutItem>)
    ensures forall b :: b in FollowLayout(prev, next) ==> b in prev
    ensures Ids(FollowLayout(prev, next)) == KnownIds(LayoutIds(next), Ids(prev))
  {
    if |next| > 0 {
      FollowLayoutOrder(prev, next[1..]);
      assert LayoutIds(next) == [next[0].i] + LayoutIds(next[1..]);
      var found := Find(prev, next[0].i);
      var head := if found.Some? then [found.value] else [];
      assert Ids(head + FollowLayout(prev, next[1..])) == Ids(head) + Ids(FollowLayout(prev, next[1..]));
    }
  }

  /** A layout that lists the blocks' own ids in their current order leaves the blocks
      as they are. */
  lemma {:induction false} FollowLayoutIdentity(prev: seq<BuilderBlock>, next: seq<LayoutItem>, j: nat)
    requires UniqueIds(prev) && j <= |prev|
    requires |next| == |prev| - j
    requires forall k :: 0 <= k < |next| ==> next[k].i == prev[j + k].id
    ensures FollowLayout(prev, next) == prev[j..]
    decreases |next|
  {
    if |next| > 0 {
      FindUnique(prev, j);
      FollowLayoutIdentity(prev, next[1..], j + 1);
      assert prev[j..] == [prev[j]] + prev[j + 1..];
    }
  }

  /** `prev.map(b => b.id === id ? { ...b, data } : b)` */
  function Updated(blocks: seq<BuilderBlock>, id: string, data: Value): (r: seq<BuilderBlock>)
    ensures |r| == |blocks|
    ensures forall k :: 0 <= k < |r| ==> r[k].id == blocks[k].id && r[k].blockType == blocks[k].blockType
    ensures forall k :: 0 <= k < |r| ==> r[k].data == (if blocks[k].id == id then data else blocks[k].data)
  {
    seq(|blocks|, k requires 0 <= k < |blocks| =>
          if blocks[k].id == id then blocks[k].(data := data) else blocks[k])
  }

  /** Updating with unique ids changes exactly one block, the one with that id. */
  lemma UpdatedChangesOne(blocks: seq<BuilderBlock>, j: int, data: Value)
    requires UniqueIds(blocks) && 0 <= j < |blocks|
    ensures Updated(blocks, blocks[j].id, data) == blocks[j := blocks[j].(data := data)]
  {
  }

  /** The layout of a loaded snippet: one full-width entry per block, stacked two rows
      apart in block order. */
  function SnippetLayout(parsed: seq<BuilderBlock>): (r: seq<LayoutItem>)
    ensures |r| == |parsed| && LayoutIds(r) == Ids(parsed)
    ensures forall k :: 0 <= k < |r| ==> r[k] == LayoutItem(parsed[k].id, 0, Row(2 * k), 12, 2)
  {
    seq(|parsed|, k requires 0 <= k < |parsed| => LayoutItem(parsed[k].id, 0, Row(k * 2), 12, 2))
  }

  /** A snippet's own layout keeps its blocks in place (when their ids are unique). */
  lemma SnippetLayoutKeepsOrder(parsed: seq<BuilderBlock>)
    requires UniqueIds(parsed)
    ensures FollowLayout(parsed, SnippetLayout(parsed)) == parsed
  {
    FollowLayoutIdentity(parsed, SnippetLayout(parsed), 0);
  }

  // ---------------------------------------------------------------------------
  // MDX export
  // ---------------------------------------------------------------------------

  /** A text block rendered as a list: each line prefixed with "- ". */
  function Bullets(text: string): string {
    var lines := Split(text, '\n');
    Join(seq(|lines|, k requires 0 <= k < |lines| => "- " + lines[k]), "\n")
  }

  /** The list's lines are exactly the text's lines, each prefixed with "- ", so the text
      can be read back from its list. */
  lemma BulletsLines(text: string)
    ensures var lines := Split(text, '\n');
            Split(Bullets(text), '\n') == seq(|lines|, k requires 0 <= k < |lines| => "- " + lines[k])
    ensures var items := Split(Bullets(text), '\n');
            Join(seq(|items|, k requires 0 <= k < |items| => items[k][2..]), "\n") == text
  {
    var lines := Split(text, '\n');
    var items := seq(|lines|, k requires 0 <= k < |lines| => "- " + lines[k]);
    forall k | 0 <= k < |items| ensures '\n' !in items[k] {
      assert '\n' !in lines[k];
    }
    SplitJoin(items, '\n');
    assert seq(|items|, k requires 0 <= k < |items| => items[k][2..]) == lines;
  }

  /** A block the export can render without throwing: the four known types read
      `b.data.<field>`, which throws when the data is `null`, and a text block shown as a
      list calls `.split` on its text, which must then be a string. */
  predicate Exportable(b: BuilderBlock) {
    && (b.blockType in Definitions ==> !b.data.Null?)
    && (b.blockType == "text" && Truthy(Get(b.data, "asList")) ==>
          Get(b.data, "text").Some? && Get(b.data, "text").value.Str?)
  }

  /** One block as MDX: `![alt](url)`, the text (as a list when `asList`), `[text](url)`,
      `## heading` with the content on the next line, or nothing for an unknown type.
      Fields are rendered as template literals render them. */
  function BlockToMdx(b: BuilderBlock): (r: string)
    requires Exportable(b)
    ensures b.blockType !in Definitions ==> r == ""
    ensures b.blockType == "image" ==> StartsWith(r, "![") && EndsWith(r, ")")
    ensures b.blockType == "cta" ==> StartsWith(r, "[") && EndsWith(r, ")")
    ensures b.blockType == "hero" ==> StartsWith(r, "## " + Display(Get(b.data, "heading")) + "\n")
    ensures (b.blockType == "text" && !Truthy(Get(b.data, "asList")) && Get(b.data, "text").Some?
             && Get(b.data, "text").value.Str?) ==> r == Get(b.data, "text").value.s
    ensures b.blockType == "text" && Truthy(Get(b.data, "asList")) ==>
              |Split(r, '\n')| == |Split(Get(b.data, "text").value.s, '\n')|
  {
    var d := b.data;
    match b.blockType
    case "image" => "![" + Display(Get(d, "alt")) + "](" + Display(Get(d, "url")) + ")"
    case "text" =>
      if Truthy(Get(d, "asList")) then
        BulletsLines(Get(d, "text").value.s);
        Bullets(Display(Get(d, "text")))
      else JoinElement(Get(d, "text"))
    case "cta" => "[" + Display(Get(d, "text")) + "](" + Display(Get(d, "url")) + ")"
    case "hero" =>
      var line := "## " + Display(Get(d, "heading")) + "\n";
      assert (line + Render(OrElse(Get(d, "content"), Str(""))))[..|line|] == line;
      line + Render(OrElse(Get(d, "content"), Str("")))
    case _ => ""
  }

  /** The MDX document: the blocks in order, separated by blank lines. */
  function BlocksToMdx(items: seq<BuilderBlock>): (r: string)
    requires forall k :: 0 <= k < |items| ==> Exportable(items[k])
    ensures items == [] ==> r == ""
    ensures |items| == 1 ==> r == BlockToMdx(items[0])
  {
    Join(seq(|items|, k requires 0 <= k < |items| => BlockToMdx(items[k])), "\n\n")
  }

  /** Each block adds its own rendering after a blank line; an unknown block type adds
      only the separator. */
  lemma BlocksToMdxAppend(items: seq<BuilderBlock>, b: BuilderBlock)
    requires |items| > 0
    requires forall k :: 0 <= k < |items| ==> Exportable(items[k])
    requires Exportable(b)
    ensures BlocksToMdx(items + [b]) == BlocksToMdx(items) + "\n\n" + BlockToMdx(b)
    ensures b.blockType !in Definitions ==> BlocksToMdx(items + [b]) == BlocksToMdx(items) + "\n\n"
  {
    var parts := seq(|items|, k requires 0 <= k < |items| => BlockToMdx(items[k]));
    assert seq(|items + [b]|, k requires 0 <= k < |items + [b]| => BlockToMdx((items + [b])[k]))
           == parts + [BlockToMdx(b)];
    JoinAppend(parts, BlockToMdx(b), "\n\n");
  }

  /** An image and a call to action render as Markdown image and link syntax, plain text
      as itself, and a hero as a level-2 heading followed by its content, or by nothing
      when it has none. */
  lemma MdxExamples(alt: string, url: string, text: string, heading: string, content: string)
    ensures BlockToMdx(BuilderBlock("a", "image", Obj(map["alt" := Str(alt), "url" := Str(url)])))
            == "![" + alt + "](" + url + ")"
    ensures BlockToMdx(BuilderBlock("b", "cta", Obj(map["text" := Str(text), "url" := Str(url)])))
            == "[" + text + "](" + url + ")"
    ensures BlockToMdx(BuilderBlock("c", "text", Obj(map["text" := Str(text)]))) == text
    ensures BlockToMdx(BuilderBlock("d", "hero", Obj(map["heading" := Str(heading), "content" := Str(content)])))
            == "## " + heading + "\n" + content
    ensures BlockToMdx(BuilderBlock("e", "hero", Obj(map["heading" := Str(heading)]))) == "## " + heading + "\n"
  {
    var image := Obj(map["alt" := Str(alt), "url" := Str(url)]);
    assert Get(image, "alt") == Some(Str(alt)) && Get(image, "url") == Some(Str(url));
    var cta := Obj(map["text" := Str(text), "url" := Str(url)]);
    assert Get(cta, "text") == Some(Str(text)) && Get(cta, "url") == Some(Str(url));
    var plain := Obj(map["text" := Str(text)]);
    assert Get(plain, "asList") == None && Get(plain, "text") == Some(Str(text));
    var hero := Obj(map["heading" := Str(heading), "content" := Str(content)]);
    assert Get(hero, "heading") == Some(Str(heading)) && Get(hero, "content") == Some(Str(content));
    var bare := Obj(map["heading" := Str(heading)]);
    assert Get(bare, "heading") == Some(Str(heading)) && Get(bare, "content") == None;
  }

  // ---------------------------------------------------------------------------
  // The check before preview
  // ---------------------------------------------------------------------------

  /** A block the check can read without throwing: an image or hero block reads
      `b.data.alt` or `b.data.decorative`, which throws when the data is `null`. */
  predicate Checkable(b: BuilderBlock) {
    b.blockType == "image" || b.blockType == "hero" ==> !b.data.Null?
  }

  /** The messages for the block at 1-based position `n`. */
  function BlockIssues(b: BuilderBlock, n: nat): (r: seq<string>)
    requires Checkable(b)
    ensures |r| <= 1
    ensures r == [] <==> && (b.blockType == "image" ==> Truthy(Get(b.data, "alt")))
                         && (b.blockType == "hero" ==>
                               Truthy(Get(b.data, "decorative")) || Truthy(Get(b.data, "heading")))
  {
    (if b.blockType == "image" && !Truthy(Get(b.data, "alt"))
     then ["Image block #" + NatToString(n) + " requires alt text"] else [])
    + (if b.blockType == "hero" && !Truthy(Get(b.data, "decorative")) && !Truthy(Get(b.data, "heading"))
       then ["Hero block #" + NatToString(n) + " requires a heading"] else [])
  }

  /** Every image has alt text and every hero is decorative or has a heading. */
  predicate BlockOk(b: BuilderBlock) {
    (b.blockType == "image" ==> Truthy(Get(b.data, "alt")))
    && (b.blockType == "hero" ==> Truthy(Get(b.data, "decorative")) || Truthy(Get(b.data, "heading")))
  }

  /** All the messages, in block order: at most one per block (a block is an image or a
      hero, not both), each naming an image or a hero block. */
  function SeoIssues(items: seq<BuilderBlock>): (r: seq<string>)
    requires forall k :: 0 <= k < |items| ==> Checkable(items[k])
    ensures |r| <= |items|
    ensures forall i :: 0 <= i < |r| ==>
              StartsWith(r[i], "Image block #") || StartsWith(r[i], "Hero block #")
  {
    if |items| == 0 then []
    else
      var last := items[|items| - 1];
      var n := NatToString(|items|);
      assert StartsWith("Image block #" + n + " requires alt text", "Image block #");
      assert StartsWith("Hero block #" + n + " requires a heading", "Hero block #");
      SeoIssues(items[..|items| - 1]) + BlockIssues(last, |items|)
  }

  /** There is no message exactly when every block is fine. */
  lemma {:induction false} SeoIssuesEmptyIff(items: seq<BuilderBlock>)
    requires forall k :: 0 <= k < |items| ==> Checkable(items[k])
    ensures SeoIssues(items) == [] <==> forall k :: 0 <= k < |items| ==> BlockOk(items[k])
  {
    if |items| > 0 {
      var init := items[..|items| - 1];
      SeoIssuesEmptyIff(init);
      assert forall k :: 0 <= k < |init| ==> init[k] == items[k];
      assert BlockIssues(items[|items| - 1], |items|) == [] <==> BlockOk(items[|items| - 1]);
    }
  }

  /** `validateSEO`: walks the blocks in order, pushing a message for each image without
      alt text and each non-decorative hero without a heading. */
  method ValidateSeo(items: seq<BuilderBlock>) returns (errors: seq<string>)
    requires forall k :: 0 <= k < |items| ==> Checkable(items[k])
    ensures errors == SeoIssues(items)
  {
    errors := [];
    var idx := 0;
    while idx < |items|
      invariant 0 <= idx <= |items|
      invariant errors == SeoIssues(items[..idx])
    {
      var b := items[idx];
      assert items[..idx + 1][..idx] == items[..idx];
      if b.blockType == "image" && !Truthy(Get(b.data, "alt")) {
        errors := errors + ["Image block #" + NatToString(idx + 1) + " requires alt text"];
      }
      if b.blockType == "hero" && !Truthy(Get(b.data, "decorative")) && !Truthy(Get(b.data, "heading")) {
        errors := errors + ["Hero block #" + NatToString(idx + 1) + " requires a heading"];
      }
      idx := idx + 1;
    }
    assert items[..idx] == items;
  }

  // ---------------------------------------------------------------------------
  // The builder's state
  // ---------------------------------------------------------------------------

  class Builder {
    var blocks: seq<BuilderBlock>
    var layout: seq<LayoutItem>
    var selectedId: Option<string>

    constructor ()
      ensures blocks == [] && layout == [] && selectedId == None
    {
      blocks := [];
      layout := [];
      selectedId := None;
    }

    /** A drag from the library ends. Dropping a registered type on the canvas appends
        one block with the fresh id and the type's default data, and one full-width
        layout entry at the bottom; any other drop changes nothing. `freshId` is the
        generated id, which no block on the canvas carries yet. */
    method HandleDragEnd(activeId: string, overId: Option<string>, freshId: string)
      requires freshId !in Ids(blocks)
      modifies this
      ensures UniqueIds(old(blocks)) ==> UniqueIds(blocks)
      ensures overId == Some("canvas") && activeId in Definitions ==>
                blocks == old(blocks) + [BuilderBlock(freshId, activeId, Definitions[activeId])]
                && layout == old(layout) + [LayoutItem(freshId, 0, Bottom, 12, 2)]
      ensures !(overId == Some("canvas") && activeId in Definitions) ==>
                blocks == old(blocks) && layout == old(layout)
      ensures selectedId == old(selectedId)
    {
      if overId == Some("canvas") && activeId in Definitions {
        assert forall k :: 0 <= k < |blocks| ==> blocks[k].id == Ids(blocks)[k];
        blocks := blocks + [BuilderBlock(freshId, activeId, Definitions[activeId])];
        layout := layout + [LayoutItem(freshId, 0, Bottom, 12, 2)];
      }
    }

    /** The grid was rearranged: the layout is replaced and the blocks follow it. */
    method HandleLayoutChange(next: seq<LayoutItem>)
      modifies this
      ensures layout == next
      ensures blocks == FollowLayout(old(blocks), next)
      ensures selectedId == old(selectedId)
    {
      layout := next;
      blocks := FollowLayout(blocks, next);
    }

    /** The selected block: the first block whose id is the selected id. */
    function SelectedBlock(): (r: Option<BuilderBlock>)
      reads this
      ensures selectedId.None? ==> r.None?
      ensures r.Some? ==> r.value in blocks && r.value.id == selectedId.value
      ensures selectedId.Some? ==> (r.Some? <==> selectedId.value in Ids(blocks))
    {
      if selectedId.Some? then Find(blocks, selectedId.value) else None
    }

    /** The inspector saved `data` for the selected block: every block with that id gets
        the new data; with nothing selected nothing changes. */
    method UpdateSelected(data: Value)
      modifies this
      ensures old(SelectedBlock()).None? ==> blocks == old(blocks)
      ensures old(SelectedBlock()).Some? ==> blocks == Updated(old(blocks), old(SelectedBlock()).value.id, data)
      ensures layout == old(layout) && selectedId == old(selectedId)
    {
      var selected := SelectedBlock();
      if selected.None? {
        return;
      }
      blocks := Updated(blocks, selected.value.id, data);
    }

    /** A saved snippet was loaded (nothing happens when none is stored). */
    method LoadSnippet(raw: Option<seq<BuilderBlock>>)
      modifies this
      ensures raw.None? ==> blocks == old(blocks) && layout == old(layout)
      ensures raw.Some? ==> blocks == raw.value && layout == SnippetLayout(raw.value)
      ensures selectedId == old(selectedId)
    {
      if raw.Some? {
        blocks := raw.value;
        layout := SnippetLayout(raw.value);
      }
    }

    /** The preview opens exactly when the check finds no issue; otherwise the issues
        are shown one per line. */
    method Preview() returns (opens: bool, alertText: string)
      requires forall k :: 0 <= k < |blocks| ==> Checkable(blocks[k])
      ensures opens <==> forall k :: 0 <= k < |blocks| ==> BlockOk(blocks[k])
      ensures !opens ==> alertText == "SEO issues:\n" + Join(SeoIssues(blocks), "\n")
    {
      var errors := ValidateSeo(blocks);
      SeoIssuesEmptyIff(blocks);
      if |errors| > 0 {
        return false, "SEO issues:\n" + Join(errors, "\n");
      }
      return true, "";
    }
  }
}

=== FILE: wrappers.dfy ===
/** The optional value used throughout the model for JavaScript's `undefined`/`null`
    results and for fields a schema marks as optional. */
module Wrappers {

  datatype Option<+T> = None | Some(value: T) {

    /** The value, or `default` when absent (JavaScript's `x ?? default`). */
    function GetOr(default: T): T {
      match this
      case Some(v) => v
      case None => default
    }
  }
}
